=== FILE: README.md ===
# LCK audio and recording core, in Dafny

A model of the audio-and-recording core of the LCK camera package (a Unity
C# package). The model is built from four components.

- **LckAudioCapture** (`audio_capture.dfy`, module `AudioCapture`). One audio source.
  - The audio callback feeds a circular level monitor. While capture is enabled, it also appends a volume-scaled copy of the device buffer to a FIFO of fixed-size chunks, then silences the device buffer when output is muted.
  - The mixer drains whole frames of `frameSize / dspBufferSize` chunks from the front of that FIFO.
- **LckAudioMixer** (`audio_mixer.dfy`, module `AudioMixer`). The list of sources: game listeners and at most one microphone.
  - Mute states are applied as per-source volumes of 0 or 1.
  - It reports the level meters.
  - The mix takes the fewest whole frames any source has, drains that many from every source, and adds the other sources' samples in place into the first source's buffer.
- **LckRecorder** (`recorder.dfy`, module `Recorder`). The session flag and the microphone flags that guard the native encoder calls.
  - The capture buffers handed to the encoder, their release, and the output file's name.
  - Every native call is recorded as an event in an `events` log. A native call's result, when it has one, is a parameter of the method that models it.
- **LckMixer** (`mixer.dfy`, module `Mixer`). The orchestrator.
  - Start and stop requests set pending flags. A per-frame update paces the camera to the track framerate and serves a pending request once a 250 ms cooldown has passed.
  - While a session runs, an encode loop mixes one frame of audio, stamps it with the stereo sample pairs submitted so far, and hands it with the frame's ready flag to the recorder.

The shared value types are in `types.dfy` (module `LckTypes`):
- the result and error codes;
- the track descriptors;
- small helpers: `Min`, `MaxReal`, `Abs`.

Arithmetic lemmas about integer division and remainders are in `arith.dfy` (module `Arith`).

Each class keeps the fields its source class updates in place. The methods change them under `modifies` clauses. One exception is the update coroutine's render pacing, which the orchestrator holds as a separate `RenderPacing` object:
- the render stopwatch and the overflow it carries, which are locals of the coroutine in the source;
- the `_frameHasBeenRendered` flag the encode loop reads, which is a field of the mixer in the source;
- whether the active camera renders, which is the camera's own state in the source.

Only the update's pacing, `Wait` and the camera methods change that object.

Pure specification functions sit beside each class:
- `Flatten`, `RequiredChunks` and `LevelFrom` for a capture;
- `Mix` for the mixer;
- `StartRequest`, `StopRequest`, `ToggleStep` and `Paced` for the orchestrator;
- `ReleasedAll` and `StartReports` for the recorder.

Lemmas state what the source promises about these functions.

Outside inputs become parameters:
- time: the `Wait` step and the `now` arguments;
- the native encoder's results;
- the scene's capture components;
- the audio device's buffer size, speaker channel count and output rate;
- the formatted date and the cache directory.

The asynchronous parts become separate completion methods:
- the recorder's start and stop tasks: `CompleteStart`, `CompleteStop`;
- the Android microphone open: `CompleteOpenMicrophone`;
- the gallery copy: `CompleteGalleryCopy`;
- the orchestrator's callbacks: `CompleteRecorderStart`, `CompleteRecorderStop`.

The encode coroutine is one `EncodeStep` per pass. The update coroutine is one `Update` per frame.

## Model

All source paths are under `Minkephobia/Assets/Camera/Runtime/Scripts/Components/`.

| member | source | states |
|---|---|---|
| AudioCapture.RequiredChunks | Minkephobia/Assets/Camera/Runtime/Scripts/Components/LckAudioCapture.cs:48-50 | The chunks taken are never more than are queued and always a whole number of frames. They are the whole request when that many frames are queued, and otherwise all the whole frames queued. |
| AudioCapture.DrainSplitsStream | Minkephobia/Assets/Camera/Runtime/Scripts/Components/LckAudioCapture.cs:52-61 | The samples handed out, followed by the samples left queued, are exactly the samples that were queued: draining loses, duplicates and reorders nothing. |
| AudioCapture.FlattenLength | Minkephobia/Assets/Camera/Runtime/Scripts/Components/LckAudioCapture.cs:51 | Chunks of one size flatten to count times size samples, which is the length of the array the drain allocates. |
| AudioCapture.MutedCaptureIsSilent | Minkephobia/Assets/Camera/Runtime/Scripts/Components/LckAudioCapture.cs:123-130 | At volume 0 the captured copy is silence of the input's length. |
| AudioCapture.UnitVolumeCaptureIsIdentity | Minkephobia/Assets/Camera/Runtime/Scripts/Components/LckAudioCapture.cs:123-130 | At volume 1 the captured copy equals the input. |
| AudioCapture.FrameMagnitude | Minkephobia/Assets/Camera/Runtime/Scripts/Components/LckAudioCapture.cs:146-152 | The value fed to the monitor for one sample frame is the mean magnitude of its channels, and it is never negative. |
| AudioCapture.LevelFromKeepsRing | Minkephobia/Assets/Camera/Runtime/Scripts/Components/LckAudioCapture.cs:140-156 | Feeding sample frames keeps the ring's size and keeps the write index inside the ring. The index advances by the number of frames modulo the ring size. The running sum stays non-negative, and is at least 0.01 once a frame was fed. |
| AudioCapture.LckAudioCapture.constructor | Minkephobia/Assets/Camera/Runtime/Scripts/Components/LckAudioCapture.cs:28-39 | The chunk size is the device buffer size times the output channel count, which is the length of every callback buffer. The ring has that size, the volume is 1, capture is off and the queue is empty. |
| AudioCapture.AwakeChunkSizeMisfits | Minkephobia/Assets/Camera/Runtime/Scripts/Components/LckAudioCapture.cs:28-34 | The chunk size as written, twice the device buffer size, equals a callback buffer's length only for stereo output: it is larger for mono and smaller for more than two channels. |
| AudioCapture.LastChunkOverruns | Minkephobia/Assets/Camera/Runtime/Scripts/Components/LckAudioCapture.cs:48-55 | With more than two output channels, a drain of n chunks copies its last queued chunk, a whole callback buffer, to offset (n - 1) times the chunk size, and that copy ends past the n chunk sizes allocated. |
| AudioCapture.LckAudioCapture.GetAudioData | Minkephobia/Assets/Camera/Runtime/Scripts/Components/LckAudioCapture.cs:41-64 | For `RequiredChunks` chunks: the result has that many chunks' worth of samples and holds the queue's first chunks, concatenated in order. The queue afterwards is the old queue without them. |
| AudioCapture.LckAudioCapture.GetCurrentAudioLevel | Minkephobia/Assets/Camera/Runtime/Scripts/Components/LckAudioCapture.cs:66-69 | It is 0 before any sample. Otherwise, times the sample count, it gives the running sum. It is never negative. |
| AudioCapture.LckAudioCapture.EnableCapture | Minkephobia/Assets/Camera/Runtime/Scripts/Components/LckAudioCapture.cs:71-79 | Capture is on. The microphone variant also mutes its own output. |
| AudioCapture.LckAudioCapture.DisableCapture | Minkephobia/Assets/Camera/Runtime/Scripts/Components/LckAudioCapture.cs:81-88 | Capture is off. |
| AudioCapture.LckAudioCapture.OnAudioFilterRead | Minkephobia/Assets/Camera/Runtime/Scripts/Components/LckAudioCapture.cs:92-108 | The callback always feeds the level monitor with the unsilenced input. It appends a scaled copy only while capturing. The device buffer is zeroed afterwards exactly when output is muted, and is otherwise unchanged. |
| AudioCapture.LckAudioCapture.CaptureAudio | Minkephobia/Assets/Camera/Runtime/Scripts/Components/LckAudioCapture.cs:123-136 | The queue gains exactly one chunk at its end: the input scaled by the volume. |
| AudioCapture.LckAudioCapture.CaptureAudioLevel | Minkephobia/Assets/Camera/Runtime/Scripts/Components/LckAudioCapture.cs:138-159 | The monitor ends as `LevelFrom` of its old state over every sample frame. The sample count grows by the frame count, capped at the ring size. |
| AudioCapture.LckAudioCapture.FeedLevel | Minkephobia/Assets/Camera/Runtime/Scripts/Components/LckAudioCapture.cs:142-154 | One ring step: the leaving magnitude is subtracted with a floor of 0.01. The new magnitude is added scaled by the volume, and the ring stores it unscaled. The index wraps. The sum is at least 0.01 afterwards. |
| AudioCapture.LckAudioCapture.GetAvailableAudioFrames | Minkephobia/Assets/Camera/Runtime/Scripts/Components/LckAudioCapture.cs:161-165 | It is the number of whole frames queued: that many frames fit in the queue, and one more does not. |
| AudioCapture.CopyChunks | Minkephobia/Assets/Camera/Runtime/Scripts/Components/LckAudioCapture.cs:51-55 | A new array of count times size samples holding the first `count` chunks back to back. |
| AudioCapture.CopyChunk | Minkephobia/Assets/Camera/Runtime/Scripts/Components/LckAudioCapture.cs:54 | One chunk is written at its offset after the samples already copied. Those samples are kept. |
| AudioCapture.ArrayFill | Minkephobia/Assets/Camera/Runtime/Scripts/Components/LckAudioCapture.cs:110-121 | Every element is the given value. |
| AudioMixer.MinLength | Minkephobia/Assets/Camera/Runtime/Scripts/Components/LckAudioMixer.cs:250-251 | It is no longer than the first buffer and no longer than any track. |
| AudioMixer.Mix | Minkephobia/Assets/Camera/Runtime/Scripts/Components/LckAudioMixer.cs:250-261 | The mix has the first buffer's length. Below the shortest length, each sample is the first buffer's sample plus the same sample of every track. From the shortest length on, each sample is the first buffer's sample unchanged (this tail case is stated here and not in a separate lemma). |
| AudioMixer.MixIsSumOfAllSources | Minkephobia/Assets/Camera/Runtime/Scripts/Components/LckAudioMixer.cs:234-261 | When all drains have equal length, every mixed sample is the sum of that sample over all sources, the first included. |
| AudioMixer.MinLengthOfEqualLengths | Minkephobia/Assets/Camera/Runtime/Scripts/Components/LckAudioMixer.cs:248-251 | Equal drain lengths make the smallest length the first buffer's length, as the source comment says. |
| AudioMixer.SilentTracksAddNothing | Minkephobia/Assets/Camera/Runtime/Scripts/Components/LckAudioMixer.cs:253-261 | Mixing silent tracks, such as muted sources, leaves the first buffer unchanged. |
| AudioMixer.MinAvailable | Minkephobia/Assets/Camera/Runtime/Scripts/Components/LckAudioMixer.cs:229-231 | It is at most the start value and at most every source's available frames. It equals the start value or some source's count. |
| AudioMixer.LastMicrophone | Minkephobia/Assets/Camera/Runtime/Scripts/Components/LckAudioMixer.cs:74-86 | It is -1 or the index of a microphone, and no later capture is a microphone. |
| AudioMixer.FirstGameSource | Minkephobia/Assets/Camera/Runtime/Scripts/Components/LckAudioMixer.cs:208-215 | It is the first index other than the microphone's: 0, or 1 when the microphone is at 0. It is -1 exactly when there is no such index. |
| AudioMixer.LckAudioMixer.constructor | Minkephobia/Assets/Camera/Runtime/Scripts/Components/LckAudioMixer.cs:27-31 | Sources are looked up at once, and created captures get chunks of the device buffer size times the channel count. The microphone is open, game audio is not muted, and a microphone exists at volume 1. |
| AudioMixer.LckAudioMixer.FindAudioSources | Minkephobia/Assets/Camera/Runtime/Scripts/Components/LckAudioMixer.cs:65-122 | The scene's captures come first, in order. With none, a new listener capture is used. The last microphone among the captures is the microphone; otherwise a new one is appended and indexed. The microphone's volume follows the open flag. No other capture is changed. |
| AudioMixer.LckAudioMixer.ScanCaptures | Minkephobia/Assets/Camera/Runtime/Scripts/Components/LckAudioMixer.cs:72-87 | The source list is the captures. The microphone index is the last microphone's index, and the microphone is that capture. |
| AudioMixer.LckAudioMixer.SetMicrophoneVolume | Minkephobia/Assets/Camera/Runtime/Scripts/Components/LckAudioMixer.cs:160-164 | The microphone's volume is 1 when it is open and 0 when it is closed. No other source changes. |
| AudioMixer.LckAudioMixer.EnableCapture | Minkephobia/Assets/Camera/Runtime/Scripts/Components/LckAudioMixer.cs:38-51 | After a fresh lookup: the scene's captures come first, in order. The last microphone among them is the microphone; otherwise a new one is appended and indexed. The microphone's volume follows the open flag. Every capture keeps its queue, and every capture other than the microphone keeps its volume. Every source captures, and every microphone source has its output muted. |
| AudioMixer.LckAudioMixer.StartSources | Minkephobia/Assets/Camera/Runtime/Scripts/Components/LckAudioMixer.cs:47-50 | Every source captures, and every microphone source has its output muted. Every source keeps its queue and its volume, so the microphone's volume still follows the open flag. |
| AudioMixer.LckAudioMixer.DisableCapture | Minkephobia/Assets/Camera/Runtime/Scripts/Components/LckAudioMixer.cs:53-63 | No source captures, and queues and volumes are kept. |
| AudioMixer.LckAudioMixer.SetMicrophoneOpen | Minkephobia/Assets/Camera/Runtime/Scripts/Components/LckAudioMixer.cs:133-158 | Success. The mute query then answers `!isOpen`, and the microphone's volume is 1 or 0 accordingly. No other source's volume changes. |
| AudioMixer.LckAudioMixer.IsMicrophoneMute | Minkephobia/Assets/Camera/Runtime/Scripts/Components/LckAudioMixer.cs:166-169 | Always a value, and it is true exactly when the microphone is closed. |
| AudioMixer.LckAudioMixer.SetGameAudioMute | Minkephobia/Assets/Camera/Runtime/Scripts/Components/LckAudioMixer.cs:171-176 | Success. The mute query answers the flag. Every source except the microphone's index gets volume 0 when muted and 1 otherwise. The microphone keeps its volume and every queue is kept. |
| AudioMixer.LckAudioMixer.SetGameAudioVolume | Minkephobia/Assets/Camera/Runtime/Scripts/Components/LckAudioMixer.cs:178-187 | Every index other than the microphone's gets the volume for the mute flag. The microphone index keeps its volume. |
| AudioMixer.LckAudioMixer.SetSourceVolume | Minkephobia/Assets/Camera/Runtime/Scripts/Components/LckAudioMixer.cs:184 | One source's volume is set. Its queue and every other source are unchanged. |
| AudioMixer.LckAudioMixer.GetMicrophoneOutputLevel | Minkephobia/Assets/Camera/Runtime/Scripts/Components/LckAudioMixer.cs:194-204 | It is 0 with no microphone or a closed one, and otherwise the microphone's current level. |
| AudioMixer.LckAudioMixer.GetGameOutputLevel | Minkephobia/Assets/Camera/Runtime/Scripts/Components/LckAudioMixer.cs:206-219 | It is 0 when muted. Otherwise it is the level of `FirstGameSource`, or the failed lookup at index -1 when there is none. |
| AudioMixer.LckAudioMixer.MinAvailableFrames | Minkephobia/Assets/Camera/Runtime/Scripts/Components/LckAudioMixer.cs:229-231 | It is the minimum, from int.MaxValue, of every source's available frames, and so at most each of them. |
| AudioMixer.LckAudioMixer.GetMixedAudioHandle | Minkephobia/Assets/Camera/Runtime/Scripts/Components/LckAudioMixer.cs:33-36 | The result is null exactly when there are no sources. Otherwise it is a new buffer holding the `Mix` of what every source handed out: the same number of whole frames from the front of each queue, the minimum available over all sources. |
| AudioMixer.LckAudioMixer.MixAudioArrays | Minkephobia/Assets/Camera/Runtime/Scripts/Components/LckAudioMixer.cs:221-269 | With no sources the result is null. Otherwise every source hands out, from the front of its queue, the same number of frames: the minimum available over all sources. The result is the `Mix` of the first source's drain with the others'. |
| AudioMixer.LckAudioMixer.MixAvailable | Minkephobia/Assets/Camera/Runtime/Scripts/Components/LckAudioMixer.cs:229-261 | With sources present: every source hands out the minimum available frames from the front of its queue, and the result is their `Mix`. |
| AudioMixer.LckAudioMixer.MixFrames | Minkephobia/Assets/Camera/Runtime/Scripts/Components/LckAudioMixer.cs:233-261 | Every source hands out the requested frames from its front, and the result is their `Mix`. |
| AudioMixer.LckAudioMixer.DrainSources | Minkephobia/Assets/Camera/Runtime/Scripts/Components/LckAudioMixer.cs:233-246 | The sources are drained in order, each by the requested frames. The first drain is the game buffer and the rest are the tracks. |
| AudioMixer.LckAudioMixer.DrainOne | Minkephobia/Assets/Camera/Runtime/Scripts/Components/LckAudioMixer.cs:241 | One source hands out the requested frames from its front, and every other source is unchanged. |
| AudioMixer.LckAudioMixer.SmallestLength | Minkephobia/Assets/Camera/Runtime/Scripts/Components/LckAudioMixer.cs:250-251 | It is `MinLength` of the game buffer and the tracks. |
| AudioMixer.AddTracks | Minkephobia/Assets/Camera/Runtime/Scripts/Components/LckAudioMixer.cs:253-261 | The in-place summation leaves the buffer equal to `Mix` of its old contents and the tracks. |
| Recorder.LastTrackIndex | Minkephobia/Assets/Camera/Runtime/Scripts/Components/LckRecorder.cs:253 | `(uint)count - 1`: the last index for a non-empty list, and 0xFFFFFFFF for an empty one. |
| Recorder.RecordingFileName | Minkephobia/Assets/Camera/Runtime/Scripts/Components/LckRecorder.cs:256-257 | The name is the prefix, '_', the date and ".mp4", in that order and nothing else. |
| Recorder.FileNamesDifferByDate | Minkephobia/Assets/Camera/Runtime/Scripts/Components/LckRecorder.cs:256-257 | For one prefix, equal names mean equal dates. |
| Recorder.PathCombineParts | Minkephobia/Assets/Camera/Runtime/Scripts/Components/LckRecorder.cs:259 | `Path.Combine` with the Unix separator. An empty name gives the directory and a rooted name replaces it. Otherwise the path is the directory, one '/' unless the directory is empty or already ends in one, then the name. |
| Recorder.Textures | Minkephobia/Assets/Camera/Runtime/Scripts/Components/LckRecorder.cs:289-297 | There is one texture per capture buffer, in order, with the buffer's id and track index. |
| Recorder.StartReportsTwiceOnThrow | Minkephobia/Assets/Camera/Runtime/Scripts/Components/LckRecorder.cs:262-280 | As written, a throwing native start invokes the start callback twice. |
| Recorder.StartReports | Minkephobia/Assets/Camera/Runtime/Scripts/Components/LckRecorder.cs:226-326 | The start task reports exactly once. The report is success exactly when the native start returned true, and otherwise the recording error. |
| Recorder.StopReportsFailureThenSuccess | Minkephobia/Assets/Camera/Runtime/Scripts/Components/LckRecorder.cs:447-468 | As written, a throwing native stop is reported as a failure and then as a success. |
| Recorder.StopReports | Minkephobia/Assets/Camera/Runtime/Scripts/Components/LckRecorder.cs:443-477 | The stop task reports exactly once. The report is success exactly when the native stop returned, and otherwise the recording error. |
| Recorder.LckRecorder.constructor | Minkephobia/Assets/Camera/Runtime/Scripts/Components/LckRecorder.cs:189-209 | No session runs, the microphone is neither open nor recording, there are no capture buffers, and no native call has been made. |
| Recorder.LckRecorder.BeginStart | Minkephobia/Assets/Camera/Runtime/Scripts/Components/LckRecorder.cs:232-266 | The start task creates the encoder and then starts it. There is one fresh capture buffer, bound to the last track. The output path is the cache directory joined with the file name. The session flag is untouched. |
| Recorder.LckRecorder.Stop | Minkephobia/Assets/Camera/Runtime/Scripts/Components/LckRecorder.cs:221-224 | A stop task is begun: one more stop is pending. Nothing else changes until it completes. |
| Recorder.LckRecorder.CompleteStart | Minkephobia/Assets/Camera/Runtime/Scripts/Components/LckRecorder.cs:261-319 | The report is `StartReports`. On success: the start time is taken, resources are initialised, the texture list is built from the buffers, and the session flag is set. Otherwise the flag, the start time, the textures and the native calls are all unchanged. |
| Recorder.LckRecorder.EncodeFrame | Minkephobia/Assets/Camera/Runtime/Scripts/Components/LckRecorder.cs:328-357 | It returns exactly the session flag. When refused, nothing is submitted. Otherwise there is exactly one submission with the session's textures, the stopwatch milliseconds, one audio track and one ready flag. |
| Recorder.LckRecorder.StartNativeMicrophone | Minkephobia/Assets/Camera/Runtime/Scripts/Components/LckRecorder.cs:370-375 | Not open: false and no change. Open: the native start is called, and the recording flag and the result are its outcome. On success the native volume is passed through. |
| Recorder.LckRecorder.StopNativeMicrophone | Minkephobia/Assets/Camera/Runtime/Scripts/Components/LckRecorder.cs:377-388 | Not open: false and no change. Open: the native stop is called. The recording flag clears exactly when it succeeds, and the volume is then 0. |
| Recorder.LckRecorder.SetMicrophoneOpen | Minkephobia/Assets/Camera/Runtime/Scripts/Components/LckRecorder.cs:392-404 | Opening a closed microphone only starts the asynchronous open. Closing an open one closes it now. Otherwise nothing changes. The result is the open flag in force on return. |
| Recorder.LckRecorder.CompleteOpenMicrophone | Minkephobia/Assets/Camera/Runtime/Scripts/Components/LckRecorder.cs:406-431 | The open flag becomes the native open's result. Only when it opened is the native start called, and the recording flag becomes its result. |
| Recorder.LckRecorder.GetNativeMicrophoneVolume | Minkephobia/Assets/Camera/Runtime/Scripts/Components/LckRecorder.cs:365-368 | It is the native volume while the microphone is open and recording, and 0 otherwise. |
| Recorder.LckRecorder.DoCloseMicrophone | Minkephobia/Assets/Camera/Runtime/Scripts/Components/LckRecorder.cs:433-440 | Afterwards the microphone is closed and its volume reads 0. The native close is called only if it was open. |
| Recorder.LckRecorder.CompleteStop | Minkephobia/Assets/Camera/Runtime/Scripts/Components/LckRecorder.cs:443-477 | One pending stop completes. The report is `StopReports`. When the native stop returned: the session flag clears, then every buffer is released in order, then the gallery copy is scheduled. When it threw, the session is unchanged. |
| Recorder.LckRecorder.ReleaseNativeRenderBuffers | Minkephobia/Assets/Camera/Runtime/Scripts/Components/LckRecorder.cs:525-540 | While recording, nothing happens. Otherwise every buffer is released, one native dispose per buffer in buffer order. |
| Recorder.LckRecorder.Dispose | Minkephobia/Assets/Camera/Runtime/Scripts/Components/LckRecorder.cs:515-523 | A running session gets a stop task begun, one more pending stop, and its buffers are kept. Without a session every buffer is released in order (`ReleasedAll`), with one native dispose per buffer (`ReleaseEvents`) and no other native call. |
| Recorder.LckRecorder.CompleteGalleryCopy | Minkephobia/Assets/Camera/Runtime/Scripts/Components/LckRecorder.cs:487-509 | On success: the gallery path and the time since the session started. Otherwise the gallery-copy error. |
| Recorder.ReleasedAll | Minkephobia/Assets/Camera/Runtime/Scripts/Components/LckRecorder.cs:535-538 | The same buffers in the same order, each marked released. |
| Recorder.ReleaseEvents | Minkephobia/Assets/Camera/Runtime/Scripts/Components/LckRecorder.cs:535-538 | One dispose per buffer, in buffer order. |
| Recorder.FindVideoTrack | Minkephobia/Assets/Camera/Runtime/Scripts/Components/LckRecorder.cs:232-241 | It is the first video track's index, or 0 when there is none. No track before it is a video track. |
| Recorder.BuildTextureList | Minkephobia/Assets/Camera/Runtime/Scripts/Components/LckRecorder.cs:289-297 | The loop builds exactly `Textures` of the buffers. |
| Mixer.CooldownPassed | Minkephobia/Assets/Camera/Runtime/Scripts/Components/LckMixer.cs:177 | The stopwatch's whole milliseconds exceed 250. That implies more than 0.25 s elapsed, and it holds from 0.251 s on. |
| Mixer.StartAcceptedOnlyWhenIdle | Minkephobia/Assets/Camera/Runtime/Scripts/Components/LckMixer.cs:258-272 | A start is accepted exactly when idle with nothing pending and with enough storage, and it only sets the pending start. A refusal changes nothing, and the storage refusal comes only from the idle state. |
| Mixer.StopAcceptedOnlyWhileRecording | Minkephobia/Assets/Camera/Runtime/Scripts/Components/LckMixer.cs:399-410 | A stop is accepted exactly while recording with nothing pending, and it only sets the pending stop. Otherwise it is refused as not recording, with no change. |
| Mixer.RequestsKeepConsistent | Minkephobia/Assets/Camera/Runtime/Scripts/Components/LckMixer.cs:258-272 | Start and stop requests keep the flags in one of idle, start pending, recording or stop pending. |
| Mixer.ToggleRejections | Minkephobia/Assets/Camera/Runtime/Scripts/Components/LckMixer.cs:184-202 | The update reports a rejection exactly for a stop pending while idle or a start pending while recording. It always leaves consistent flags. |
| Mixer.ToggleServesPendingRequest | Minkephobia/Assets/Camera/Runtime/Scripts/Components/LckMixer.cs:174-205 | From consistent flags the update never rejects. It starts exactly when a start is pending and the cooldown passed, and stops likewise. It then lands in recording or idle with nothing pending, and otherwise changes nothing. |
| Mixer.ToggleStep | Minkephobia/Assets/Camera/Runtime/Scripts/Components/LckMixer.cs:174-205 | The flags stay consistent. A start is served exactly when idle with a start pending and the cooldown passed, a stop likewise while recording. Only a served request flips the session flag, and a request survives only when it was pending and not served. |
| Mixer.FrameTime | Minkephobia/Assets/Camera/Runtime/Scripts/Components/LckMixer.cs:158 | The frame time of a non-zero framerate is positive. |
| Mixer.PaceStep | Minkephobia/Assets/Camera/Runtime/Scripts/Components/LckMixer.cs:156-172 | At framerate 0 nothing renders or changes. Otherwise a frame renders exactly when the stopwatch plus the carry reaches the frame time, which restarts the stopwatch. The stopwatch plus the carry, plus the frame time when one renders, is the time before the step. |
| Mixer.PaceStepKeepsCarry | Minkephobia/Assets/Camera/Runtime/Scripts/Components/LckMixer.cs:156-171 | The carry and the stopwatch stay non-negative. A frame renders only once a whole frame time has elapsed, never at framerate 0. Without a render nothing changes. |
| Mixer.FramesTimeIsProduct | Minkephobia/Assets/Camera/Runtime/Scripts/Components/LckMixer.cs:158-161 | n frame times summed are n times the frame time. |
| Mixer.PacingKeepsTime | Minkephobia/Assets/Camera/Runtime/Scripts/Components/LckMixer.cs:156-171 | Over any updates, the frames rendered times the frame time, plus the carry and the stopwatch, equal the time that passed. |
| Mixer.CarryStaysBelowFrame | Minkephobia/Assets/Camera/Runtime/Scripts/Components/LckMixer.cs:156-171 | With updates at least once per frame time, the carry plus the stopwatch stay below one frame time. |
| Mixer.PacingDoesNotDrift | Minkephobia/Assets/Camera/Runtime/Scripts/Components/LckMixer.cs:156-171 | With updates at least once per frame time, the frames rendered are exactly the whole frame times elapsed. |
| Mixer.TrackLayout | Minkephobia/Assets/Camera/Runtime/Scripts/Components/LckMixer.cs:277-311 | Two tracks: audio first, stereo, at the constant bitrate and at the output rate or 48 kHz when that is 0; then video. |
| Mixer.TrackLayoutMatchesRecorder | Minkephobia/Assets/Camera/Runtime/Scripts/Components/LckMixer.cs:277-311 | Two tracks. Audio is track 0, stereo, at the output rate or 48 kHz when that is 0. The video track is last, carries the camera's settings, and is the track the recorder binds its buffer to. |
| Mixer.TimestampCountsSamplePairs | Minkephobia/Assets/Camera/Runtime/Scripts/Components/LckMixer.cs:331-356 | For chunks of whole stereo pairs, twice the timestamp is the total of samples submitted, so each chunk is stamped where the previous one ended. |
| Mixer.StopStepAsWritten | Minkephobia/Assets/Camera/Runtime/Scripts/Components/LckMixer.cs:412-435 | As written, the stop step throws exactly when there is no recording stopwatch. Otherwise it only clears the session flag. |
| Mixer.StopBeforeFirstEncodeThrows | Minkephobia/Assets/Camera/Runtime/Scripts/Components/LckMixer.cs:412-416 | As written, a first session stopped before the encode loop ever started reaches the stop step without a stopwatch, and that step throws. |
| Mixer.LckMixer.constructor | Minkephobia/Assets/Camera/Runtime/Scripts/Components/LckMixer.cs:44-95 | The state is idle with nothing pending and no recording stopwatch. The first registered camera is active. The update's first pass runs at once, with no frame due, so the camera ends deactivated and nothing is rendered. Capture is on when a monitor exists. |
| Mixer.LckMixer.Wait | Minkephobia/Assets/Camera/Runtime/Scripts/Components/LckMixer.cs:147-152 | Every running stopwatch advances by the time waited. |
| Mixer.LckMixer.StartRecording | Minkephobia/Assets/Camera/Runtime/Scripts/Components/LckMixer.cs:258-272 | The result and the new flags are `StartRequest` of the old flags. |
| Mixer.LckMixer.StopRecording | Minkephobia/Assets/Camera/Runtime/Scripts/Components/LckMixer.cs:399-410 | The result and the new flags are `StopRequest` of the old flags. The reason is stored only on success. |
| Mixer.LckMixer.OnLowStorageSpace | Minkephobia/Assets/Camera/Runtime/Scripts/Components/LckMixer.cs:70-74 | A stop is requested for low storage, and the listeners are told in every case. |
| Mixer.LckMixer.OnApplicationLifecycleEvent | Minkephobia/Assets/Camera/Runtime/Scripts/Components/LckMixer.cs:535-543 | Pause or quit while recording requests a stop for the lifecycle reason. Anything else changes nothing. |
| Mixer.LckMixer.PaceFrame | Minkephobia/Assets/Camera/Runtime/Scripts/Components/LckMixer.cs:156-172 | With an active camera the `RenderPacing` object follows `PaceStep`: its stopwatch and carry, its rendered flag and the camera's activation. Without one it is unchanged. |
| Mixer.LckMixer.DoStartRecording | Minkephobia/Assets/Camera/Runtime/Scripts/Components/LckMixer.cs:274-316 | Every source captures, and the audio track is reset to track 0. The audio lookup states what `EnableCapture` states, gathered as `SourcesFound`: captures first, the last microphone or a new one indexed, and its volume following the open flag. Every capture's queue is kept, as is every volume except the microphone's. The recorder is started with `TrackLayout`, one buffer bound to track 1, and the composed output path. The session flag is set at once and the recording stopwatch is untouched. |
| Mixer.LckMixer.DoStopRecording | Minkephobia/Assets/Camera/Runtime/Scripts/Components/LckMixer.cs:412-435 | Capture stops on every source with queues kept. The stopwatch is a new stopped one and the frame count is 0. The recorder's stop is begun, one more pending stop. The session flag clears at once. |
| Mixer.LckMixer.ToggleRecording | Minkephobia/Assets/Camera/Runtime/Scripts/Components/LckMixer.cs:174-205 | The flags follow `ToggleStep` and the rejection is reported. The cooldown restarts exactly when an action is taken. A served start begins the recorder's start and leaves `StartServed`, against the state before it. That means the audio track reset, `SessionStarted` (one buffer, the output path, every source capturing) and `SourcesFound` (captures first, the last microphone or a new one indexed, its volume following the open flag). Every capture keeps its queue, and every capture but the microphone its volume. A stop resets the stopwatch and the frame count, begins the recorder's stop and stops every source, keeping queues and volumes. Unless a start is served: the audio mixer, the audio track, the recorder's buffers and path are unchanged. With no action: the sources and the scene's captures are unchanged too, as are the stopwatch, the frame count and the recorder's native calls. Pacing, the camera, capture and the encode loop are never touched. |
| Mixer.LckMixer.ToggleWhileIdle | Minkephobia/Assets/Camera/Runtime/Scripts/Components/LckMixer.cs:176-189 | The idle branch of `ToggleStep`, stated as `ToggleRecording` states it for every action that can happen while idle: a served start begins the session and leaves `StartServed`, with the audio lookup, the kept queues and the kept volumes, and no action leaves the audio mixer, its sources, the scene's captures, the audio track, the stopwatch, the frame count and the recorder's buffers, path, native calls and pending stops unchanged. |
| Mixer.LckMixer.ToggleWhileRecording | Minkephobia/Assets/Camera/Runtime/Scripts/Components/LckMixer.cs:190-204 | The recording branch of `ToggleStep`, stated as `ToggleRecording` states it for every action that can happen while recording: a served stop stops every source, keeping queues and volumes, and no action leaves the audio mixer, its sources, the scene's captures, the audio track, the stopwatch, the frame count and the recorder's buffers, path, native calls and pending stops unchanged. |
| Mixer.LckMixer.BeginSession | Minkephobia/Assets/Camera/Runtime/Scripts/Components/LckMixer.cs:277-316 | The audio track is reset to track 0. The recorder gets one buffer bound to track 1, the output path joins the cache directory and the file name, and the native calls are the create and the start with `TrackLayout`. The session flag is set. |
| Mixer.LckMixer.ServeStart | Minkephobia/Assets/Camera/Runtime/Scripts/Components/LckMixer.cs:177-182 | A pending start past the cooldown: the flags become recording with nothing pending, the cooldown restarts, and the recorder's start is begun. Against the state before it, `StartServed` holds: the audio track reset, `SessionStarted`, `SourcesFound`, every capture's queue kept, and every volume but the microphone's kept. |
| Mixer.LckMixer.ServeStop | Minkephobia/Assets/Camera/Runtime/Scripts/Components/LckMixer.cs:191-196 | A pending stop past the cooldown: the flags become idle with nothing pending and the cooldown restarts. The stopwatch is a new stopped one, the frame count is 0, one more recorder stop is pending, and every source stops capturing with queues and volumes kept. |
| Mixer.LckMixer.CompleteRecorderStart | Minkephobia/Assets/Camera/Runtime/Scripts/Components/LckMixer.cs:318-327 | The recorder's one report is passed on. On success the recorder has taken the start time, built its textures, made one native call to initialise resources and set its session flag, and the encode loop starts fresh. On failure the recorder's flag, start time, textures and native calls, and the encode loop's state, stopwatch, counters and lengths are all unchanged. |
| Mixer.LckMixer.StartEncodeLoop | Minkephobia/Assets/Camera/Runtime/Scripts/Components/LckMixer.cs:331-338 | A running stopwatch from 0, the frame count and timestamp at 0, and the loop running while the session flag is set. |
| Mixer.LckMixer.CompleteRecorderStop | Minkephobia/Assets/Camera/Runtime/Scripts/Components/LckMixer.cs:437-440 | One pending stop completes and the recorder's one report is passed on. When the native stop returned: the recorder's session flag clears, every buffer is released in order, and the native calls are the stop, one dispose per buffer and the gallery copy of the output path. When it threw: the session flag and the buffers are unchanged and the only native call is the stop. |
| Mixer.LckMixer.FrameSizeFits | Minkephobia/Assets/Camera/Runtime/Scripts/Components/LckAudioCapture.cs:161-165 | True exactly when no source's chunk is larger than the frame, so no source divides by zero. |
| Mixer.LckMixer.EncodeStep | Minkephobia/Assets/Camera/Runtime/Scripts/Components/LckMixer.cs:338-364 | A frame is submitted exactly when the recorder is recording and the mix can run. When the mix can run, audio track 0 holds the `Mix` of what every source handed out from the front of its queue, stamped with the pairs submitted before. A submitted frame carries it and the rendered flag, the frame count grows by 1 and the timestamp by half the mixed length. Otherwise the loop ends with the counters unchanged, and when the mix cannot run the queues, the track and the recorder are unchanged. |
| Mixer.LckMixer.EncodeMixed | Minkephobia/Assets/Camera/Runtime/Scripts/Components/LckMixer.cs:344-356 | When the mix can run: the track holds the mix of what the sources handed out. The frame is submitted exactly when recording, and then counted; otherwise the loop ends. |
| Mixer.LckMixer.EndPass | Minkephobia/Assets/Camera/Runtime/Scripts/Components/LckMixer.cs:352-356 | A refused frame ends the loop; an accepted one is counted. The mix just made is kept. |
| Mixer.LckMixer.StopEncoding | Minkephobia/Assets/Camera/Runtime/Scripts/Components/LckMixer.cs:352 | The loop ends and the mix just made is kept. |
| Mixer.LckMixer.CountSubmission | Minkephobia/Assets/Camera/Runtime/Scripts/Components/LckMixer.cs:354-356 | One more frame, and the timestamp advanced by half the mixed length. The mix just made is kept. |
| Mixer.LckMixer.AdvanceCounters | Minkephobia/Assets/Camera/Runtime/Scripts/Components/LckMixer.cs:354-356 | One more frame, the timestamp advanced by half the mixed length, and the length recorded. |
| Mixer.LckMixer.SubmitMixedAudio | Minkephobia/Assets/Camera/Runtime/Scripts/Components/LckMixer.cs:344-353 | The audio track describes the mixed buffer at the current timestamp. The recorder receives it with the ready flag exactly when it is recording. |
| Mixer.LckMixer.SubmitTracks | Minkephobia/Assets/Camera/Runtime/Scripts/Components/LckMixer.cs:346-352 | The single audio track holds the samples at the current timestamp. The recorder receives it with the ready flag exactly when it is recording. |
| Mixer.LckMixer.MixFrameAudio | Minkephobia/Assets/Camera/Runtime/Scripts/Components/LckMixer.cs:344 | The samples are the mix of what every source handed out from the front of its queue. |
| Mixer.LckMixer.Update | Minkephobia/Assets/Camera/Runtime/Scripts/Components/LckMixer.cs:145-210 | One update paces the camera by `PaceStep`, then performs the toggle with every clause `ToggleRecording` states, relative to the state before the update: what a served start or stop changes, including `StartServed` with its audio lookup, kept queues and kept volumes, and what stays unchanged otherwise. The active camera, the track settings, capture and the encode loop are untouched. |
| Mixer.LckMixer.SetTrackResolution | Minkephobia/Assets/Camera/Runtime/Scripts/Components/LckMixer.cs:367-386 | While recording: refused, with no change. Otherwise the resolution is stored even when the texture rebuild fails, which is reported as an unknown error. |
| Mixer.LckMixer.SetTrackFramerate | Minkephobia/Assets/Camera/Runtime/Scripts/Components/LckMixer.cs:388-397 | While recording: refused, with no change. Otherwise the framerate is stored. |
| Mixer.LckMixer.GetRecordingDuration | Minkephobia/Assets/Camera/Runtime/Scripts/Components/LckMixer.cs:576-584 | It is available exactly while recording with a stopwatch, and otherwise the error is not recording. |
| Mixer.LckMixer.ActivateCameraById | Minkephobia/Assets/Camera/Runtime/Scripts/Components/LckMixer.cs:212-244 | An unknown camera is refused with no change. Otherwise it becomes active and renders, and success is returned unless a named monitor is unknown. |
| Mixer.LckMixer.StopActiveCamera | Minkephobia/Assets/Camera/Runtime/Scripts/Components/LckMixer.cs:246-256 | Success. No camera is active and capture is off. |
| Mixer.LckMixer.OnCameraUnregistered | Minkephobia/Assets/Camera/Runtime/Scripts/Components/LckMixer.cs:517-523 | Only the active camera's removal stops it: no camera is active, it no longer renders and capture is off. Any other removal changes none of these. |
| Mixer.LckMixer.OnMonitorRegistered | Minkephobia/Assets/Camera/Runtime/Scripts/Components/LckMixer.cs:525-528 | Capture is on. |
| Mixer.LckMixer.GetGameOutputLevel | Minkephobia/Assets/Camera/Runtime/Scripts/Components/LckMixer.cs:479-482 | It is the audio mixer's game level. |
| Mixer.LckMixer.GetMicrophoneOutputLevel | Minkephobia/Assets/Camera/Runtime/Scripts/Components/LckMixer.cs:467-477 | A non-negative level, which is 0 while the microphone is closed. |
| Mixer.LckMixer.SetMicrophoneCaptureActive | Minkephobia/Assets/Camera/Runtime/Scripts/Components/LckMixer.cs:452-455 | Success, and the microphone mute query then answers `!isActive`. The microphone's volume is 1 when active and 0 otherwise. Every other source is unchanged and every queue is kept. |
| Mixer.LckMixer.SetGameAudioMute | Minkephobia/Assets/Camera/Runtime/Scripts/Components/LckMixer.cs:457-460 | Success, and the game mute query then answers the flag. Every source except the microphone's index gets volume 0 when muted and 1 otherwise. The microphone index keeps its volume and every queue is kept. |
| Mixer.LckMixer.Dispose | Minkephobia/Assets/Camera/Runtime/Scripts/Components/LckMixer.cs:545-574 | The recorder is disposed. A running session gets one more pending stop, and its buffers and native calls are kept. Without a running session every buffer is released in order, with one native dispose per buffer and no other native call. |

## Left out

- The Android paths are not modelled: microphone permission checks, the recorder-driven microphone open in `SetMicrophoneOpen` and the native microphone level. The non-Android path is modelled. The recorder's Android microphone methods are modelled with their flags.
- Logging, telemetry and profiler markers have no effect on the modelled state. That includes the mismatched-length log in the mix and the telemetry of the stop step.
- The native encoder is not modelled: `DllImport` functions, `Handle<>`, command buffers and struct layouts. Its calls are events in the recorder's log, and their results are parameters.
- Threads, `lock`, `Task.Run` and coroutines are not modelled. The system is modelled sequentially, and each asynchronous completion is a separate method.
- Floating-point rounding is not modelled. Samples, levels and times are reals, and a framerate of 0, whose C# frame time is infinite, never renders.
- Integer widths are not modelled. Counters and sizes are unbounded naturals. The one place where a wrap matters, `(uint)count - 1`, is written out in `LastTrackIndex`.
- Unity objects are not modelled: render textures (`InitTrack`, `InitTrackTexture`, `ReleaseCameraTrackTextures`), the camera and monitor registries, and the monitor texture assignment. Cameras and monitors are ids. A failing texture rebuild is a parameter of `SetTrackResolution`.
- `FindObjectsOfComponentType` and `AddComponent` are not modelled. The scene's captures are a parameter, and created captures are new objects.
- LckMicrophone.cs is not part of this model. Its microphone variant is a flag on the capture, which mutes its own output when it starts.
- The file-lock polling and the copy itself are not modelled. The gallery copy's outcome is a parameter of `CompleteGalleryCopy`.
- The outer `catch` of the start and stop tasks is not modelled. It reports an exception thrown by Unity or by settings access.
- `IsCapturing`, `IsRecording`, `IsGameAudioMute` and `OnCameraRegistered` are field reads or empty.
- The mixer's finaliser only repeats `Dispose` without the disposing branch.
- `Recorder.LckRecorder.BeginStart`: the first video track index it computes is unused in the source, and the model computes it the same way.
- `AudioMixer.LckAudioMixer.MixFrames`: the tracks are drained into immutable sequences rather than arrays, because the mix only reads them. The first source's buffer is the array summed in place.
- `Mixer.LckMixer.ServeStart`: restarts the cooldown before the session start rather than after it. The start neither reads nor writes the cooldown stopwatch, so the resulting state is the same.
- `Mixer.PacingDoesNotDrift`: states the frame count through `FramesTime(n, ft)`, the sum of n frame times, instead of `n * ft`. `Mixer.FramesTimeIsProduct` proves the two equal.
- `Mixer.LckMixer.ToggleWhileIdle` and `Mixer.LckMixer.ToggleWhileRecording`: do not contain the drop-and-report branches. `Mixer.ToggleServesPendingRequest` proves those branches unreachable from the flags the request methods produce. `Mixer.ToggleStep` still models them, and `Mixer.ToggleRejections` states them. Each of the two states the clauses of `ToggleRecording` only for the actions its branch can take: a stop is never served while idle and a start never while recording, which `Mixer.ToggleStep` states.
- `Recorder.PathCombine`: joins with the Unix separator '/' only. The Windows separators and drive-relative roots of `Path.Combine` are not modelled, because the model has no platform.
- The encoder's audio track is declared stereo and its timestamp counts sample pairs. With any other output channel count the captured samples are still submitted without conversion. The model does the same, and states nothing about channel layout.
- `Mixer.LckMixer.EncodeStep`: the video timestamp is the stopwatch's whole milliseconds. The wait before each pass is the separate `Wait` step.
- Two behaviours of the source that the model keeps as written:
  - The session flag is set as soon as the update starts the recorder (LckMixer.cs:314-315), before the encoder reports that it started.
  - A refused encode only ends the encode loop (LckMixer.cs:352). It does not report a failure or force the session to idle.

## Findings

| source | as written | input that shows it | evidently intended | confidence | as-written member | corrected member |
|---|---|---|---|---|---|---|
| Minkephobia/Assets/Camera/Runtime/Scripts/Components/LckRecorder.cs:268-279 | When the native start throws, the worker reports the exception. `successful` is then still false, so the task also reports "Unknown error starting recording". | The native `StartRecorder` throws. | One failure report per start. | not executed | Recorder.StartReportsTwiceOnThrow | Recorder.StartReports |
| Minkephobia/Assets/Camera/Runtime/Scripts/Components/LckRecorder.cs:453-468 | The `return` in the worker's catch leaves only the lambda. After reporting the exception, the task clears the session flag, releases the buffers, schedules the gallery copy and reports success. | The native `StopRecorder` throws. | One report per stop, success only when the native stop returned. | not executed | Recorder.StopReportsFailureThenSuccess | Recorder.StopReports |
| Minkephobia/Assets/Camera/Runtime/Scripts/Components/LckMixer.cs:416 | The stop step reads `_recordingStopwatch.Elapsed` first. The stopwatch is created only when an encode loop starts, so it is null until then, and the update coroutine dies with a null reference. | First session: a start is served, the recorder's start has not completed or has failed, then a stop is requested and served. | The stop step works without an encode loop having run. | not executed | Mixer.StopBeforeFirstEncodeThrows | Mixer.LckMixer.DoStopRecording |
| Minkephobia/Assets/Camera/Runtime/Scripts/Components/LckAudioCapture.cs:33-54 | The chunk size is twice the DSP buffer size. That is a callback buffer's length only for stereo output. `GetAudioData` copies each queued chunk to offset i × chunk size. | Any output with more than two channels and any drain of n ≥ 1 chunks: the last copy starts at (n − 1) × chunk size and is a whole callback buffer long, so it ends past the n × chunk size samples allocated. With 6 channels and a 1024-sample DSP buffer each callback queues 6144 samples against 2048-sample chunks. Mono output leaves gaps instead (`AwakeChunkSizeMisfits`). | The chunk size is the DSP buffer size times the output channel count. | not executed | AudioCapture.LastChunkOverruns | AudioCapture.LckAudioCapture.constructor |

=== FILE: arith.dfy ===
/**
 * Small facts about multiplication, division and remainder, each proved in
 * isolation so that the solver never has to find them inside a large proof.
 */
module Arith {

  lemma MulNonNegative(a: nat, b: nat)
    ensures a * b >= 0
  {
  }

  lemma MulStep(n: nat, s: nat)
    ensures n * s + s == (n + 1) * s
  {
  }

  lemma MulMonotone(a: nat, b: nat, c: nat)
    ensures a <= b ==> a * c <= b * c
  {
    if a <= b {
      MulNonNegative(b - a, c);
      assert b * c == a * c + (b - a) * c;
    }
  }

  lemma MulAwayFromZero(c: int, k: int)
    requires c > 0
    ensures k >= 1 ==> c * k >= c
    ensures k <= -1 ==> c * k <= -c
  {
    if k >= 1 {
      MulNonNegative(c, k - 1);
      assert c * k == c * (k - 1) + c;
    }
    if k <= -1 {
      MulNonNegative(c, -k - 1);
      assert c * k == -(c * (-k - 1)) - c;
    }
  }

  /** A multiple of c strictly between -c and c is 0. */
  lemma SmallMultiple(c: int, k: int)
    requires c > 0 && -c < c * k < c
    ensures k == 0
  {
    MulAwayFromZero(c, k);
  }

  /** Quotient and remainder are determined by x == c * q + r with 0 <= r < c. */
  lemma DivModUnique(x: int, c: int, q: int, r: int)
    requires c > 0 && 0 <= r < c && x == c * q + r
    ensures x / c == q && x % c == r
  {
    var q', r' := x / c, x % c;
    assert x == c * q' + r';
    assert c * (q - q') == r' - r;
    SmallMultiple(c, q - q');
  }

  lemma DivMod(x: nat, c: nat)
    requires c > 0
    ensures x == c * (x / c) + x % c && 0 <= x % c < c
  {
  }

  /** Adding the divisor raises the quotient by one and keeps the remainder. */
  lemma AddDivisor(x: nat, c: nat)
    requires c > 0
    ensures (x + c) / c == x / c + 1 && (x + c) % c == x % c
  {
    DivMod(x, c);
    assert x + c == c * (x / c + 1) + x % c;
    DivModUnique(x + c, c, x / c + 1, x % c);
  }

  /** A multiple of c is one. */
  lemma MultipleMod(k: nat, c: nat)
    requires c > 0
    ensures (c * k) % c == 0 && (c * k) / c == k
  {
    DivModUnique(c * k, c, k, 0);
  }

  /** The whole multiples of c in x: at most x, and the next multiple exceeds x. */
  lemma WholeMultiples(x: nat, c: nat)
    requires c > 0
    ensures c * (x / c) <= x < c * (x / c + 1)
    ensures (c * (x / c)) % c == 0
  {
    DivMod(x, c);
    MulStep(x / c, c);
    assert c * (x / c + 1) == (x / c + 1) * c;
    MultipleMod(x / c, c);
  }

  /** Between two multiples of c there is room for a whole step of c. */
  lemma NextMultipleFits(i: nat, n: nat, c: nat)
    requires c > 0 && i % c == 0 && n % c == 0 && i < n
    ensures i + c <= n
  {
    DivMod(i, c);
    DivMod(n, c);
    var a, b := i / c, n / c;
    MulMonotone(b, a, c);
    MulMonotone(a + 1, b, c);
    MulStep(a, c);
  }

  /** Stepping the ring index with wrap-around by % is the same as wrapping at n. */
  lemma WrapIndex(a: nat, n: nat)
    requires a < n
    ensures (a + 1) % n == if a + 1 == n then 0 else a + 1
  {
    if a + 1 == n {
      DivModUnique(a + 1, n, 1, 0);
    } else {
      DivModUnique(a + 1, n, 0, a + 1);
    }
  }

  /** A divisor no larger than the dividend goes into it at least once. */
  lemma QuotientPositive(x: nat, c: nat)
    requires 0 < c <= x
    ensures x / c >= 1
  {
    DivMod(x, c);
  }

  /** The whole number of c-sized steps in x: the floor of x / c, pinned down by its bounds. */
  function WholeSteps(x: nat, c: nat): (q: nat)
    requires c > 0
    ensures q * c <= x < (q + 1) * c
  {
    DivMod(x, c);
    MulStep(x / c, c);
    x / c
  }
}

=== FILE: audio_capture.dfy ===
/**
 * One audio source: a FIFO of fixed-size sample chunks filled by the audio
 * callback and drained by the mixer in whole frames, plus a circular level
 * monitor (running sum of per-sample-frame magnitudes over a ring buffer).
 */
module AudioCapture {
  import opened LckTypes
  import opened Arith

  /** The samples of the queued chunks, oldest first. */
  function Flatten(chunks: seq<seq<real>>): seq<real>
  {
    if chunks == [] then [] else Flatten(chunks[..|chunks| - 1]) + chunks[|chunks| - 1]
  }

  /** Every chunk holds exactly `size` samples. */
  predicate Uniform(chunks: seq<seq<real>>, size: nat)
  {
    forall i :: 0 <= i < |chunks| ==> |chunks[i]| == size
  }

  lemma {:induction false} FlattenLength(chunks: seq<seq<real>>, size: nat)
    requires Uniform(chunks, size)
    ensures |Flatten(chunks)| == |chunks| * size
  {
    if chunks != [] {
      var n := |chunks| - 1;
      FlattenLength(chunks[..n], size);
      assert |Flatten(chunks)| == |Flatten(chunks[..n])| + |chunks[n]|;
      MulStep(n, size);
    }
  }

  lemma FlattenPrefixLength(chunks: seq<seq<real>>, k: nat)
    requires k <= |chunks|
    ensures |Flatten(chunks[..k])| <= |Flatten(chunks)|
  {
    DrainSplitsStream(chunks, k);
  }

  lemma {:induction false} FlattenAppend(a: seq<seq<real>>, b: seq<seq<real>>)
    ensures Flatten(a + b) == Flatten(a) + Flatten(b)
  {
    if b == [] {
      assert a + b == a;
    } else {
      assert (a + b)[..|a + b| - 1] == a + b[..|b| - 1];
      FlattenAppend(a, b[..|b| - 1]);
    }
  }

  /**
   * Draining a prefix of the queue loses and duplicates nothing: the samples
   * handed out followed by the samples left behind are the samples queued.
   */
  lemma DrainSplitsStream(chunks: seq<seq<real>>, taken: nat)
    requires taken <= |chunks|
    ensures Flatten(chunks) == Flatten(chunks[..taken]) + Flatten(chunks[taken..])
  {
    assert chunks == chunks[..taken] + chunks[taken..];
    FlattenAppend(chunks[..taken], chunks[taken..]);
  }

  /**
   * Number of chunks handed out for a request of `frames` frames of
   * `perFrame` chunks each when `queued` chunks are waiting: the request,
   * capped at the whole frames that are queued.
   */
  function RequiredChunks(queued: nat, perFrame: nat, frames: nat): (r: nat)
    requires perFrame > 0
    ensures r <= queued && r % perFrame == 0
    ensures r <= frames * perFrame
    ensures frames <= queued / perFrame ==> r == frames * perFrame
    ensures queued / perFrame <= frames ==> r == (queued / perFrame) * perFrame
  {
    RequiredChunksBounds(queued, perFrame, frames, frames * perFrame, (queued / perFrame) * perFrame);
    Min(frames * perFrame, (queued / perFrame) * perFrame)
  }

  /** The request and the whole queued frames are both multiples of perFrame, and the whole frames fit the queue. */
  lemma RequiredChunksBounds(queued: nat, perFrame: nat, frames: nat, wanted: nat, whole: nat)
    requires perFrame > 0 && wanted == frames * perFrame && whole == (queued / perFrame) * perFrame
    ensures whole <= queued && whole % perFrame == 0 && wanted % perFrame == 0
    ensures frames <= queued / perFrame ==> wanted <= whole
    ensures queued / perFrame <= frames ==> whole <= wanted
  {
    var w := queued / perFrame;
    WholeMultiples(queued, perFrame);
    MultipleMod(frames, perFrame);
    assert frames * perFrame == perFrame * frames;
    MulMonotone(frames, w, perFrame);
    MulMonotone(w, frames, perFrame);
    assert w * perFrame == perFrame * w;
  }

  /** Chunks making up `frames` frames of `frameSize` samples, for chunks of `chunkSize` samples. */
  function FrameChunks(frames: nat, frameSize: nat, chunkSize: nat): nat
    requires chunkSize > 0
  {
    MulNonNegative(frames, frameSize / chunkSize);
    frames * (frameSize / chunkSize)
  }

  /** Scales every sample by the volume. */
  function Scaled(samples: seq<real>, volume: real): (r: seq<real>)
    ensures |r| == |samples|
    ensures forall i :: 0 <= i < |r| ==> r[i] == samples[i] * volume
  {
    seq(|samples|, i requires 0 <= i < |samples| => samples[i] * volume)
  }

  /** A source at volume 0 captures silence of the right length. */
  lemma MutedCaptureIsSilent(samples: seq<real>)
    ensures Scaled(samples, 0.0) == seq(|samples|, _ => 0.0)
  {
  }

  /** A source at volume 1 captures its input unchanged. */
  lemma UnitVolumeCaptureIsIdentity(samples: seq<real>)
    ensures Scaled(samples, 1.0) == samples
  {
  }

  // ---------------------------------------------------------------------
  // Level monitor

  /** The level monitor: ring of magnitudes, its write index and running sum. */
  datatype LevelMonitor = LevelMonitor(ring: seq<real>, index: nat, runningSum: real)

  /** Sum of |data[k]| for from <= k < to. */
  function AbsSum(data: seq<real>, from: nat, to: nat): (r: real)
    requires from <= to <= |data|
    ensures r >= 0.0
  {
    if to == from then 0.0 else AbsSum(data, from, to - 1) + Abs(data[to - 1])
  }

  /**
   * One sample frame through the monitor: the magnitude leaving the ring is
   * subtracted, the sum is floored at 0.01, the new magnitude scaled by the
   * volume is added, and the ring keeps the unscaled magnitude.
   */
  function LevelStep(m: LevelMonitor, value: real, volume: real): LevelMonitor
    requires m.index < |m.ring|
  {
    var floored := MaxReal(0.01, m.runningSum - Abs(m.ring[m.index]));
    LevelMonitor(m.ring[m.index := value], (m.index + 1) % |m.ring|, floored + value * volume)
  }

  /** The monitor after the sample frames of data[from..], each the mean magnitude of its channels. */
  function LevelFrom(m: LevelMonitor, data: seq<real>, channels: nat, volume: real, from: nat): LevelMonitor
    requires channels > 0 && |data| % channels == 0 && from % channels == 0 && from <= |data|
    requires m.index < |m.ring|
    decreases |data| - from
  {
    if from == |data| then m
    else
      NextMultipleFits(from, |data|, channels);
      AddDivisor(from, channels);
      WrapIndex(m.index, |m.ring|);
      var value := AbsSum(data, from, from + channels) / (channels as real);
      LevelFrom(LevelStep(m, value, volume), data, channels, volume, from + channels)
  }

  /** One unfolding of LevelFrom: the frame at `from` is fed first. */
  lemma LevelFromUnfold(m: LevelMonitor, data: seq<real>, channels: nat, volume: real, from: nat)
    requires channels > 0 && |data| % channels == 0 && from % channels == 0 && from < |data|
    requires m.index < |m.ring|
    ensures from + channels <= |data| && (from + channels) % channels == 0
    ensures LevelFrom(m, data, channels, volume, from)
         == LevelFrom(LevelStep(m, AbsSum(data, from, from + channels) / (channels as real), volume),
                      data, channels, volume, from + channels)
  {
    NextMultipleFits(from, |data|, channels);
    AddDivisor(from, channels);
    WrapIndex(m.index, |m.ring|);
  }

  /** Mean magnitude of the `channels` samples of the sample frame starting at `from`. */
  method FrameMagnitude(data: array<real>, from: nat, channels: nat) returns (v: real)
    requires channels > 0 && from + channels <= data.Length
    ensures v == AbsSum(data[..], from, from + channels) / (channels as real)
    ensures v >= 0.0
  {
    var total := 0.0;
    for channel := 0 to channels
      invariant total == AbsSum(data[..], from, from + channel)
    {
      total := total + Abs(data[from + channel]);
    }
    v := total / (channels as real);
  }

  /**
   * Feeding sample frames keeps the ring's size and its index in range,
   * advances the index by the number of frames modulo the ring size, and
   * with a non-negative volume leaves a sum of at least 0.01 once any frame
   * was seen (and a non-negative sum in any case).
   */
  lemma {:induction false} LevelFromKeepsRing(m: LevelMonitor, data: seq<real>, channels: nat, volume: real, from: nat)
    requires channels > 0 && |data| % channels == 0 && from % channels == 0 && from <= |data|
    requires m.index < |m.ring|
    requires volume >= 0.0 && m.runningSum >= 0.0
    ensures var r := LevelFrom(m, data, channels, volume, from);
      && |r.ring| == |m.ring|
      && r.index < |r.ring|
      && r.index == (m.index + (|data| - from) / channels) % |m.ring|
      && r.runningSum >= 0.0
      && (from < |data| ==> r.runningSum >= 0.01)
    decreases |data| - from
  {
    var n := |m.ring|;
    if from == |data| {
      DivModUnique(0, channels, 0, 0);
      DivModUnique(m.index, n, 0, m.index);
    } else {
      NextMultipleFits(from, |data|, channels);
      AddDivisor(from, channels);
      WrapIndex(m.index, n);
      var value := AbsSum(data, from, from + channels) / (channels as real);
      var next := LevelStep(m, value, volume);
      assert value >= 0.0;
      assert next.runningSum >= 0.01;
      LevelFromKeepsRing(next, data, channels, volume, from + channels);
      StepIndex(m.index, n, |data| - from, channels);
    }
  }

  /** One frame fed moves the index one step; the remaining frames then land where all of them would. */
  lemma StepIndex(index: nat, n: nat, remaining: nat, channels: nat)
    requires n > 0 && channels > 0 && remaining >= channels
    ensures ((index + 1) % n + (remaining - channels) / channels) % n == (index + remaining / channels) % n
  {
    var k := (remaining - channels) / channels;
    AddDivisor(remaining - channels, channels);
    ModAfterStep(index, k, n);
  }

  /** Taking the remainder after one step does not change where k more steps land. */
  lemma ModAfterStep(a: nat, k: nat, n: nat)
    requires n > 0
    ensures ((a + 1) % n + k) % n == (a + (k + 1)) % n
  {
    var y := a + 1 + k;
    var q := (a + 1) / n;
    DivMod(a + 1, n);
    DivMod(y, n);
    assert (a + 1) % n + k == y - n * q;
    assert y - n * q == n * (y / n - q) + y % n;
    DivModUnique(y - n * q, n, y / n - q, y % n);
  }

  /**
   * The chunk size as Awake computes it: the device buffer size times two,
   * whatever the channel count of the output.
   */
  function AwakeChunkSize(deviceBufferSize: nat): nat
  {
    deviceBufferSize * 2
  }

  /**
   * The audio callback receives `deviceBufferSize` sample frames of
   * `channels` samples each. Unless the output is stereo that buffer is not
   * a chunk of Awake's size; with more channels it is longer, so the copy of
   * a queued chunk into its slot of the mixer's buffer runs past the slot.
   */
  lemma AwakeChunkSizeMisfits(deviceBufferSize: nat, channels: nat)
    requires deviceBufferSize > 0 && channels > 0 && channels != 2
    ensures deviceBufferSize * channels != AwakeChunkSize(deviceBufferSize)
    ensures channels > 2 ==> deviceBufferSize * channels > AwakeChunkSize(deviceBufferSize)
    ensures channels == 1 ==> deviceBufferSize * channels < AwakeChunkSize(deviceBufferSize)
  {
    if channels > 2 {
      MulMonotone(3, channels, deviceBufferSize);
      assert deviceBufferSize * channels >= 3 * deviceBufferSize;
    }
  }

  /**
   * The drain copies queued chunk i to offset i times the chunk size of a
   * buffer sized for `chunks` chunks. When each queued chunk is a whole
   * callback buffer of a more-than-stereo output, the last copy ends past
   * the end of that buffer.
   */
  lemma LastChunkOverruns(deviceBufferSize: nat, channels: nat, chunks: nat)
    requires deviceBufferSize > 0 && channels > 2 && chunks > 0
    ensures (chunks - 1) * AwakeChunkSize(deviceBufferSize) + deviceBufferSize * channels
              > chunks * AwakeChunkSize(deviceBufferSize)
  {
  }

  /**
   * A capture component attached to an audio output. The audio callback
   * (OnAudioFilterRead) feeds the level monitor and, while capture is
   * enabled, appends a volume-scaled copy of the callback buffer to the queue;
   * the mixer drains whole frames of chunks from the front of the queue.
   */
  class LckAudioCapture {
    /** Samples per chunk: the device buffer size times the output channel count. */
    const dspBufferSize: nat
    /** Whether this component is the microphone variant (LckMicrophone). */
    const isMicrophone: bool
    const levelMonitorBuffer: array<real>

    var captureAudio: bool
    var isOutputMute: bool
    var volumeUnitLevel: real
    var audioFrames: seq<seq<real>>
    var levelRunningSum: real
    var levelMonitorBufferIndex: nat
    var levelSampleCount: nat

    ghost predicate Valid()
      reads this
    {
      && dspBufferSize > 0
      && levelMonitorBuffer.Length == dspBufferSize
      && levelMonitorBufferIndex < dspBufferSize
      && levelSampleCount <= dspBufferSize
      && volumeUnitLevel >= 0.0
      && levelRunningSum >= 0.0
      && Uniform(audioFrames, dspBufferSize)
    }

    /**
     * From the queue `before`, this capture handed out `samples`, the
     * chunks of `frames` frames of `frameSize` samples from its front, and
     * kept the rest queued.
     */
    ghost predicate HandedOut(before: seq<seq<real>>, frameSize: nat, frames: nat, samples: seq<real>)
      reads this
    {
      dspBufferSize > 0 &&
      var required := FrameChunks(frames, frameSize, dspBufferSize);
      && required <= |before|
      && samples == Flatten(before[..required])
      && audioFrames == before[required..]
    }

    /** The level monitor as a value. */
    ghost function Monitor(): LevelMonitor
      reads this, levelMonitorBuffer
    {
      LevelMonitor(levelMonitorBuffer[..], levelMonitorBufferIndex, levelRunningSum)
    }

    /**
     * Models Awake with the chunk size corrected to one callback buffer:
     * the device buffer size times the output's channel count (Awake
     * itself multiplies by two, see AwakeChunkSize).
     */
    constructor (deviceBufferSize: nat, outputChannels: nat, isMicrophone: bool)
      requires deviceBufferSize > 0 && outputChannels > 0
      ensures Valid() && fresh(levelMonitorBuffer)
      ensures this.isMicrophone == isMicrophone
      ensures dspBufferSize == deviceBufferSize * outputChannels
      ensures volumeUnitLevel == 1.0 && !captureAudio && isOutputMute == isMicrophone
      ensures audioFrames == [] && levelSampleCount == 0 && levelRunningSum == 0.0
    {
      MulAwayFromZero(deviceBufferSize, outputChannels);
      dspBufferSize := deviceBufferSize * outputChannels;
      this.isMicrophone := isMicrophone;
      levelMonitorBuffer := new real[deviceBufferSize * outputChannels](_ => 0.0);
      volumeUnitLevel := 1.0;
      captureAudio := false;
      // the microphone variant mutes its own playback as soon as it starts
      isOutputMute := isMicrophone;
      audioFrames := [];
      levelRunningSum := 0.0;
      levelMonitorBufferIndex := 0;
      levelSampleCount := 0;
    }

    /**
     * Removes `numberOfFrames` frames of chunks (fewer when fewer whole
     * frames are queued) from the front of the queue and returns their
     * samples in order.
     */
    method GetAudioData(frameSize: nat, numberOfFrames: nat) returns (rawData: array<real>)
      requires Valid() && frameSize >= dspBufferSize
      modifies this`audioFrames
      ensures Valid() && fresh(rawData)
      ensures var required := RequiredChunks(|old(audioFrames)|, frameSize / dspBufferSize, numberOfFrames);
        && rawData.Length == required * dspBufferSize
        && rawData[..] == Flatten(old(audioFrames)[..required])
        && audioFrames == old(audioFrames)[required..]
    {
      var perFrame := frameSize / dspBufferSize;
      var wanted := numberOfFrames * perFrame;
      var required := Min(wanted, (|audioFrames| / perFrame) * perFrame);
      assert required == RequiredChunks(|audioFrames|, perFrame, numberOfFrames);
      rawData := CopyChunks(audioFrames, required, dspBufferSize);
      audioFrames := audioFrames[required..];
    }

    /** Mean level: running sum over samples seen, 0 before any sample. */
    function GetCurrentAudioLevel(): (r: real)
      reads this
      requires Valid()
      ensures r >= 0.0
      ensures levelSampleCount == 0 ==> r == 0.0
      ensures levelSampleCount > 0 ==> r * (levelSampleCount as real) == levelRunningSum
    {
      if levelSampleCount > 0 then levelRunningSum / (levelSampleCount as real) else 0.0
    }

    /** Capture on; the microphone variant also mutes its device output. */
    method EnableCapture()
      requires Valid()
      modifies this`captureAudio, this`isOutputMute
      ensures Valid() && captureAudio
      ensures isOutputMute == (old(isOutputMute) || isMicrophone)
    {
      if isMicrophone {
        isOutputMute := true;
      }
      captureAudio := true;
    }

    method DisableCapture()
      requires Valid()
      modifies this`captureAudio
      ensures Valid() && !captureAudio
    {
      captureAudio := false;
    }

    /**
     * The audio callback: feed the level monitor, append a scaled copy while
     * capturing, then silence the device buffer when output is muted.
     */
    method OnAudioFilterRead(data: array<real>, channels: nat)
      requires Valid()
      requires channels > 0 && data.Length == dspBufferSize && data.Length % channels == 0
      requires data != levelMonitorBuffer
      modifies this, levelMonitorBuffer, data
      ensures Valid()
      ensures Monitor() == LevelFrom(old(Monitor()), old(data[..]), channels, volumeUnitLevel, 0)
      ensures levelSampleCount == Min(old(levelSampleCount) + data.Length / channels, dspBufferSize)
      ensures audioFrames == if captureAudio
        then old(audioFrames) + [Scaled(old(data[..]), volumeUnitLevel)]
        else old(audioFrames)
      ensures data[..] == if isOutputMute then seq(data.Length, _ => 0.0) else old(data[..])
      ensures captureAudio == old(captureAudio) && isOutputMute == old(isOutputMute)
      ensures volumeUnitLevel == old(volumeUnitLevel)
    {
      CaptureAudioLevel(data, channels);
      if captureAudio {
        CaptureAudio(data);
      }
      if isOutputMute {
        ArrayFill(data, 0.0);
      }
    }

    /** Appends a copy of `data` scaled by the current volume to the queue. */
    method CaptureAudio(data: array<real>)
      requires Valid() && data.Length == dspBufferSize
      modifies this`audioFrames
      ensures Valid()
      ensures audioFrames == old(audioFrames) + [Scaled(data[..], volumeUnitLevel)]
    {
      var newData := new real[data.Length];
      for index := 0 to data.Length
        modifies newData
        invariant forall k :: 0 <= k < index ==> newData[k] == data[k] * volumeUnitLevel
      {
        newData[index] := data[index] * volumeUnitLevel;
      }
      ghost var expected := Scaled(data[..], volumeUnitLevel);
      assert forall k :: 0 <= k < data.Length ==> newData[..][k] == expected[k];
      assert newData[..] == expected;
      audioFrames := audioFrames + [newData[..]];
    }

    /**
     * Feeds the level monitor with the mean magnitude of every sample frame
     * of `data` and raises the sample count, capped at the ring size.
     */
    method CaptureAudioLevel(data: array<real>, channels: nat)
      requires Valid()
      requires channels > 0 && data.Length % channels == 0
      requires data != levelMonitorBuffer
      modifies this`levelRunningSum, this`levelMonitorBufferIndex, this`levelSampleCount, levelMonitorBuffer
      ensures Valid()
      ensures Monitor() == LevelFrom(old(Monitor()), data[..], channels, volumeUnitLevel, 0)
      ensures levelSampleCount == Min(old(levelSampleCount) + data.Length / channels, dspBufferSize)
    {
      ghost var start := Monitor();
      ghost var samples := data[..];
      ghost var volume := volumeUnitLevel;
      var i := 0;
      while i < data.Length
        modifies this`levelRunningSum, this`levelMonitorBufferIndex, levelMonitorBuffer
        invariant 0 <= i <= data.Length && i % channels == 0
        invariant levelMonitorBufferIndex < levelMonitorBuffer.Length && levelRunningSum >= 0.0
        invariant LevelFrom(Monitor(), samples, channels, volume, i)
               == LevelFrom(start, samples, channels, volume, 0)
        decreases data.Length - i
      {
        LevelFromUnfold(Monitor(), samples, channels, volume, i);
        var newValue := FrameMagnitude(data, i, channels);
        FeedLevel(newValue);
        i := i + channels;
      }
      levelSampleCount := Min(levelSampleCount + data.Length / channels, dspBufferSize);
    }

    /**
     * One sample frame of magnitude `value` into the ring: the oldest
     * magnitude leaves the running sum (floored at 0.01), the new one enters
     * it scaled by the volume, and the write index advances with wrap-around.
     */
    method FeedLevel(value: real)
      requires levelMonitorBufferIndex < levelMonitorBuffer.Length
      requires value >= 0.0 && volumeUnitLevel >= 0.0
      modifies this`levelRunningSum, this`levelMonitorBufferIndex, levelMonitorBuffer
      ensures Monitor() == LevelStep(old(Monitor()), value, volumeUnitLevel)
      ensures levelMonitorBufferIndex < levelMonitorBuffer.Length
      ensures levelRunningSum >= 0.01
    {
      WrapIndex(levelMonitorBufferIndex, levelMonitorBuffer.Length);
      levelRunningSum := MaxReal(0.01, levelRunningSum - Abs(levelMonitorBuffer[levelMonitorBufferIndex]));
      levelRunningSum := levelRunningSum + value * volumeUnitLevel;
      levelMonitorBuffer[levelMonitorBufferIndex] := value;
      levelMonitorBufferIndex := (levelMonitorBufferIndex + 1) % levelMonitorBuffer.Length;
    }

    /** Whole frames of `frameSize` samples currently queued. */
    function GetAvailableAudioFrames(frameSize: nat): (r: nat)
      reads this
      requires Valid() && frameSize >= dspBufferSize
      ensures r * (frameSize / dspBufferSize) <= |audioFrames|
      ensures |audioFrames| < (r + 1) * (frameSize / dspBufferSize)
    {
      QuotientPositive(frameSize, dspBufferSize);
      WholeSteps(|audioFrames|, frameSize / dspBufferSize)
    }
  }

  /**
   * A fresh array holding the first `count` chunks back to back; chunk i
   * is copied to offset i * size.
   */
  method CopyChunks(chunks: seq<seq<real>>, count: nat, size: nat) returns (rawData: array<real>)
    requires count <= |chunks| && Uniform(chunks, size)
    ensures fresh(rawData)
    ensures rawData.Length == count * size && rawData[..] == Flatten(chunks[..count])
  {
    ghost var taken := chunks[..count];
    FlattenLength(taken, size);
    rawData := new real[count * size];
    var i := 0;
    var offset := 0;
    while i < count
      invariant 0 <= i <= count
      invariant offset == i * size
      invariant offset <= rawData.Length
      invariant rawData[..offset] == Flatten(taken[..i])
    {
      var chunk := chunks[i];
      assert taken[..i + 1][..i] == taken[..i] && taken[..i + 1][i] == chunk;
      FlattenPrefixLength(taken, i + 1);
      CopyChunk(rawData, offset, chunk);
      MulStep(i, size);
      offset := offset + size;
      i := i + 1;
    }
    assert taken[..count] == taken;
    assert rawData[..] == rawData[..offset];
  }

  /** Writes `chunk` into `rawData` at `offset`, after the samples already there. */
  method CopyChunk(rawData: array<real>, offset: nat, chunk: seq<real>)
    requires offset + |chunk| <= rawData.Length
    modifies rawData
    ensures rawData[..offset + |chunk|] == old(rawData[..offset]) + chunk
  {
    for j := 0 to |chunk|
      invariant rawData[..offset + j] == old(rawData[..offset]) + chunk[..j]
    {
      rawData[offset + j] := chunk[j];
      assert chunk[..j + 1] == chunk[..j] + [chunk[j]];
    }
    assert chunk[..|chunk|] == chunk;
  }

  /** Sets every element of the array to `value`. */
  method ArrayFill<T>(a: array<T>, value: T)
    modifies a
    ensures a[..] == seq(a.Length, _ => value)
  {
    for i := 0 to a.Length
      invariant forall k :: 0 <= k < i ==> a[k] == value
    {
      a[i] := value;
    }
  }
}

=== FILE: audio_mixer.dfy ===
/**
 * The audio mixer: the list of capture sources (game listeners and at most
 * one microphone), their mute state expressed as per-source volume, their
 * level meters, and the mix of one drain of every source into one buffer.
 */
module AudioMixer {
  import opened LckTypes
  import opened Arith
  import opened AudioCapture

  /** C#'s int.MaxValue, the start value of the frame-count minimum. */
  const IntMax: nat := 0x7fff_ffff

  // ---------------------------------------------------------------------
  // The mix as a function of the drained samples

  /** Sum of the i-th samples of the tracks, accumulated in list order. */
  function ColumnSum(tracks: seq<seq<real>>, i: nat): real
    requires forall j :: 0 <= j < |tracks| ==> i < |tracks[j]|
  {
    if tracks == [] then 0.0 else ColumnSum(tracks[..|tracks| - 1], i) + tracks[|tracks| - 1][i]
  }

  /** The smallest of `first` and the lengths of the tracks. */
  function MinLength(first: nat, tracks: seq<seq<real>>): (r: nat)
    ensures r <= first
    ensures forall j :: 0 <= j < |tracks| ==> r <= |tracks[j]|
  {
    if tracks == [] then first
    else
      var rest := MinLength(first, tracks[..|tracks| - 1]);
      assert forall j :: 0 <= j < |tracks| - 1 ==> tracks[..|tracks| - 1][j] == tracks[j];
      Min(rest, |tracks[|tracks| - 1]|)
  }

  /**
   * Sample `i` of the mix: up to the shortest length, the first buffer's
   * sample plus the same-index sample of every other track; beyond it, the
   * first buffer's sample alone.
   */
  function MixedSample(game: seq<real>, tracks: seq<seq<real>>, i: nat): real
    requires i < |game|
  {
    if i < MinLength(|game|, tracks) then game[i] + ColumnSum(tracks, i) else game[i]
  }

  /** The first `len` samples of the mix. */
  function MixPrefix(game: seq<real>, tracks: seq<seq<real>>, len: nat): (r: seq<real>)
    requires len <= |game|
    ensures |r| == len && forall i :: 0 <= i < len ==> r[i] == MixedSample(game, tracks, i)
  {
    if len == 0 then [] else MixPrefix(game, tracks, len - 1) + [MixedSample(game, tracks, len - 1)]
  }

  /**
   * The mixed buffer: the first drained buffer with, up to the shortest
   * length, the same-index samples of every other track added to it.
   */
  function Mix(game: seq<real>, tracks: seq<seq<real>>): (r: seq<real>)
    ensures |r| == |game|
    ensures forall i :: 0 <= i < |game| ==>
      r[i] == if i < MinLength(|game|, tracks) then game[i] + ColumnSum(tracks, i) else game[i]
  {
    MixPrefix(game, tracks, |game|)
  }

  /** Column sums split along a split of the track list. */
  lemma {:induction false} ColumnSumAppend(a: seq<seq<real>>, b: seq<seq<real>>, i: nat)
    requires forall j :: 0 <= j < |a| ==> i < |a[j]|
    requires forall j :: 0 <= j < |b| ==> i < |b[j]|
    ensures forall j :: 0 <= j < |a + b| ==> i < |(a + b)[j]|
    ensures ColumnSum(a + b, i) == ColumnSum(a, i) + ColumnSum(b, i)
  {
    if b == [] {
      assert a + b == a;
    } else {
      var b' := b[..|b| - 1];
      assert (a + b)[..|a + b| - 1] == a + b';
      ColumnSumAppend(a, b', i);
    }
  }

  /**
   * When every drained track is as long as the first one, nothing is cut
   * off: each mixed sample is the sum of that sample over ALL sources, the
   * first one included, so which source comes first does not matter.
   */
  lemma MixIsSumOfAllSources(game: seq<real>, tracks: seq<seq<real>>)
    requires forall j :: 0 <= j < |tracks| ==> |tracks[j]| == |game|
    ensures forall i :: 0 <= i < |game| ==> Mix(game, tracks)[i] == ColumnSum([game] + tracks, i)
  {
    MinLengthOfEqualLengths(|game|, tracks);
    forall i | 0 <= i < |game|
      ensures Mix(game, tracks)[i] == ColumnSum([game] + tracks, i)
    {
      ColumnSumAppend([game], tracks, i);
      assert ColumnSum([game], i) == ColumnSum([], i) + game[i];
    }
  }

  /** When every track is as long as the first buffer, that length is the shortest. */
  lemma {:induction false} MinLengthOfEqualLengths(first: nat, tracks: seq<seq<real>>)
    requires forall j :: 0 <= j < |tracks| ==> |tracks[j]| == first
    ensures MinLength(first, tracks) == first
  {
    if tracks != [] {
      MinLengthOfEqualLengths(first, tracks[..|tracks| - 1]);
    }
  }

  /** Mixing silent tracks leaves the first buffer unchanged. */
  lemma {:induction false} SilentTracksAddNothing(game: seq<real>, tracks: seq<seq<real>>)
    requires forall j :: 0 <= j < |tracks| ==> tracks[j] == seq(|tracks[j]|, _ => 0.0)
    ensures Mix(game, tracks) == game
  {
    var n := MinLength(|game|, tracks);
    forall i | 0 <= i < n
      ensures ColumnSum(tracks, i) == 0.0
    {
      SilentColumn(tracks, i);
    }
  }

  lemma {:induction false} SilentColumn(tracks: seq<seq<real>>, i: nat)
    requires forall j :: 0 <= j < |tracks| ==> tracks[j] == seq(|tracks[j]|, _ => 0.0)
    requires forall j :: 0 <= j < |tracks| ==> i < |tracks[j]|
    ensures ColumnSum(tracks, i) == 0.0
  {
    if tracks != [] {
      var last := tracks[|tracks| - 1];
      assert last[i] == 0.0;
      SilentColumn(tracks[..|tracks| - 1], i);
    }
  }

  /** The smallest of `start` and the whole frames available in each source. */
  ghost function MinAvailable(sources: seq<LckAudioCapture>, frameSize: nat, start: nat): (r: nat)
    reads sources
    requires forall k :: 0 <= k < |sources| ==> sources[k].Valid() && frameSize >= sources[k].dspBufferSize
    ensures r <= start
    ensures forall k :: 0 <= k < |sources| ==> r <= sources[k].GetAvailableAudioFrames(frameSize)
    ensures r == start || exists k :: 0 <= k < |sources| && r == sources[k].GetAvailableAudioFrames(frameSize)
  {
    if sources == [] then start
    else
      var last := sources[|sources| - 1];
      assert forall k :: 0 <= k < |sources| - 1 ==> sources[..|sources| - 1][k] == sources[k];
      Min(MinAvailable(sources[..|sources| - 1], frameSize, start), last.GetAvailableAudioFrames(frameSize))
  }

  /** Index of the last microphone in `captures`, or -1 when there is none. */
  function LastMicrophone(captures: seq<LckAudioCapture>): (r: int)
    ensures -1 <= r < |captures|
    ensures r >= 0 ==> captures[r].isMicrophone
    ensures forall k :: r < k < |captures| ==> !captures[k].isMicrophone
  {
    if captures == [] then -1
    else if captures[|captures| - 1].isMicrophone then |captures| - 1
    else LastMicrophone(captures[..|captures| - 1])
  }

  /** The first source index that is not the microphone's, or -1 when there is none. */
  function FirstGameSource(count: nat, microphoneIndex: int): (r: int)
    ensures -1 <= r < count
    ensures r >= 0 ==> r != microphoneIndex && (r == 0 || (r == 1 && microphoneIndex == 0))
    ensures r == -1 <==> count == 0 || (count == 1 && microphoneIndex == 0)
  {
    if count == 0 then -1
    else if microphoneIndex != 0 then 0
    else if count > 1 then 1
    else -1
  }

  /** The queued chunks of each source, in source order. */
  ghost function Queues(sources: seq<LckAudioCapture>): (r: seq<seq<seq<real>>>)
    reads sources
    ensures |r| == |sources| && forall k :: 0 <= k < |sources| ==> r[k] == sources[k].audioFrames
  {
    if sources == [] then [] else Queues(sources[..|sources| - 1]) + [sources[|sources| - 1].audioFrames]
  }

  /** Every element of the sequence is a distinct object. */
  ghost predicate Distinct(sources: seq<LckAudioCapture>)
  {
    forall i, j :: 0 <= i < j < |sources| ==> sources[i] != sources[j]
  }

  /**
   * The mixer over its sources. The microphone, when known, is the source
   * at `microphoneAudioSourceIndex`; mute states are applied by setting
   * volumes on the sources.
   */
  class LckAudioMixer {
    var isMicrophoneOpen: bool
    var isGameAudioMute: bool
    var audioSources: seq<LckAudioCapture>
    var microphoneAudioSourceIndex: int
    var microphone: LckAudioCapture?

    ghost predicate Valid()
      reads this, audioSources
    {
      && Distinct(audioSources)
      && (forall k :: 0 <= k < |audioSources| ==> audioSources[k].Valid())
      && -1 <= microphoneAudioSourceIndex < |audioSources|
      && (microphoneAudioSourceIndex >= 0 ==> audioSources[microphoneAudioSourceIndex].isMicrophone)
      && (microphone != null ==> 0 <= microphoneAudioSourceIndex && audioSources[microphoneAudioSourceIndex] == microphone)
    }

    /**
     * Models the constructor, which looks the sources up at once.
     * `captures` are the capture components found in the scene and
     * `deviceBufferSize` the audio device's buffer size and `outputChannels`
     * its speaker channel count (for components
     * the mixer creates itself).
     */
    constructor (captures: seq<LckAudioCapture>, deviceBufferSize: nat, outputChannels: nat)
      requires Distinct(captures) && deviceBufferSize > 0 && outputChannels > 0
      requires forall k :: 0 <= k < |captures| ==> captures[k].Valid()
      modifies captures
      ensures Valid() && isMicrophoneOpen && !isGameAudioMute
      ensures microphone != null && microphone.volumeUnitLevel == 1.0
      ensures |captures| <= |audioSources|
      ensures |captures| > 0 ==> audioSources[..|captures|] == captures
    {
      isMicrophoneOpen := true;
      isGameAudioMute := false;
      audioSources := [];
      microphoneAudioSourceIndex := -1;
      microphone := null;
      new;
      FindAudioSources(captures, deviceBufferSize, outputChannels);
    }

    /**
     * Rebuilds the source list: the scene's captures, or one new capture on
     * the listener when there are none; the last microphone among them is
     * the microphone, and when there is none a new one is appended. The
     * microphone's volume then follows the open state.
     */
    method FindAudioSources(captures: seq<LckAudioCapture>, deviceBufferSize: nat, outputChannels: nat)
      requires Distinct(captures) && deviceBufferSize > 0 && outputChannels > 0
      requires forall k :: 0 <= k < |captures| ==> captures[k].Valid()
      modifies this`audioSources, this`microphoneAudioSourceIndex, this`microphone, captures
      ensures Valid()
      ensures |captures| <= |audioSources|
      ensures |captures| > 0 ==> audioSources[..|captures|] == captures
      ensures |captures| == 0 ==> |audioSources| >= 1 && fresh(audioSources[0]) && !audioSources[0].isMicrophone
      ensures var found := LastMicrophone(captures);
        if found >= 0 then audioSources == captures && microphoneAudioSourceIndex == found
        else && |audioSources| == (if |captures| > 0 then |captures| else 1) + 1
             && microphoneAudioSourceIndex == |audioSources| - 1
             && fresh(audioSources[microphoneAudioSourceIndex])
      ensures microphone != null && microphone == audioSources[microphoneAudioSourceIndex]
      ensures microphone.volumeUnitLevel == if isMicrophoneOpen then 1.0 else 0.0
      ensures forall k :: 0 <= k < |captures| ==> unchanged(captures[k]) || captures[k] == microphone
      ensures forall k :: 0 <= k < |captures| ==> captures[k].audioFrames == old(captures[k].audioFrames)
      ensures forall k :: 0 <= k < |captures| && captures[k] != microphone ==>
        captures[k].volumeUnitLevel == old(captures[k].volumeUnitLevel)
    {
      ScanCaptures(captures);
      if |captures| == 0 {
        var listenerCapture := new LckAudioCapture(deviceBufferSize, outputChannels, false);
        audioSources := [listenerCapture];
      }
      if microphone == null {
        var created := new LckAudioCapture(deviceBufferSize, outputChannels, true);
        audioSources := audioSources + [created];
        microphone := created;
        microphoneAudioSourceIndex := |audioSources| - 1;
      }
      SetMicrophoneVolume();
    }

    /**
     * The scan of the scene's captures: all of them become sources, and the
     * last microphone among them becomes the microphone.
     */
    method ScanCaptures(captures: seq<LckAudioCapture>)
      modifies this`audioSources, this`microphoneAudioSourceIndex, this`microphone
      ensures audioSources == captures
      ensures microphoneAudioSourceIndex == LastMicrophone(captures)
      ensures microphone == if microphoneAudioSourceIndex >= 0 then captures[microphoneAudioSourceIndex] else null
    {
      audioSources := [];
      microphoneAudioSourceIndex := -1;
      microphone := null;
      for index := 0 to |captures|
        invariant audioSources == captures[..index]
        invariant microphoneAudioSourceIndex == LastMicrophone(captures[..index])
        invariant microphone == if microphoneAudioSourceIndex >= 0 then captures[microphoneAudioSourceIndex] else null
      {
        var audioCapture := captures[index];
        audioSources := audioSources + [audioCapture];
        if audioCapture.isMicrophone {
          microphoneAudioSourceIndex := index;
          microphone := audioCapture;
        }
        assert captures[..index + 1][..index] == captures[..index];
      }
      assert captures[..|captures|] == captures;
    }

    /** The microphone's volume is 1 when it is open and 0 when it is closed. */
    method SetMicrophoneVolume()
      requires Valid()
      modifies microphone
      ensures Valid()
      ensures forall k :: 0 <= k < |audioSources| && audioSources[k] != microphone ==> unchanged(audioSources[k])
      ensures microphone != null ==> microphone.volumeUnitLevel == if isMicrophoneOpen then 1.0 else 0.0
      ensures microphone != null ==> microphone.audioFrames == old(microphone.audioFrames)
      ensures microphone != null ==> microphone.captureAudio == old(microphone.captureAudio)
    {
      if microphone != null {
        microphone.volumeUnitLevel := if isMicrophoneOpen then 1.0 else 0.0;
      }
    }

    /** Looks the sources up again and starts capture on every one of them. */
    method EnableCapture(captures: seq<LckAudioCapture>, deviceBufferSize: nat, outputChannels: nat)
      requires Distinct(captures) && deviceBufferSize > 0 && outputChannels > 0
      requires forall k :: 0 <= k < |captures| ==> captures[k].Valid()
      modifies this`audioSources, this`microphoneAudioSourceIndex, this`microphone, captures
      ensures Valid()
      ensures |captures| <= |audioSources|
      ensures |captures| > 0 ==> audioSources[..|captures|] == captures
      ensures var found := LastMicrophone(captures);
        if found >= 0 then audioSources == captures && microphoneAudioSourceIndex == found
        else && |audioSources| == (if |captures| > 0 then |captures| else 1) + 1
             && microphoneAudioSourceIndex == |audioSources| - 1
      ensures microphone != null && microphone.volumeUnitLevel == if isMicrophoneOpen then 1.0 else 0.0
      ensures forall k :: 0 <= k < |captures| ==> captures[k].audioFrames == old(captures[k].audioFrames)
      ensures forall k :: 0 <= k < |captures| && captures[k] != microphone ==>
        captures[k].volumeUnitLevel == old(captures[k].volumeUnitLevel)
      ensures forall k :: 0 <= k < |audioSources| ==> audioSources[k].captureAudio
      ensures forall k :: 0 <= k < |audioSources| && audioSources[k].isMicrophone ==> audioSources[k].isOutputMute
    {
      FindAudioSources(captures, deviceBufferSize, outputChannels);
      StartSources();
      assert forall k :: 0 <= k < |captures| ==> captures[k] == audioSources[k];
    }

    /** Starts capture on every source; a microphone's own output is muted as it starts. */
    method StartSources()
      requires Valid() && microphone != null && microphone.volumeUnitLevel == if isMicrophoneOpen then 1.0 else 0.0
      modifies audioSources
      ensures Valid() && microphone != null && microphone.volumeUnitLevel == if isMicrophoneOpen then 1.0 else 0.0
      ensures forall k :: 0 <= k < |audioSources| ==> audioSources[k].captureAudio
      ensures forall k :: 0 <= k < |audioSources| && audioSources[k].isMicrophone ==> audioSources[k].isOutputMute
      ensures forall k :: 0 <= k < |audioSources| ==>
        audioSources[k].audioFrames == old(audioSources[k].audioFrames)
        && audioSources[k].volumeUnitLevel == old(audioSources[k].volumeUnitLevel)
    {
      for index := 0 to |audioSources|
        modifies audioSources
        invariant Valid()
        invariant microphone != null && microphone.volumeUnitLevel == if isMicrophoneOpen then 1.0 else 0.0
        invariant forall k :: 0 <= k < index ==> audioSources[k].captureAudio
        invariant forall k :: 0 <= k < index && audioSources[k].isMicrophone ==> audioSources[k].isOutputMute
        invariant forall k :: 0 <= k < |audioSources| ==>
          audioSources[k].audioFrames == old(audioSources[k].audioFrames)
          && audioSources[k].volumeUnitLevel == old(audioSources[k].volumeUnitLevel)
      {
        audioSources[index].EnableCapture();
      }
    }

    /** Stops capture on every source. */
    method DisableCapture()
      requires Valid()
      modifies audioSources
      ensures Valid()
      ensures forall k :: 0 <= k < |audioSources| ==> !audioSources[k].captureAudio
      ensures forall k :: 0 <= k < |audioSources| ==>
        audioSources[k].audioFrames == old(audioSources[k].audioFrames)
        && audioSources[k].volumeUnitLevel == old(audioSources[k].volumeUnitLevel)
    {
      for index := 0 to |audioSources|
        modifies audioSources
        invariant Valid()
        invariant forall k :: 0 <= k < index ==> !audioSources[k].captureAudio
        invariant forall k :: 0 <= k < |audioSources| ==>
          audioSources[k].audioFrames == old(audioSources[k].audioFrames)
          && audioSources[k].volumeUnitLevel == old(audioSources[k].volumeUnitLevel)
      {
        audioSources[index].DisableCapture();
      }
    }

    /** Non-Android path: records the open state and applies it as the microphone's volume. */
    method SetMicrophoneOpen(isOpen: bool) returns (r: LckResult)
      requires Valid()
      modifies this`isMicrophoneOpen, microphone
      ensures Valid() && r == Success
      ensures IsMicrophoneMute() == Ok(!isOpen)
      ensures microphone != null ==> microphone.volumeUnitLevel == if isOpen then 1.0 else 0.0
      ensures forall k :: 0 <= k < |audioSources| && audioSources[k] != microphone ==> unchanged(audioSources[k])
      ensures forall k :: 0 <= k < |audioSources| ==> audioSources[k].audioFrames == old(audioSources[k].audioFrames)
    {
      isMicrophoneOpen := isOpen;
      SetMicrophoneVolume();
      r := Success;
    }

    function IsMicrophoneMute(): (r: LckValue<bool>)
      reads this
      ensures r.Ok? && (r.value <==> !isMicrophoneOpen)
    {
      Ok(!isMicrophoneOpen)
    }

    /**
     * Records the mute state and applies it as volume 0 or 1 to every
     * source except the microphone's.
     */
    method SetGameAudioMute(isMute: bool) returns (r: LckResult)
      requires Valid()
      modifies this`isGameAudioMute, audioSources
      ensures Valid() && r == Success
      ensures IsGameAudioMute() == Ok(isMute)
      ensures forall k :: 0 <= k < |audioSources| && k != microphoneAudioSourceIndex ==>
        audioSources[k].volumeUnitLevel == if isMute then 0.0 else 1.0
      ensures forall k :: 0 <= k < |audioSources| && k == microphoneAudioSourceIndex ==>
        audioSources[k].volumeUnitLevel == old(audioSources[k].volumeUnitLevel)
      ensures forall k :: 0 <= k < |audioSources| ==> audioSources[k].audioFrames == old(audioSources[k].audioFrames)
    {
      isGameAudioMute := isMute;
      SetGameAudioVolume();
      r := Success;
    }

    method SetGameAudioVolume()
      requires Valid()
      modifies audioSources
      ensures Valid()
      ensures forall k :: 0 <= k < |audioSources| && k != microphoneAudioSourceIndex ==>
        audioSources[k].volumeUnitLevel == if isGameAudioMute then 0.0 else 1.0
      ensures forall k :: 0 <= k < |audioSources| && k == microphoneAudioSourceIndex ==>
        audioSources[k].volumeUnitLevel == old(audioSources[k].volumeUnitLevel)
      ensures forall k :: 0 <= k < |audioSources| ==> audioSources[k].audioFrames == old(audioSources[k].audioFrames)
    {
      for i := 0 to |audioSources|
        modifies audioSources
        invariant Valid()
        invariant forall k :: 0 <= k < i && k != microphoneAudioSourceIndex ==>
          audioSources[k].volumeUnitLevel == if isGameAudioMute then 0.0 else 1.0
        invariant forall k :: 0 <= k < |audioSources| && (i <= k || k == microphoneAudioSourceIndex) ==>
          audioSources[k].volumeUnitLevel == old(audioSources[k].volumeUnitLevel)
        invariant forall k :: 0 <= k < |audioSources| ==> audioSources[k].audioFrames == old(audioSources[k].audioFrames)
      {
        if i != microphoneAudioSourceIndex {
          SetSourceVolume(i, if isGameAudioMute then 0.0 else 1.0);
        }
      }
    }

    /** Sets the volume of source `i`; nothing else changes. */
    method SetSourceVolume(i: nat, level: real)
      requires Valid() && i < |audioSources| && level >= 0.0
      modifies audioSources[i]
      ensures Valid()
      ensures audioSources[i].volumeUnitLevel == level && audioSources[i].audioFrames == old(audioSources[i].audioFrames)
      ensures forall k :: 0 <= k < |audioSources| && k != i ==> unchanged(audioSources[k])
    {
      audioSources[i].volumeUnitLevel := level;
    }

    function IsGameAudioMute(): LckValue<bool>
      reads this
    {
      Ok(isGameAudioMute)
    }

    /** The microphone's level while it is open; 0 when it is closed or missing. */
    function GetMicrophoneOutputLevel(): (r: real)
      reads this, audioSources
      requires Valid()
      ensures r >= 0.0
      ensures microphone == null || !isMicrophoneOpen ==> r == 0.0
      ensures microphone != null && isMicrophoneOpen ==> r == microphone.GetCurrentAudioLevel()
    {
      if microphone == null then 0.0
      else if isMicrophoneOpen then microphone.GetCurrentAudioLevel()
      else 0.0
    }

    /**
     * The level of the first source that is not the microphone, or 0 when
     * game audio is muted. With no such source and game audio not muted the
     * lookup reads index -1 of the list, which throws: that outcome is None.
     */
    method GetGameOutputLevel() returns (r: Option<real>)
      requires Valid()
      ensures var game := FirstGameSource(|audioSources|, microphoneAudioSourceIndex);
        && (isGameAudioMute ==> r == Some(0.0))
        && (!isGameAudioMute && game < 0 ==> r == None)
        && (!isGameAudioMute && game >= 0 ==> r == Some(audioSources[game].GetCurrentAudioLevel()))
      ensures r.Some? ==> r.value >= 0.0
    {
      var gameAudioSourceIndex := -1;
      var i := 0;
      while i < |audioSources|
        invariant 0 <= i <= |audioSources|
        invariant i == 0 || (i == 1 && microphoneAudioSourceIndex == 0)
        invariant gameAudioSourceIndex == -1
      {
        if i != microphoneAudioSourceIndex {
          gameAudioSourceIndex := i;
          break;
        }
        i := i + 1;
      }
      assert gameAudioSourceIndex == FirstGameSource(|audioSources|, microphoneAudioSourceIndex);
      if isGameAudioMute {
        r := Some(0.0);
      } else if gameAudioSourceIndex < 0 {
        r := None;
      } else {
        r := Some(audioSources[gameAudioSourceIndex].GetCurrentAudioLevel());
      }
    }

    /** Whole frames available in every source at once (int.MaxValue with no sources). */
    ghost function FramesAvailable(frameSize: nat): (r: nat)
      reads this, audioSources
      requires Valid()
      requires forall k :: 0 <= k < |audioSources| ==> frameSize >= audioSources[k].dspBufferSize
    {
      MinAvailable(audioSources, frameSize, IntMax)
    }

    /** The minimum over the sources of their whole available frames, from int.MaxValue. */
    method MinAvailableFrames(frameSize: nat) returns (available: nat)
      requires Valid()
      requires forall k :: 0 <= k < |audioSources| ==> frameSize >= audioSources[k].dspBufferSize
      ensures available == FramesAvailable(frameSize)
      ensures forall k :: 0 <= k < |audioSources| ==> available <= audioSources[k].GetAvailableAudioFrames(frameSize)
    {
      available := IntMax;
      for k := 0 to |audioSources|
        invariant available == MinAvailable(audioSources[..k], frameSize, IntMax)
      {
        assert audioSources[..k + 1][..k] == audioSources[..k];
        available := Min(available, audioSources[k].GetAvailableAudioFrames(frameSize));
      }
      assert audioSources[..|audioSources|] == audioSources;
    }

    /**
     * Every source handed out `drained[k]`: the chunks of `frames` frames
     * from the front of its queue `before[k]`, keeping the rest queued.
     */
    ghost predicate HandedOutAll(before: seq<seq<seq<real>>>, frameSize: nat, frames: nat, drained: seq<seq<real>>)
      reads this, audioSources
    {
      && |before| == |audioSources| && |drained| == |audioSources|
      && forall k :: 0 <= k < |audioSources| ==> audioSources[k].HandedOut(before[k], frameSize, frames, drained[k])
    }

    /**
     * The mixed buffer as the encode loop receives it: null when there are
     * no sources, otherwise a new buffer holding the mix of what every
     * source gave up.
     */
    method GetMixedAudioHandle(frameSize: nat) returns (mixed: array?<real>, ghost drained: seq<seq<real>>)
      requires Valid()
      requires forall k :: 0 <= k < |audioSources| ==> frameSize >= audioSources[k].dspBufferSize
      modifies audioSources
      ensures Valid()
      ensures mixed == null <==> |audioSources| == 0
      ensures mixed != null ==> fresh(mixed) && HandedOutAll(old(Queues(audioSources)), frameSize, old(FramesAvailable(frameSize)), drained)
      ensures mixed != null ==> mixed[..] == Mix(drained[0], drained[1..])
    {
      mixed, drained := MixAudioArrays(frameSize);
    }

    /**
     * Drains the same number of whole frames from every source (the most
     * every source can give) and mixes them into the first source's buffer.
     * None of this happens when there are no sources: the result is null.
     * `drained` are the samples handed out by each source, in source order.
     */
    method MixAudioArrays(frameSize: nat) returns (mixed: array?<real>, ghost drained: seq<seq<real>>)
      requires Valid()
      requires forall k :: 0 <= k < |audioSources| ==> frameSize >= audioSources[k].dspBufferSize
      modifies audioSources
      ensures Valid()
      ensures mixed == null <==> |audioSources| == 0
      ensures mixed != null ==> fresh(mixed) && HandedOutAll(old(Queues(audioSources)), frameSize, old(FramesAvailable(frameSize)), drained)
      ensures mixed != null ==> mixed[..] == Mix(drained[0], drained[1..])
    {
      if |audioSources| == 0 {
        mixed, drained := null, [];
      } else {
        mixed, drained := MixAvailable(frameSize);
      }
    }

    /** With sources present: the mix of the most whole frames every source can give. */
    method MixAvailable(frameSize: nat) returns (mixed: array<real>, ghost drained: seq<seq<real>>)
      requires Valid() && |audioSources| > 0
      requires forall k :: 0 <= k < |audioSources| ==> frameSize >= audioSources[k].dspBufferSize
      modifies audioSources
      ensures Valid() && fresh(mixed)
      ensures HandedOutAll(old(Queues(audioSources)), frameSize, old(FramesAvailable(frameSize)), drained)
      ensures mixed[..] == Mix(drained[0], drained[1..])
    {
      var availableFrames := MinAvailableFrames(frameSize);
      mixed, drained := MixFrames(frameSize, availableFrames);
    }

    /** The mix of `frames` frames from every source. */
    method MixFrames(frameSize: nat, frames: nat) returns (mixed: array<real>, ghost drained: seq<seq<real>>)
      requires Valid() && |audioSources| > 0
      requires forall k :: 0 <= k < |audioSources| ==> frameSize >= audioSources[k].dspBufferSize
      requires forall k :: 0 <= k < |audioSources| ==> frames <= audioSources[k].GetAvailableAudioFrames(frameSize)
      modifies audioSources
      ensures Valid()
      ensures fresh(mixed) && |drained| == |audioSources| && mixed[..] == Mix(drained[0], drained[1..])
      ensures HandedOutAll(old(Queues(audioSources)), frameSize, frames, drained)
    {
      var game, tracks;
      game, tracks, drained := DrainSources(frameSize, frames);
      var smallestAudioDataLength := SmallestLength(game, tracks);
      AddTracks(game, tracks, smallestAudioDataLength);
      mixed := game;
    }

    /**
     * Asks every source, in order, for `frames` frames; the first source's
     * samples come back as `game`, the others' as `tracks`.
     */
    method DrainSources(frameSize: nat, frames: nat)
      returns (game: array<real>, tracks: seq<seq<real>>, ghost drained: seq<seq<real>>)
      requires Valid() && |audioSources| > 0
      requires forall k :: 0 <= k < |audioSources| ==> frameSize >= audioSources[k].dspBufferSize
      requires forall k :: 0 <= k < |audioSources| ==> frames <= audioSources[k].GetAvailableAudioFrames(frameSize)
      modifies audioSources
      ensures Valid() && fresh(game)
      ensures |drained| == |audioSources| && game[..] == drained[0] && tracks == drained[1..]
      ensures HandedOutAll(old(Queues(audioSources)), frameSize, frames, drained)
    {
      ghost var before := Queues(audioSources);
      game := DrainOne(0, frameSize, frames, before[0]);
      drained := [game[..]];
      tracks := [];
      var index := 1;
      while index < |audioSources|
        modifies audioSources
        invariant 1 <= index <= |audioSources|
        invariant Valid()
        invariant |drained| == index && game[..] == drained[0] && tracks == drained[1..]
        invariant forall k :: 0 <= k < index ==> audioSources[k].HandedOut(before[k], frameSize, frames, drained[k])
        invariant forall k :: index <= k < |audioSources| ==> unchanged(audioSources[k])
      {
        var track := DrainOne(index, frameSize, frames, before[index]);
        tracks := tracks + [track[..]];
        drained := drained + [track[..]];
        index := index + 1;
      }
    }

    /** Asks source `k`, whose queue is `before`, for `frames` frames, which it has. */
    method DrainOne(k: nat, frameSize: nat, frames: nat, ghost before: seq<seq<real>>) returns (data: array<real>)
      requires Valid() && k < |audioSources| && audioSources[k].audioFrames == before
      requires frameSize >= audioSources[k].dspBufferSize
      requires frames <= audioSources[k].GetAvailableAudioFrames(frameSize)
      modifies audioSources[k]
      ensures Valid() && fresh(data)
      ensures forall j :: 0 <= j < |audioSources| && j != k ==> unchanged(audioSources[j])
      ensures audioSources[k].HandedOut(before, frameSize, frames, data[..])
    {
      var source := audioSources[k];
      QuotientPositive(frameSize, source.dspBufferSize);
      data := source.GetAudioData(frameSize, frames);
    }

    /** The smallest of the first buffer's length and the tracks' lengths. */
    method SmallestLength(game: array<real>, tracks: seq<seq<real>>) returns (n: nat)
      ensures n == MinLength(game.Length, tracks)
      ensures n <= game.Length && forall j :: 0 <= j < |tracks| ==> n <= |tracks[j]|
    {
      n := game.Length;
      for j := 0 to |tracks|
        invariant n == MinLength(game.Length, tracks[..j])
      {
        assert tracks[..j + 1][..j] == tracks[..j];
        n := Min(|tracks[j]|, n);
      }
      assert tracks[..|tracks|] == tracks;
    }
  }

  /**
   * The in-place summation: for every index below `n`, add the same-index
   * sample of every track to `game`, track by track.
   */
  method AddTracks(game: array<real>, tracks: seq<seq<real>>, n: nat)
    requires n == MinLength(game.Length, tracks)
    modifies game
    ensures game[..] == Mix(old(game[..]), tracks)
  {
    ghost var start := game[..];
    for i := 0 to n
      invariant forall k :: 0 <= k < i ==> game[k] == start[k] + ColumnSum(tracks, k)
      invariant forall k :: i <= k < game.Length ==> game[k] == start[k]
    {
      for j := 0 to |tracks|
        invariant game[i] == start[i] + ColumnSum(tracks[..j], i)
        invariant forall k :: 0 <= k < i ==> game[k] == start[k] + ColumnSum(tracks, k)
        invariant forall k :: i < k < game.Length ==> game[k] == start[k]
      {
        assert tracks[..j + 1][..j] == tracks[..j];
        game[i] := game[i] + tracks[j][i];
      }
      assert tracks[..|tracks|] == tracks;
    }
  }

}

=== FILE: mixer.dfy ===
/**
 * The recording orchestrator: requests to start and stop are recorded as
 * pending flags and acted on by a per-frame update, which also paces the
 * camera's rendering to the track's framerate; while a session runs, an
 * encode loop hands the mixed audio and the rendered frame to the recorder.
 */
module Mixer {
  import opened LckTypes
  import opened Arith
  import opened AudioCapture
  import opened AudioMixer
  import opened Recorder

  /** Minimum time between two served requests, in milliseconds. */
  const RecordToggleCooldownMilliseconds: int := 250
  const AudioTrackBitrate: nat := 0x10_0000
  const DefaultSampleRate: nat := 48000
  const AudioTrackChannels: nat := 2

  /** What the orchestrator reports to its listeners. */
  datatype Notification =
    | RecordingStarted(result: LckResult)
    | RecordingStopped(result: LckResult)
    | LowStorageSpaceReported(result: LckResult)

  datatype LifecycleEvent = Pause | Quit | OtherLifecycleEvent

  // ---------------------------------------------------------------------
  // Requests and the toggle step

  /** The session flag and the two pending requests. */
  datatype Flags = Flags(isRecording: bool, shouldStart: bool, shouldStop: bool)

  /**
   * The states the request methods can produce: idle, start pending,
   * recording, stop pending. A start is only pending while idle and a stop
   * only while recording.
   */
  predicate Consistent(f: Flags)
  {
    && (f.shouldStart ==> !f.isRecording && !f.shouldStop)
    && (f.shouldStop ==> f.isRecording)
  }

  /** A start request: refused while anything is pending or a session runs, or when storage is short. */
  function StartRequest(f: Flags, hasEnoughStorage: bool): (LckResult, Flags)
  {
    if f.shouldStart || f.isRecording || f.shouldStop then (Failure(RecordingAlreadyStarted), f)
    else if !hasEnoughStorage then (Failure(NotEnoughStorageSpace), f)
    else (Success, f.(shouldStart := true))
  }

  /** A stop request: refused unless a session runs with nothing pending. */
  function StopRequest(f: Flags): (LckResult, Flags)
  {
    if f.shouldStop || !f.isRecording || f.shouldStart then (Failure(NotCurrentlyRecording), f)
    else (Success, f.(shouldStop := true))
  }

  datatype ToggleAction = NoAction | DoStart | DoStop

  /** What one update does with the flags: the new flags, the action taken and the rejection reported. */
  datatype ToggleOutcome = ToggleOutcome(flags: Flags, action: ToggleAction, rejection: Option<Notification>)

  /**
   * The toggle part of one update. Not recording: a pending start is served
   * once the cooldown has passed, and a pending stop is dropped and
   * reported. Recording: a pending stop is served once the cooldown has
   * passed, and a pending start is dropped and reported.
   */
  function ToggleStep(f: Flags, cooldownPassed: bool): (r: ToggleOutcome)
    ensures Consistent(r.flags)
    ensures r.action == DoStart <==> !f.isRecording && f.shouldStart && cooldownPassed
    ensures r.action == DoStop <==> f.isRecording && f.shouldStop && cooldownPassed
    ensures r.flags.isRecording == (if r.action == NoAction then f.isRecording else !f.isRecording)
    ensures r.flags.shouldStart ==> r.action == NoAction && f.shouldStart
    ensures r.flags.shouldStop ==> r.action == NoAction && f.shouldStop
  {
    if !f.isRecording then
      var served := f.shouldStart && cooldownPassed;
      var f1 := if served then f.(shouldStart := false, isRecording := true) else f;
      var action := if served then DoStart else NoAction;
      if f1.shouldStop then ToggleOutcome(f1.(shouldStop := false), action, Some(RecordingStopped(Failure(NotCurrentlyRecording))))
      else ToggleOutcome(f1, action, None)
    else
      var served := f.shouldStop && cooldownPassed;
      var f1 := if served then f.(shouldStop := false, isRecording := false) else f;
      var action := if served then DoStop else NoAction;
      if f1.shouldStart then ToggleOutcome(f1.(shouldStart := false), action, Some(RecordingStarted(Failure(RecordingAlreadyStarted))))
      else ToggleOutcome(f1, action, None)
  }

  /** The stopwatch's whole milliseconds must exceed the cooldown. */
  function CooldownPassed(toggleElapsedSeconds: real): (r: bool)
    requires toggleElapsedSeconds >= 0.0
    ensures r ==> toggleElapsedSeconds > 0.25
    ensures toggleElapsedSeconds >= 0.251 ==> r
  {
    (toggleElapsedSeconds * 1000.0).Floor > RecordToggleCooldownMilliseconds
  }

  /** A start is accepted exactly from the idle state with enough storage, and the only change is the pending start. */
  lemma StartAcceptedOnlyWhenIdle(f: Flags, hasEnoughStorage: bool)
    ensures StartRequest(f, hasEnoughStorage).0 == Success <==> f == Flags(false, false, false) && hasEnoughStorage
    ensures StartRequest(f, hasEnoughStorage).0 == Success ==> StartRequest(f, hasEnoughStorage).1 == Flags(false, true, false)
    ensures StartRequest(f, hasEnoughStorage).0 != Success ==> StartRequest(f, hasEnoughStorage).1 == f
    ensures StartRequest(f, hasEnoughStorage).0 == Failure(NotEnoughStorageSpace) ==> f == Flags(false, false, false)
  {
  }

  /** A stop is accepted exactly while recording with nothing pending. */
  lemma StopAcceptedOnlyWhileRecording(f: Flags)
    ensures StopRequest(f).0 == Success <==> f == Flags(true, false, false)
    ensures StopRequest(f).0 == Success ==> StopRequest(f).1 == Flags(true, false, true)
    ensures StopRequest(f).0 != Success ==> StopRequest(f).1 == f && StopRequest(f).0 == Failure(NotCurrentlyRecording)
  {
  }

  /** Both request methods keep the flags in one of the four states. */
  lemma RequestsKeepConsistent(f: Flags, hasEnoughStorage: bool)
    requires Consistent(f)
    ensures Consistent(StartRequest(f, hasEnoughStorage).1)
    ensures Consistent(StopRequest(f).1)
  {
  }

  /**
   * The update reports a rejection exactly when a stop is pending while not
   * recording or a start is pending while recording, and either way leaves
   * no request pending that the state cannot serve.
   */
  lemma ToggleRejections(f: Flags, cooldownPassed: bool)
    ensures ToggleStep(f, cooldownPassed).rejection.Some? <==> (!f.isRecording && f.shouldStop) || (f.isRecording && f.shouldStart)
    ensures Consistent(ToggleStep(f, cooldownPassed).flags)
  {
  }

  /**
   * From the states the requests produce, the update never rejects: it
   * serves the pending request once the cooldown has passed, flipping the
   * session flag and clearing the request, and otherwise changes nothing.
   */
  lemma ToggleServesPendingRequest(f: Flags, cooldownPassed: bool)
    requires Consistent(f)
    ensures var o := ToggleStep(f, cooldownPassed);
      && o.rejection == None
      && (o.action == DoStart <==> f.shouldStart && cooldownPassed)
      && (o.action == DoStop <==> f.shouldStop && cooldownPassed)
      && (o.action == DoStart ==> o.flags == Flags(true, false, false))
      && (o.action == DoStop ==> o.flags == Flags(false, false, false))
      && (o.action == NoAction ==> o.flags == f)
  {
  }

  // ---------------------------------------------------------------------
  // Frame pacing

  /** The render stopwatch's elapsed seconds and the time carried over from the last rendered frame. */
  datatype Pacing = Pacing(elapsed: real, overflow: real)

  /** Seconds per frame; none at framerate 0, whose frame time is infinite. */
  function FrameTime(framerate: nat): (r: real)
    requires framerate > 0
    ensures r > 0.0
  {
    1.0 / (framerate as real)
  }

  /**
   * One pacing step with frame time `ft`: render when the elapsed time plus
   * the carry reaches a frame time, carrying the excess and restarting the
   * stopwatch; otherwise render nothing and change nothing.
   */
  function RenderStep(p: Pacing, ft: real): (Pacing, bool)
  {
    if p.elapsed + p.overflow >= ft then (Pacing(0.0, p.elapsed + p.overflow - ft), true)
    else (p, false)
  }

  /** The pacing step of one update at a framerate; at framerate 0 nothing is ever rendered. */
  function PaceStep(p: Pacing, framerate: nat): (r: (Pacing, bool))
    ensures framerate == 0 ==> r == (p, false)
    ensures r.1 <==> framerate > 0 && p.elapsed + p.overflow >= FrameTime(framerate)
    ensures r.1 ==> r.0.elapsed == 0.0
    ensures framerate > 0 ==> r.0.elapsed + r.0.overflow + (if r.1 then FrameTime(framerate) else 0.0) == p.elapsed + p.overflow
  {
    if framerate == 0 then (p, false) else RenderStep(p, FrameTime(framerate))
  }

  function Total(deltas: seq<real>): real
  {
    if deltas == [] then 0.0 else Total(deltas[..|deltas| - 1]) + deltas[|deltas| - 1]
  }

  /** The pacing state and the frames rendered after updates `deltas` seconds apart, with frame time `ft`. */
  function Paced(p: Pacing, deltas: seq<real>, ft: real): (Pacing, nat)
  {
    if deltas == [] then (p, 0)
    else
      var (q, n) := Paced(p, deltas[..|deltas| - 1], ft);
      var (q', rendered) := RenderStep(q.(elapsed := q.elapsed + deltas[|deltas| - 1]), ft);
      (q', if rendered then n + 1 else n)
  }

  /** The carry is never negative: a frame is rendered only once its time has fully elapsed. */
  lemma PaceStepKeepsCarry(p: Pacing, framerate: nat)
    requires p.elapsed >= 0.0 && p.overflow >= 0.0
    ensures PaceStep(p, framerate).0.elapsed >= 0.0 && PaceStep(p, framerate).0.overflow >= 0.0
    ensures PaceStep(p, framerate).1 ==> framerate > 0 && p.elapsed + p.overflow >= FrameTime(framerate)
    ensures !PaceStep(p, framerate).1 ==> PaceStep(p, framerate).0 == p
  {
  }

  /** The time taken by `n` frames of `ft` seconds, as a sum (n * ft, see FramesTimeIsProduct). */
  function FramesTime(n: nat, ft: real): real
  {
    if n == 0 then 0.0 else FramesTime(n - 1, ft) + ft
  }

  /** The sum is the product. */
  lemma {:induction false} FramesTimeIsProduct(n: nat, ft: real)
    ensures FramesTime(n, ft) == (n as real) * ft
  {
    if n > 0 {
      FramesTimeIsProduct(n - 1, ft);
      assert (n as real) * ft == ((n - 1) as real) * ft + ft;
    }
  }

  /**
   * No time is lost or invented: the frames rendered times the frame time,
   * plus the carry and the running stopwatch, is all the time that passed.
   */
  lemma {:induction false} PacingKeepsTime(p: Pacing, deltas: seq<real>, ft: real)
    requires ft > 0.0 && p.elapsed >= 0.0 && p.overflow >= 0.0
    requires forall i :: 0 <= i < |deltas| ==> deltas[i] >= 0.0
    ensures var (q, n) := Paced(p, deltas, ft);
      && q.elapsed >= 0.0 && q.overflow >= 0.0
      && FramesTime(n, ft) + q.elapsed + q.overflow == p.elapsed + p.overflow + Total(deltas)
  {
    if deltas != [] {
      PacingKeepsTime(p, deltas[..|deltas| - 1], ft);
    }
  }

  /** Updates at least once a frame time keep the carry plus the running stopwatch below a frame time. */
  lemma {:induction false} CarryStaysBelowFrame(p: Pacing, deltas: seq<real>, ft: real)
    requires ft > 0.0 && p.elapsed >= 0.0 && p.overflow >= 0.0
    requires p.elapsed + p.overflow < ft
    requires forall i :: 0 <= i < |deltas| ==> 0.0 <= deltas[i] <= ft
    ensures Paced(p, deltas, ft).0.elapsed >= 0.0 && Paced(p, deltas, ft).0.overflow >= 0.0
    ensures Paced(p, deltas, ft).0.elapsed + Paced(p, deltas, ft).0.overflow < ft
  {
    if deltas != [] {
      CarryStaysBelowFrame(p, deltas[..|deltas| - 1], ft);
    }
  }

  /**
   * When updates come at least once a frame time, the frames rendered are
   * the whole frame times elapsed: the rendered rate does not drift from
   * the framerate (the mixer paces with ft = FrameTime(framerate)).
   */
  lemma PacingDoesNotDrift(p: Pacing, deltas: seq<real>, ft: real)
    requires ft > 0.0 && p.elapsed >= 0.0 && p.overflow >= 0.0
    requires p.elapsed + p.overflow < ft
    requires forall i :: 0 <= i < |deltas| ==> 0.0 <= deltas[i] <= ft
    ensures var n := Paced(p, deltas, ft).1;
      FramesTime(n, ft) <= p.elapsed + p.overflow + Total(deltas) < FramesTime(n + 1, ft)
  {
    PacingKeepsTime(p, deltas, ft);
    CarryStaysBelowFrame(p, deltas, ft);
  }

  // ---------------------------------------------------------------------
  // Session layout and the encode loop's timeline

  /**
   * The track list of a session: the audio track first, then the camera's
   * video track. An output rate of 0 falls back to 48 kHz.
   */
  function TrackLayout(outputSampleRate: nat, cameraTrack: CameraTrackDescriptor): (r: seq<TrackInfo>)
    ensures |r| == 2 && r[0].trackType == Audio && r[1].trackType == Video
    ensures r[0].samplerate == (if outputSampleRate > 0 then outputSampleRate else DefaultSampleRate)
    ensures r[0].channels == AudioTrackChannels && r[0].bitrate == AudioTrackBitrate
  {
    var sampleRate := if outputSampleRate == 0 then DefaultSampleRate else outputSampleRate;
    [ TrackInfo(Audio, AudioTrackBitrate, 0, 0, 0, sampleRate, AudioTrackChannels),
      TrackInfo(Video, cameraTrack.bitrate, cameraTrack.resolution.width, cameraTrack.resolution.height, cameraTrack.framerate, 0, 0) ]
  }

  /**
   * The layout agrees with what the other components assume: the audio
   * track is track 0 (the one the encode loop submits and whose frame size
   * it asks for), its sample rate is never 0, the first video track comes
   * right after it, and the recorder's capture buffer, bound to the last
   * track, is bound to that video track with the camera's settings.
   */
  lemma TrackLayoutMatchesRecorder(outputSampleRate: nat, cameraTrack: CameraTrackDescriptor)
    ensures var tracks := TrackLayout(outputSampleRate, cameraTrack);
      && |tracks| == 2
      && tracks[0].trackType == Audio && tracks[0].samplerate > 0 && tracks[0].channels == 2
      && (outputSampleRate > 0 ==> tracks[0].samplerate == outputSampleRate)
      && tracks[LastTrackIndex(|tracks|)].trackType == Video
      && LastTrackIndex(|tracks|) == 1
      && tracks[1].framerate == cameraTrack.framerate && tracks[1].bitrate == cameraTrack.bitrate
      && tracks[1].width == cameraTrack.resolution.width && tracks[1].height == cameraTrack.resolution.height
  {
  }

  /** The audio timestamp after chunks of these lengths: half of each chunk, stereo sample pairs. */
  function SamplePairs(lengths: seq<nat>): nat
  {
    if lengths == [] then 0 else SamplePairs(lengths[..|lengths| - 1]) + lengths[|lengths| - 1] / 2
  }

  function TotalSamples(lengths: seq<nat>): nat
  {
    if lengths == [] then 0 else TotalSamples(lengths[..|lengths| - 1]) + lengths[|lengths| - 1]
  }

  /**
   * When every submitted chunk holds whole stereo pairs, the audio
   * timestamp counts exactly the pairs submitted so far, so each chunk is
   * stamped where the previous one ended.
   */
  lemma {:induction false} TimestampCountsSamplePairs(lengths: seq<nat>)
    requires forall i :: 0 <= i < |lengths| ==> lengths[i] % 2 == 0
    ensures 2 * SamplePairs(lengths) == TotalSamples(lengths)
  {
    if lengths != [] {
      TimestampCountsSamplePairs(lengths[..|lengths| - 1]);
    }
  }

  // ---------------------------------------------------------------------
  // The stop step as written

  /**
   * The stop step as written reads the recording stopwatch for its
   * telemetry before anything else; the stopwatch is created only by the
   * encode loop, so before the first session's loop has started it is
   * missing and the step throws, ending the update loop. None is that
   * throw; otherwise the flags after the step.
   */
  function StopStepAsWritten(f: Flags, recordingStopwatch: Option<real>): (r: Option<Flags>)
    requires f.isRecording
    ensures r.None? <==> recordingStopwatch.None?
    ensures r.Some? ==> !r.value.isRecording && r.value.shouldStart == f.shouldStart && r.value.shouldStop == f.shouldStop
  {
    if recordingStopwatch.None? then None else Some(f.(isRecording := false))
  }

  /**
   * The first session, started and then stopped before the recorder's
   * start completed: both requests are accepted and served, and the stop
   * step throws with the stop request already consumed and the session
   * flag still set.
   */
  lemma StopBeforeFirstEncodeThrows()
    ensures var (r1, f1) := StartRequest(Flags(false, false, false), true);
      var f2 := ToggleStep(f1, true);
      var (r2, f3) := StopRequest(f2.flags);
      var f4 := ToggleStep(f3, true);
      && r1 == Success && f2.action == DoStart && r2 == Success && f4.action == DoStop
      && StopStepAsWritten(f3.(shouldStop := false), None) == None
  {
  }

  // ---------------------------------------------------------------------
  // The orchestrator

  /**
   * Everything a session start needs from outside: the capture components
   * in the scene, the audio device's buffer size, speaker channel count and
   * output rate, the id of
   * the render buffer the native side creates, and the output file's
   * prefix, formatted date and directory.
   */
  datatype StartContext = StartContext(
    captures: seq<LckAudioCapture>,
    deviceBufferSize: nat,
    outputChannels: nat,
    outputSampleRate: nat,
    bufferId: nat,
    prefix: string,
    date: string,
    cachePath: string)

  ghost predicate ContextReady(ctx: StartContext)
    reads ctx.captures
  {
    && Distinct(ctx.captures) && ctx.deviceBufferSize > 0 && ctx.outputChannels > 0
    && forall k :: 0 <= k < |ctx.captures| ==> ctx.captures[k].Valid()
  }

  /**
   * The audio mixer is consistent, every source handed out `frames`
   * frames of `frameSize` samples from its queue `before`, and `samples`
   * is the mix of what they handed out.
   */
  ghost predicate MixedFrom(mixer: LckAudioMixer, before: seq<seq<seq<real>>>, frameSize: nat, frames: nat, drained: seq<seq<real>>, samples: seq<real>)
    reads mixer, mixer.audioSources
  {
    && mixer.Valid()
    && mixer.HandedOutAll(before, frameSize, frames, drained)
    && |drained| > 0
    && samples == Mix(drained[0], drained[1..])
  }

  /** A stopwatch reading in seconds as whole milliseconds, as stamped on each video frame. */
  function WholeMilliseconds(seconds: real): nat
    requires seconds >= 0.0
  {
    (seconds * 1000.0).Floor
  }

  /**
   * The render pacing of the update coroutine: its render stopwatch and
   * the overflow it carries from frame to frame, the flag it sets for the
   * encode loop when a frame was rendered, and whether the active camera
   * renders into the track texture.
   */
  class RenderPacing {
    var renderElapsed: real
    var overflow: real
    var frameHasBeenRendered: bool
    var cameraRendering: bool

    constructor (cameraRendering: bool)
      ensures renderElapsed == 0.0 && overflow == 0.0 && !frameHasBeenRendered && this.cameraRendering == cameraRendering
    {
      renderElapsed, overflow := 0.0, 0.0;
      frameHasBeenRendered := false;
      this.cameraRendering := cameraRendering;
    }
  }

  class LckMixer {
    const recorder: LckRecorder
    const audioMixer: LckAudioMixer
    /** Kept apart from the orchestrator's own fields: only the update's pacing, `Wait` and the camera methods change it. */
    const pacing: RenderPacing
    var isRecording: bool
    var shouldStartRecording: bool
    var shouldStopRecording: bool
    var stopReason: StopReason
    var isCapturing: bool
    var activeCamera: Option<string>
    var cameraTrack: CameraTrackDescriptor
    /** Elapsed seconds of the toggle stopwatch. */
    var toggleElapsed: real
    /** The recording stopwatch: missing until the first encode loop, then its elapsed seconds. */
    var recordingStopwatch: Option<real>
    var recordingStopwatchRunning: bool
    /** The encode loop is running; its counters follow. */
    var encoding: bool
    var encodedFrames: nat
    var audioTimestampSamples: nat
    /** Lengths of the mixed buffers the current encode loop has submitted. */
    ghost var submittedLengths: seq<nat>
    var audioTracks: seq<AudioTrack>
    var notifications: seq<Notification>

    /** The session flag and the pending requests. */
    function Requests(): Flags
      reads this
    {
      Flags(isRecording, shouldStartRecording, shouldStopRecording)
    }


    /** The orchestrator's own invariant; the audio mixer's is stated beside it where audio is touched. */
    ghost predicate Valid()
      reads this, pacing
    {
      && Consistent(Requests())
      && pacing.renderElapsed >= 0.0 && toggleElapsed >= 0.0 && pacing.overflow >= 0.0
      && (recordingStopwatch.Some? ==> recordingStopwatch.value >= 0.0)
      && (encoding ==> recordingStopwatch.Some?)
      && audioTimestampSamples == SamplePairs(submittedLengths)
    }

    /**
     * A new orchestrator: its recorder and audio mixer, the first
     * registered camera active, and capture on when a monitor shows the
     * track texture. Starting the update coroutine runs its first pass at
     * once, so the constructor ends after that pass.
     */
    constructor (cameraTrack: CameraTrackDescriptor, cameras: seq<string>, monitorCount: nat, captures: seq<LckAudioCapture>, deviceBufferSize: nat, outputChannels: nat)
      requires Distinct(captures) && deviceBufferSize > 0 && outputChannels > 0
      requires forall k :: 0 <= k < |captures| ==> captures[k].Valid()
      modifies captures
      ensures Valid() && audioMixer.Valid() && fresh(recorder) && fresh(audioMixer)
      ensures Requests() == Flags(false, false, false) && !encoding && recordingStopwatch.None?
      ensures activeCamera == (if |cameras| > 0 then Some(cameras[0]) else None)
      ensures !pacing.cameraRendering && !pacing.frameHasBeenRendered && pacing.renderElapsed == 0.0 && pacing.overflow == 0.0
      ensures isCapturing == (monitorCount > 0) && this.cameraTrack == cameraTrack
      ensures notifications == []
    {
      recorder := new LckRecorder();
      audioMixer := new LckAudioMixer(captures, deviceBufferSize, outputChannels);
      isRecording, shouldStartRecording, shouldStopRecording := false, false, false;
      stopReason := UserRequested;
      this.cameraTrack := cameraTrack;
      activeCamera := if |cameras| > 0 then Some(cameras[0]) else None;
      pacing := new RenderPacing(|cameras| > 0);
      isCapturing := monitorCount > 0;
      toggleElapsed := 0.0;
      recordingStopwatch, recordingStopwatchRunning := None, false;
      encoding, encodedFrames, audioTimestampSamples := false, 0, 0;
      submittedLengths := [];
      audioTracks := [AudioTrack(0, 0, 0, [])];
      notifications := [];
      new;
      // The first pass of the update: at elapsed 0 no frame is due, so the
      // camera just activated is deactivated; nothing is pending to toggle.
      PaceFrame();
    }

    /** Time passing between two frames: every running stopwatch advances. */
    method Wait(seconds: real)
      requires Valid() && seconds >= 0.0
      modifies pacing`renderElapsed, this`toggleElapsed, this`recordingStopwatch
      ensures Valid()
      ensures pacing.renderElapsed == old(pacing.renderElapsed) + seconds && toggleElapsed == old(toggleElapsed) + seconds
      ensures recordingStopwatch == if old(recordingStopwatch).Some? && recordingStopwatchRunning
        then Some(old(recordingStopwatch).value + seconds) else old(recordingStopwatch)
    {
      pacing.renderElapsed := pacing.renderElapsed + seconds;
      toggleElapsed := toggleElapsed + seconds;
      if recordingStopwatch.Some? && recordingStopwatchRunning {
        recordingStopwatch := Some(recordingStopwatch.value + seconds);
      }
    }

    /** Asks for a session to start at the next update past the cooldown. */
    method StartRecording(hasEnoughStorage: bool) returns (r: LckResult)
      requires Valid()
      modifies this`shouldStartRecording
      ensures Valid()
      ensures (r, Requests()) == StartRequest(old(Requests()), hasEnoughStorage)
    {
      if shouldStartRecording || isRecording || shouldStopRecording {
        return Failure(RecordingAlreadyStarted);
      }
      if !hasEnoughStorage {
        return Failure(NotEnoughStorageSpace);
      }
      shouldStartRecording := true;
      return Success;
    }

    /** Asks for the session to stop at the next update past the cooldown, remembering why. */
    method StopRecording(reason: StopReason) returns (r: LckResult)
      requires Valid()
      modifies this`shouldStopRecording, this`stopReason
      ensures Valid()
      ensures (r, Requests()) == StopRequest(old(Requests()))
      ensures stopReason == if r == Success then reason else old(stopReason)
    {
      if shouldStopRecording || !isRecording || shouldStartRecording {
        return Failure(NotCurrentlyRecording);
      }
      stopReason := reason;
      shouldStopRecording := true;
      return Success;
    }

    /** Storage ran low: the session is asked to stop and the listeners are told. */
    method OnLowStorageSpace(result: LckResult)
      requires Valid()
      modifies this`shouldStopRecording, this`stopReason, this`notifications
      ensures Valid()
      ensures Requests() == StopRequest(old(Requests())).1
      ensures StopRequest(old(Requests())).0 == Success ==> stopReason == LowStorageSpace
      ensures notifications == old(notifications) + [LowStorageSpaceReported(result)]
    {
      var _ := StopRecording(LowStorageSpace);
      notifications := notifications + [LowStorageSpaceReported(result)];
    }

    /** Pausing or quitting the application asks a running session to stop. */
    method OnApplicationLifecycleEvent(event: LifecycleEvent)
      requires Valid()
      modifies this`shouldStopRecording, this`stopReason
      ensures Valid()
      ensures isRecording && event != OtherLifecycleEvent ==> Requests() == StopRequest(old(Requests())).1
      ensures isRecording && event != OtherLifecycleEvent && StopRequest(old(Requests())).0 == Success ==> stopReason == ApplicationLifecycle
      ensures !(isRecording && event != OtherLifecycleEvent) ==> Requests() == old(Requests()) && stopReason == old(stopReason)
    {
      if isRecording && (event == Pause || event == Quit) {
        var _ := StopRecording(ApplicationLifecycle);
      }
    }

    /** The pacing part of one update; only an active camera is paced. */
    method PaceFrame()
      requires Valid()
      modifies pacing
      ensures Valid()
      ensures activeCamera.None? ==> unchanged(pacing)
      ensures activeCamera.Some? ==>
        var (p, rendered) := PaceStep(Pacing(old(pacing.renderElapsed), old(pacing.overflow)), cameraTrack.framerate);
        && Pacing(pacing.renderElapsed, pacing.overflow) == p
        && pacing.frameHasBeenRendered == rendered && pacing.cameraRendering == rendered
    {
      if activeCamera.Some? {
        PaceStepKeepsCarry(Pacing(pacing.renderElapsed, pacing.overflow), cameraTrack.framerate);
        if cameraTrack.framerate > 0 && pacing.renderElapsed + pacing.overflow >= FrameTime(cameraTrack.framerate) {
          pacing.overflow := pacing.renderElapsed + pacing.overflow - FrameTime(cameraTrack.framerate);
          pacing.renderElapsed := 0.0;
          pacing.frameHasBeenRendered := true;
          pacing.cameraRendering := true;
        } else {
          pacing.frameHasBeenRendered := false;
          pacing.cameraRendering := false;
        }
      }
    }

    /**
     * What a session start leaves in the recorder and the sources: the
     * recorder's one capture buffer on track 1 and its output path, and
     * every source capturing.
     */
    ghost predicate SessionStarted(ctx: StartContext)
      reads recorder, audioMixer, audioMixer.audioSources
    {
      && recorder.cameraRenderData == [CaptureData(ctx.bufferId, 1, false)]
      && recorder.lastRecordingFilePath == PathCombine(ctx.cachePath, RecordingFileName(ctx.prefix, ctx.date))
      && forall k :: 0 <= k < |audioMixer.audioSources| ==> audioMixer.audioSources[k].captureAudio
    }

    /**
     * What the audio lookup of a session start leaves: the scene's captures
     * come first, in order; the last microphone among them is the
     * microphone, or else a new one is appended and indexed; and the
     * microphone's volume follows the open flag.
     */
    ghost predicate SourcesFound(ctx: StartContext)
      reads audioMixer, audioMixer.microphone
    {
      && |ctx.captures| <= |audioMixer.audioSources|
      && (|ctx.captures| > 0 ==> audioMixer.audioSources[..|ctx.captures|] == ctx.captures)
      && (var found := LastMicrophone(ctx.captures);
          if found >= 0 then audioMixer.audioSources == ctx.captures && audioMixer.microphoneAudioSourceIndex == found
          else && |audioMixer.audioSources| == (if |ctx.captures| > 0 then |ctx.captures| else 1) + 1
               && audioMixer.microphoneAudioSourceIndex == |audioMixer.audioSources| - 1)
      && audioMixer.microphone != null
      && audioMixer.microphone.volumeUnitLevel == if audioMixer.isMicrophoneOpen then 1.0 else 0.0
    }

    /**
     * What a served start leaves, against the state before it: the audio
     * track reset, the session started, the sources looked up again, every
     * scene capture's queue kept, and every scene capture other than the
     * microphone at its old volume.
     */
    twostate predicate StartServed(ctx: StartContext)
      reads this, recorder, audioMixer, audioMixer.audioSources, audioMixer.microphone, ctx.captures
    {
      && audioTracks == [AudioTrack(0, 0, 0, [])] && SessionStarted(ctx) && SourcesFound(ctx)
      && (forall k :: 0 <= k < |ctx.captures| ==> ctx.captures[k].audioFrames == old(ctx.captures[k].audioFrames))
      && (forall k :: 0 <= k < |ctx.captures| && ctx.captures[k] != audioMixer.microphone ==>
            ctx.captures[k].volumeUnitLevel == old(ctx.captures[k].volumeUnitLevel))
    }

    /**
     * The session start the update performs: the audio sources are looked
     * up again and start capturing, the track list is laid out, the
     * recorder's start is begun and the session flag is set at once,
     * without waiting for the recorder.
     */
    method DoStartRecording(ctx: StartContext)
      requires Valid() && audioMixer.Valid() && ContextReady(ctx) && !isRecording && !shouldStartRecording && !shouldStopRecording
      modifies this`isRecording, this`audioTracks, audioMixer, ctx.captures
      modifies recorder`cameraRenderData, recorder`lastRecordingFilePath, recorder`events
      ensures Valid() && audioMixer.Valid() && isRecording
      ensures audioTracks == [AudioTrack(0, 0, 0, [])]
      ensures SessionStarted(ctx)
      ensures SourcesFound(ctx)
      ensures forall k :: 0 <= k < |ctx.captures| ==> ctx.captures[k].audioFrames == old(ctx.captures[k].audioFrames)
      ensures forall k :: 0 <= k < |ctx.captures| && ctx.captures[k] != audioMixer.microphone ==>
        ctx.captures[k].volumeUnitLevel == old(ctx.captures[k].volumeUnitLevel)
      ensures recorder.events == old(recorder.events) + [CreateRecorder, StartRecorder(recorder.lastRecordingFilePath, TrackLayout(ctx.outputSampleRate, cameraTrack))]
      ensures recordingStopwatch == old(recordingStopwatch)
    {
      audioMixer.EnableCapture(ctx.captures, ctx.deviceBufferSize, ctx.outputChannels);
      assert SourcesFound(ctx);
      BeginSession(ctx);
    }

    /**
     * The part of the session start after the capture start: the track
     * list is laid out, the recorder's start is begun and the session flag
     * is set.
     */
    method BeginSession(ctx: StartContext)
      requires Valid() && !isRecording && !shouldStartRecording && !shouldStopRecording
      modifies this`isRecording, this`audioTracks
      modifies recorder`cameraRenderData, recorder`lastRecordingFilePath, recorder`events
      ensures Valid() && isRecording
      ensures audioTracks == [AudioTrack(0, 0, 0, [])]
      ensures recorder.cameraRenderData == [CaptureData(ctx.bufferId, 1, false)]
      ensures recorder.lastRecordingFilePath == PathCombine(ctx.cachePath, RecordingFileName(ctx.prefix, ctx.date))
      ensures recorder.events == old(recorder.events) + [CreateRecorder, StartRecorder(recorder.lastRecordingFilePath, TrackLayout(ctx.outputSampleRate, cameraTrack))]
    {
      var sampleRate := if ctx.outputSampleRate == 0 then DefaultSampleRate else ctx.outputSampleRate;
      var tracks: seq<TrackInfo> := [];
      audioTracks := [AudioTrack(|tracks|, 0, 0, [])];
      tracks := tracks + [TrackInfo(Audio, AudioTrackBitrate, 0, 0, 0, sampleRate, AudioTrackChannels)];
      var firstVideoTrackIndex := |tracks|;
      tracks := tracks + [TrackInfo(Video, cameraTrack.bitrate, cameraTrack.resolution.width,
                                    cameraTrack.resolution.height, cameraTrack.framerate, 0, 0)];
      assert tracks == TrackLayout(ctx.outputSampleRate, cameraTrack);
      recorder.BeginStart(tracks, firstVideoTrackIndex, ctx.bufferId, ctx.prefix, ctx.date, ctx.cachePath);
      isRecording := true;
    }

    /**
     * The session stop the update performs: capture stops, the recording
     * stopwatch is replaced by a new stopped one, the frame count resets,
     * the recorder's stop is begun and the session flag clears at once.
     * The telemetry it sends is not modelled.
     */
    method DoStopRecording()
      requires Valid() && audioMixer.Valid() && isRecording && !shouldStartRecording && !shouldStopRecording
      modifies this`isRecording, this`recordingStopwatch, this`recordingStopwatchRunning, this`encodedFrames, audioMixer.audioSources
      modifies recorder`pendingStops
      ensures Valid() && audioMixer.Valid() && !isRecording
      ensures recordingStopwatch == Some(0.0) && !recordingStopwatchRunning && encodedFrames == 0
      ensures recorder.pendingStops == old(recorder.pendingStops) + 1
      ensures forall k :: 0 <= k < |audioMixer.audioSources| ==> !audioMixer.audioSources[k].captureAudio
      ensures forall k :: 0 <= k < |audioMixer.audioSources| ==>
        audioMixer.audioSources[k].audioFrames == old(audioMixer.audioSources[k].audioFrames)
        && audioMixer.audioSources[k].volumeUnitLevel == old(audioMixer.audioSources[k].volumeUnitLevel)
    {
      audioMixer.DisableCapture();
      recordingStopwatch := Some(0.0);
      recordingStopwatchRunning := false;
      encodedFrames := 0;
      recorder.Stop();
      isRecording := false;
    }

    /**
     * What the toggle did, given its outcome `o` and the state before it:
     * the flags follow the outcome, a rejection is reported, a served
     * request restarts the cooldown, a served start begins the recorder's
     * start, and a served stop resets the recording stopwatch and the frame
     * count and begins the recorder's stop.
     */
    ghost predicate Toggled(o: ToggleOutcome, ctx: StartContext, notifications0: seq<Notification>, toggleElapsed0: real,
                            events0: seq<RecorderEvent>, pendingStops0: nat, recordingStopwatch0: Option<real>, encodedFrames0: nat)
      reads this, recorder
    {
      && Requests() == o.flags
      && notifications == notifications0 + (if o.rejection.Some? then [o.rejection.value] else [])
      && toggleElapsed == (if o.action == NoAction then toggleElapsed0 else 0.0)
      && recorder.pendingStops == pendingStops0 + (if o.action == DoStop then 1 else 0)
      && (o.action != DoStop ==> recordingStopwatch == recordingStopwatch0 && encodedFrames == encodedFrames0)
      && (o.action == NoAction ==> recorder.events == events0)
      && (o.action == DoStart ==> recorder.events == events0 + [CreateRecorder, StartRecorder(recorder.lastRecordingFilePath, TrackLayout(ctx.outputSampleRate, cameraTrack))])
      && (o.action == DoStop ==> recorder.events == events0 && recordingStopwatch == Some(0.0) && !recordingStopwatchRunning && encodedFrames == 0)
    }

    /**
     * The toggle part of one update, with the flags following ToggleStep:
     * the served request's action is performed and the cooldown restarts.
     */
    method ToggleRecording(ctx: StartContext)
      requires Valid() && audioMixer.Valid() && ContextReady(ctx)
      modifies this`isRecording, this`shouldStartRecording, this`shouldStopRecording, this`toggleElapsed, this`notifications
      modifies this`audioTracks, this`recordingStopwatch, this`recordingStopwatchRunning, this`encodedFrames
      modifies audioMixer, audioMixer.audioSources, ctx.captures
      modifies recorder`cameraRenderData, recorder`lastRecordingFilePath, recorder`events, recorder`pendingStops
      ensures Valid() && audioMixer.Valid()
      ensures unchanged(pacing)
      ensures activeCamera == old(activeCamera) && cameraTrack == old(cameraTrack) && isCapturing == old(isCapturing)
      ensures encoding == old(encoding) && audioTimestampSamples == old(audioTimestampSamples)
      ensures
        Toggled(ToggleStep(old(Requests()), CooldownPassed(old(toggleElapsed))), ctx, old(notifications), old(toggleElapsed),
          old(recorder.events), old(recorder.pendingStops), old(recordingStopwatch), old(encodedFrames))
      ensures var a := ToggleStep(old(Requests()), CooldownPassed(old(toggleElapsed))).action;
        && (a != DoStart ==>
              && unchanged(audioMixer) && audioTracks == old(audioTracks)
              && recorder.cameraRenderData == old(recorder.cameraRenderData)
              && recorder.lastRecordingFilePath == old(recorder.lastRecordingFilePath))
        && (a == NoAction ==> unchanged(audioMixer.audioSources) && unchanged(ctx.captures))
        && (a == DoStart ==> StartServed(ctx))
        && (a == DoStop ==> forall k :: 0 <= k < |audioMixer.audioSources| ==>
              && !audioMixer.audioSources[k].captureAudio
              && audioMixer.audioSources[k].audioFrames == old(audioMixer.audioSources[k].audioFrames)
              && audioMixer.audioSources[k].volumeUnitLevel == old(audioMixer.audioSources[k].volumeUnitLevel))
    {
      if !isRecording {
        ToggleWhileIdle(ctx);
      } else {
        ToggleWhileRecording(ctx);
      }
    }

    /** The toggle while no session runs: a pending start is served once the cooldown has passed. */
    method ToggleWhileIdle(ctx: StartContext)
      requires Valid() && audioMixer.Valid() && ContextReady(ctx) && !isRecording
      modifies this`isRecording, this`shouldStartRecording, this`shouldStopRecording, this`toggleElapsed, this`notifications
      modifies this`audioTracks, audioMixer, ctx.captures
      modifies recorder`cameraRenderData, recorder`lastRecordingFilePath, recorder`events
      ensures Valid() && audioMixer.Valid()
      ensures
        Toggled(ToggleStep(old(Requests()), CooldownPassed(old(toggleElapsed))), ctx, old(notifications), old(toggleElapsed),
          old(recorder.events), old(recorder.pendingStops), old(recordingStopwatch), old(encodedFrames))
      ensures var a := ToggleStep(old(Requests()), CooldownPassed(old(toggleElapsed))).action;
        && (a != DoStart ==>
              && unchanged(audioMixer) && audioTracks == old(audioTracks)
              && recorder.cameraRenderData == old(recorder.cameraRenderData)
              && recorder.lastRecordingFilePath == old(recorder.lastRecordingFilePath))
        && (a == NoAction ==> unchanged(audioMixer.audioSources) && unchanged(ctx.captures))
        && (a == DoStart ==> StartServed(ctx))
    {
      ToggleServesPendingRequest(Requests(), CooldownPassed(toggleElapsed));
      if shouldStartRecording && CooldownPassed(toggleElapsed) {
        ServeStart(ctx);
      }
      // A pending stop cannot coexist with the idle state (Consistent), so
      // the branch that drops and reports it is not reachable here.
    }

    /** A pending start past the cooldown: the request clears, the session starts and the cooldown restarts. */
    method ServeStart(ctx: StartContext)
      requires Valid() && audioMixer.Valid() && ContextReady(ctx) && !isRecording && shouldStartRecording
      modifies this`isRecording, this`shouldStartRecording, this`toggleElapsed
      modifies this`audioTracks, audioMixer, ctx.captures
      modifies recorder`cameraRenderData, recorder`lastRecordingFilePath, recorder`events
      ensures Valid() && audioMixer.Valid()
      ensures Requests() == Flags(true, false, false) && toggleElapsed == 0.0
      ensures recorder.events == old(recorder.events) + [CreateRecorder, StartRecorder(recorder.lastRecordingFilePath, TrackLayout(ctx.outputSampleRate, cameraTrack))]
      ensures StartServed(ctx)
    {
      // The source restarts the cooldown after the start; the start neither
      // reads nor writes the cooldown stopwatch, so restarting it first
      // leaves the same state.
      shouldStartRecording := false;
      toggleElapsed := 0.0;
      DoStartRecording(ctx);
    }

    /**
     * The toggle while a session runs: a pending stop is served once the
     * cooldown has passed. `ctx` only appears in the contract it shares with
     * ToggleRecording.
     */
    method ToggleWhileRecording(ctx: StartContext)
      requires Valid() && audioMixer.Valid() && isRecording
      modifies this`isRecording, this`shouldStartRecording, this`shouldStopRecording, this`toggleElapsed, this`notifications
      modifies this`recordingStopwatch, this`recordingStopwatchRunning, this`encodedFrames, audioMixer.audioSources
      modifies recorder`pendingStops
      ensures Valid() && audioMixer.Valid()
      ensures
        Toggled(ToggleStep(old(Requests()), CooldownPassed(old(toggleElapsed))), ctx, old(notifications), old(toggleElapsed),
          old(recorder.events), old(recorder.pendingStops), old(recordingStopwatch), old(encodedFrames))
      ensures var a := ToggleStep(old(Requests()), CooldownPassed(old(toggleElapsed))).action;
        && (a != DoStart ==>
              && unchanged(audioMixer) && audioTracks == old(audioTracks)
              && recorder.cameraRenderData == old(recorder.cameraRenderData)
              && recorder.lastRecordingFilePath == old(recorder.lastRecordingFilePath))
        && (a == NoAction ==> unchanged(audioMixer.audioSources) && unchanged(ctx.captures))
        && (a == DoStop ==> forall k :: 0 <= k < |audioMixer.audioSources| ==>
              && !audioMixer.audioSources[k].captureAudio
              && audioMixer.audioSources[k].audioFrames == old(audioMixer.audioSources[k].audioFrames)
              && audioMixer.audioSources[k].volumeUnitLevel == old(audioMixer.audioSources[k].volumeUnitLevel))
    {
      ToggleServesPendingRequest(Requests(), CooldownPassed(toggleElapsed));
      if shouldStopRecording && CooldownPassed(toggleElapsed) {
        ServeStop();
      }
      // A pending start cannot coexist with a session (Consistent), so the
      // branch that drops and reports it is not reachable here.
    }

    /** A pending stop past the cooldown: the request clears, the session stops and the cooldown restarts. */
    method ServeStop()
      requires Valid() && audioMixer.Valid() && isRecording && shouldStopRecording
      modifies this`isRecording, this`shouldStopRecording, this`toggleElapsed
      modifies this`recordingStopwatch, this`recordingStopwatchRunning, this`encodedFrames, audioMixer.audioSources
      modifies recorder`pendingStops
      ensures Valid() && audioMixer.Valid()
      ensures Requests() == Flags(false, false, false) && toggleElapsed == 0.0
      ensures recordingStopwatch == Some(0.0) && !recordingStopwatchRunning && encodedFrames == 0
      ensures recorder.pendingStops == old(recorder.pendingStops) + 1
      ensures forall k :: 0 <= k < |audioMixer.audioSources| ==>
        && !audioMixer.audioSources[k].captureAudio
        && audioMixer.audioSources[k].audioFrames == old(audioMixer.audioSources[k].audioFrames)
        && audioMixer.audioSources[k].volumeUnitLevel == old(audioMixer.audioSources[k].volumeUnitLevel)
    {
      shouldStopRecording := false;
      DoStopRecording();
      toggleElapsed := 0.0;
    }

    /** The end of the recorder's start: the encode loop starts on success, and the result is passed on. */
    method CompleteRecorderStart(outcome: NativeOutcome, now: real) returns (result: LckResult)
      requires Valid()
      modifies recorder`isRecording, recorder`recordingStartTime, recorder`textureIds, recorder`events
      modifies this`notifications, this`encoding, this`encodedFrames, this`audioTimestampSamples, this`submittedLengths
      modifies this`recordingStopwatch, this`recordingStopwatchRunning
      ensures Valid()
      ensures result == StartReports(outcome)[0]
      ensures notifications == old(notifications) + [RecordingStarted(result)]
      ensures result == Success ==>
        && recorder.isRecording && recorder.recordingStartTime == now
        && recorder.textureIds == Textures(recorder.cameraRenderData) && recorder.events == old(recorder.events) + [InitResources]
        && encoding == isRecording && EncodeLoopFresh()
      ensures result != Success ==>
        && recorder.isRecording == old(recorder.isRecording) && recorder.recordingStartTime == old(recorder.recordingStartTime)
        && recorder.textureIds == old(recorder.textureIds) && recorder.events == old(recorder.events)
        && encoding == old(encoding) && recordingStopwatch == old(recordingStopwatch)
        && recordingStopwatchRunning == old(recordingStopwatchRunning) && encodedFrames == old(encodedFrames)
        && audioTimestampSamples == old(audioTimestampSamples) && submittedLengths == old(submittedLengths)
    {
      var reports := recorder.CompleteStart(outcome, now);
      result := reports[0];
      if result == Success {
        StartEncodeLoop();
      }
      notifications := notifications + [RecordingStarted(result)];
    }

    /** The encode loop's state right after it starts: a running stopwatch from 0 and counters at 0. */
    ghost predicate EncodeLoopFresh()
      reads this
    {
      && recordingStopwatch == Some(0.0) && recordingStopwatchRunning
      && encodedFrames == 0 && audioTimestampSamples == 0 && submittedLengths == []
    }

    /** Starts the encode loop, which runs only while the session flag is set. */
    method StartEncodeLoop()
      requires Valid()
      modifies this`encoding, this`encodedFrames, this`audioTimestampSamples, this`submittedLengths
      modifies this`recordingStopwatch, this`recordingStopwatchRunning
      ensures Valid() && EncodeLoopFresh() && encoding == isRecording
    {
      recordingStopwatch := Some(0.0);
      recordingStopwatchRunning := true;
      encodedFrames := 0;
      audioTimestampSamples := 0;
      submittedLengths := [];
      encoding := isRecording;
    }

    /** The end of the recorder's stop: its one result is passed on. */
    method CompleteRecorderStop(threw: bool) returns (result: LckResult)
      requires Valid() && recorder.pendingStops > 0
      modifies recorder`isRecording, recorder`cameraRenderData, recorder`events, recorder`pendingStops, this`notifications
      ensures Valid()
      ensures recorder.pendingStops == old(recorder.pendingStops) - 1
      ensures result == StopReports(threw)[0]
      ensures notifications == old(notifications) + [RecordingStopped(result)]
      ensures threw ==>
        && recorder.isRecording == old(recorder.isRecording) && recorder.cameraRenderData == old(recorder.cameraRenderData)
        && recorder.events == old(recorder.events) + [StopRecorder]
      ensures !threw ==>
        && !recorder.isRecording
        && recorder.cameraRenderData == ReleasedAll(old(recorder.cameraRenderData))
        && recorder.events == old(recorder.events) + [StopRecorder] + ReleaseEvents(old(recorder.cameraRenderData))
             + [CopyToGallery(recorder.lastRecordingFilePath)]
    {
      var reports := recorder.CompleteStop(threw);
      result := reports[0];
      notifications := notifications + [RecordingStopped(result)];
    }

    /** Whether every source's chunks fit in a frame of `frameSize` samples. */
    method FrameSizeFits(frameSize: nat) returns (fits: bool)
      requires Valid()
      ensures fits <==> forall k :: 0 <= k < |audioMixer.audioSources| ==> frameSize >= audioMixer.audioSources[k].dspBufferSize
    {
      fits := true;
      for k := 0 to |audioMixer.audioSources|
        invariant fits <==> forall j :: 0 <= j < k ==> frameSize >= audioMixer.audioSources[j].dspBufferSize
      {
        if frameSize < audioMixer.audioSources[k].dspBufferSize {
          fits := false;
        }
      }
    }

    /**
     * The mix can run: there are sources, and a frame of `frameSize`
     * samples holds at least one chunk of each (otherwise the chunks per
     * frame are 0 and the mix divides by zero).
     */
    ghost predicate MixCanRun(frameSize: nat)
      reads this, audioMixer, audioMixer.audioSources
    {
      && |audioMixer.audioSources| > 0
      && forall k :: 0 <= k < |audioMixer.audioSources| ==> frameSize >= audioMixer.audioSources[k].dspBufferSize
    }

    /**
     * One pass of the encode loop, after its wait for the next frame: the
     * sources' audio is mixed for the recorder's audio frame size and
     * submitted, stamped with the samples submitted before it, together with
     * whether this frame was rendered. The loop ends when the mix throws (no
     * sources, or a frame smaller than a source's chunk, which divides by
     * zero), when the recorder refuses the frame, or when the session flag
     * is no longer set. `drained` are the samples each source handed out.
     */
    method EncodeStep(audioFrameSize: nat) returns (submitted: bool, mixedLength: nat, ghost drained: seq<seq<real>>)
      requires Valid() && audioMixer.Valid() && encoding
      modifies this`encoding, this`encodedFrames, this`audioTimestampSamples, this`submittedLengths, this`audioTracks
      modifies audioMixer.audioSources, recorder`events
      ensures Valid() && audioMixer.Valid()
      ensures old(MixCanRun(audioFrameSize)) ==>
        && |audioTracks| == 1 && audioTracks[0].trackIndex == 0 && audioTracks[0].timestampSamples == old(audioTimestampSamples)
        && MixedFrom(audioMixer, old(Queues(audioMixer.audioSources)), audioFrameSize, old(audioMixer.FramesAvailable(audioFrameSize)), drained, audioTracks[0].data)
        && mixedLength == audioTracks[0].dataSize == |drained[0]|
      ensures !old(MixCanRun(audioFrameSize)) ==>
        && Queues(audioMixer.audioSources) == old(Queues(audioMixer.audioSources))
        && audioTracks == old(audioTracks) && recorder.events == old(recorder.events)
      ensures submitted <==> recorder.isRecording && old(MixCanRun(audioFrameSize))
      ensures !submitted ==> encodedFrames == old(encodedFrames) && audioTimestampSamples == old(audioTimestampSamples) && !encoding
      ensures submitted ==>
        && recorder.events == old(recorder.events) + [Submit(FrameSubmission(recorder.textureIds,
             WholeMilliseconds(recordingStopwatch.value), 1, audioTracks, 1, [pacing.frameHasBeenRendered]))]
        && encodedFrames == old(encodedFrames) + 1
        && audioTimestampSamples == old(audioTimestampSamples) + mixedLength / 2
        && submittedLengths == old(submittedLengths) + [mixedLength]
        && encoding == isRecording
    {
      var fits := FrameSizeFits(audioFrameSize);
      if !fits || |audioMixer.audioSources| == 0 {
        encoding := false;
        return false, 0, [];
      }
      submitted, mixedLength, drained := EncodeMixed(audioFrameSize);
    }

    /** The encode step once the mix can run: submit the mix, then count it or end the loop. */
    method EncodeMixed(audioFrameSize: nat) returns (submitted: bool, mixedLength: nat, ghost drained: seq<seq<real>>)
      requires Valid() && audioMixer.Valid() && encoding && MixCanRun(audioFrameSize)
      modifies this`encoding, this`encodedFrames, this`audioTimestampSamples, this`submittedLengths, this`audioTracks
      modifies audioMixer.audioSources, recorder`events
      ensures Valid()
      ensures |audioTracks| == 1 && audioTracks[0].trackIndex == 0 && audioTracks[0].timestampSamples == old(audioTimestampSamples)
      ensures MixedFrom(audioMixer, old(Queues(audioMixer.audioSources)), audioFrameSize, old(audioMixer.FramesAvailable(audioFrameSize)), drained, audioTracks[0].data)
      ensures mixedLength == audioTracks[0].dataSize == |drained[0]|
      ensures submitted == recorder.isRecording
      ensures !submitted ==> encodedFrames == old(encodedFrames) && audioTimestampSamples == old(audioTimestampSamples) && !encoding
      ensures submitted ==>
        && recorder.events == old(recorder.events) + [Submit(FrameSubmission(recorder.textureIds,
             WholeMilliseconds(recordingStopwatch.value), 1, audioTracks, 1, [pacing.frameHasBeenRendered]))]
        && encodedFrames == old(encodedFrames) + 1
        && audioTimestampSamples == old(audioTimestampSamples) + mixedLength / 2
        && submittedLengths == old(submittedLengths) + [mixedLength]
        && encoding == isRecording
    {
      submitted, mixedLength, drained := SubmitMixedAudio(audioFrameSize);
      EndPass(submitted, mixedLength, old(Queues(audioMixer.audioSources)), audioFrameSize, old(audioMixer.FramesAvailable(audioFrameSize)), drained);
    }

    /**
     * The end of an encode pass: a refused frame ends the loop; an accepted
     * one is counted and advances the timestamp by its sample pairs.
     */
    method EndPass(submitted: bool, mixedLength: nat, ghost before: seq<seq<seq<real>>>, ghost frameSize: nat, ghost frames: nat, ghost drained: seq<seq<real>>)
      requires Valid() && recordingStopwatch.Some? && |audioTracks| == 1
      requires MixedFrom(audioMixer, before, frameSize, frames, drained, audioTracks[0].data)
      modifies this`encoding, this`encodedFrames, this`audioTimestampSamples, this`submittedLengths
      ensures Valid() && MixedFrom(audioMixer, before, frameSize, frames, drained, audioTracks[0].data)
      ensures !submitted ==> encodedFrames == old(encodedFrames) && audioTimestampSamples == old(audioTimestampSamples) && !encoding
      ensures submitted ==>
        && encodedFrames == old(encodedFrames) + 1
        && audioTimestampSamples == old(audioTimestampSamples) + mixedLength / 2
        && submittedLengths == old(submittedLengths) + [mixedLength]
        && encoding == isRecording
    {
      if !submitted {
        StopEncoding(before, frameSize, frames, drained);
      } else {
        CountSubmission(mixedLength, before, frameSize, frames, drained);
      }
    }

    /** Ends the encode loop; the mix just made stays as it was. */
    method StopEncoding(ghost before: seq<seq<seq<real>>>, ghost frameSize: nat, ghost frames: nat, ghost drained: seq<seq<real>>)
      requires Valid() && |audioTracks| == 1
      requires MixedFrom(audioMixer, before, frameSize, frames, drained, audioTracks[0].data)
      modifies this`encoding
      ensures Valid() && MixedFrom(audioMixer, before, frameSize, frames, drained, audioTracks[0].data)
      ensures !encoding
    {
      encoding := false;
    }

    /** Counts an accepted frame: one more frame, and the timestamp advanced by the chunk's sample pairs. */
    method CountSubmission(mixedLength: nat, ghost before: seq<seq<seq<real>>>, ghost frameSize: nat, ghost frames: nat, ghost drained: seq<seq<real>>)
      requires Valid() && recordingStopwatch.Some? && |audioTracks| == 1
      requires MixedFrom(audioMixer, before, frameSize, frames, drained, audioTracks[0].data)
      modifies this`encoding, this`encodedFrames, this`audioTimestampSamples, this`submittedLengths
      ensures Valid() && MixedFrom(audioMixer, before, frameSize, frames, drained, audioTracks[0].data)
      ensures encodedFrames == old(encodedFrames) + 1
      ensures audioTimestampSamples == old(audioTimestampSamples) + mixedLength / 2
      ensures submittedLengths == old(submittedLengths) + [mixedLength]
      ensures encoding == isRecording
    {
      AdvanceCounters(mixedLength);
    }

    /** The counters of CountSubmission, apart from the mix it passes on. */
    method AdvanceCounters(mixedLength: nat)
      requires Valid() && recordingStopwatch.Some?
      modifies this`encoding, this`encodedFrames, this`audioTimestampSamples, this`submittedLengths
      ensures Valid()
      ensures encodedFrames == old(encodedFrames) + 1
      ensures audioTimestampSamples == old(audioTimestampSamples) + mixedLength / 2
      ensures submittedLengths == old(submittedLengths) + [mixedLength]
      ensures encoding == isRecording
    {
      encodedFrames := encodedFrames + 1;
      assert SamplePairs(submittedLengths + [mixedLength]) == SamplePairs(submittedLengths) + mixedLength / 2 by {
        assert (submittedLengths + [mixedLength])[..|submittedLengths|] == submittedLengths;
      }
      submittedLengths := submittedLengths + [mixedLength];
      audioTimestampSamples := audioTimestampSamples + mixedLength / 2;
      encoding := isRecording;
    }

    /**
     * Mixes one frame of audio and hands it to the recorder as audio track
     * 0, with the current timestamp and this frame's ready flag.
     */
    method SubmitMixedAudio(audioFrameSize: nat) returns (submitted: bool, mixedLength: nat, ghost drained: seq<seq<real>>)
      requires Valid() && audioMixer.Valid() && recordingStopwatch.Some? && MixCanRun(audioFrameSize)
      modifies this`audioTracks, audioMixer.audioSources, recorder`events
      ensures Valid()
      ensures |audioTracks| == 1 && audioTracks[0].trackIndex == 0 && audioTracks[0].timestampSamples == audioTimestampSamples
      ensures MixedFrom(audioMixer, old(Queues(audioMixer.audioSources)), audioFrameSize, old(audioMixer.FramesAvailable(audioFrameSize)), drained, audioTracks[0].data)
      ensures mixedLength == audioTracks[0].dataSize == |drained[0]|
      ensures submitted == recorder.isRecording
      ensures !submitted ==> recorder.events == old(recorder.events)
      ensures submitted ==> recorder.events == old(recorder.events) + [Submit(FrameSubmission(recorder.textureIds,
        WholeMilliseconds(recordingStopwatch.value), 1, audioTracks, 1, [pacing.frameHasBeenRendered]))]
    {
      var samples;
      samples, drained := MixFrameAudio(audioFrameSize);
      mixedLength := |samples|;
      submitted := SubmitTracks(samples);
    }

    /** Stores the mixed samples as the single audio track and hands the frame to the recorder. */
    method SubmitTracks(samples: seq<real>) returns (submitted: bool)
      requires Valid() && recordingStopwatch.Some?
      modifies this`audioTracks, recorder`events
      ensures Valid()
      ensures audioTracks == [AudioTrack(0, audioTimestampSamples, |samples|, samples)]
      ensures submitted == recorder.isRecording
      ensures !submitted ==> recorder.events == old(recorder.events)
      ensures submitted ==> recorder.events == old(recorder.events) + [Submit(FrameSubmission(recorder.textureIds,
        WholeMilliseconds(recordingStopwatch.value), 1, audioTracks, 1, [pacing.frameHasBeenRendered]))]
    {
      audioTracks := [AudioTrack(0, audioTimestampSamples, |samples|, samples)];
      submitted := recorder.EncodeFrame(WholeMilliseconds(recordingStopwatch.value), [pacing.frameHasBeenRendered], audioTracks);
    }

    /** The mixed audio of one frame. */
    method MixFrameAudio(audioFrameSize: nat) returns (samples: seq<real>, ghost drained: seq<seq<real>>)
      requires Valid() && audioMixer.Valid() && MixCanRun(audioFrameSize)
      modifies audioMixer.audioSources
      ensures Valid()
      ensures MixedFrom(audioMixer, old(Queues(audioMixer.audioSources)), audioFrameSize, old(audioMixer.FramesAvailable(audioFrameSize)), drained, samples)
    {
      var mixed;
      mixed, drained := audioMixer.GetMixedAudioHandle(audioFrameSize);
      samples := mixed[..];
    }

    /**
     * One update: pacing, then the toggle. The camera, the track settings
     * and the encode loop's state are left to the encode loop and the
     * camera methods.
     */
    method Update(ctx: StartContext)
      requires Valid() && audioMixer.Valid() && ContextReady(ctx)
      modifies pacing
      modifies this`isRecording, this`shouldStartRecording, this`shouldStopRecording, this`toggleElapsed, this`notifications
      modifies this`audioTracks, this`recordingStopwatch, this`recordingStopwatchRunning, this`encodedFrames
      modifies audioMixer, audioMixer.audioSources, ctx.captures
      modifies recorder`cameraRenderData, recorder`lastRecordingFilePath, recorder`events, recorder`pendingStops
      ensures Valid() && audioMixer.Valid()
      ensures activeCamera == old(activeCamera) && cameraTrack == old(cameraTrack) && isCapturing == old(isCapturing)
      ensures encoding == old(encoding) && audioTimestampSamples == old(audioTimestampSamples)
      ensures activeCamera.None? ==> unchanged(pacing)
      ensures activeCamera.Some? ==>
        var (p, rendered) := PaceStep(Pacing(old(pacing.renderElapsed), old(pacing.overflow)), cameraTrack.framerate);
        && Pacing(pacing.renderElapsed, pacing.overflow) == p
        && pacing.frameHasBeenRendered == rendered && pacing.cameraRendering == rendered
      ensures
        Toggled(ToggleStep(old(Requests()), CooldownPassed(old(toggleElapsed))), ctx, old(notifications), old(toggleElapsed),
          old(recorder.events), old(recorder.pendingStops), old(recordingStopwatch), old(encodedFrames))
      ensures var a := ToggleStep(old(Requests()), CooldownPassed(old(toggleElapsed))).action;
        && (a != DoStart ==>
              && unchanged(audioMixer) && audioTracks == old(audioTracks)
              && recorder.cameraRenderData == old(recorder.cameraRenderData)
              && recorder.lastRecordingFilePath == old(recorder.lastRecordingFilePath))
        && (a == NoAction ==> unchanged(audioMixer.audioSources) && unchanged(ctx.captures))
        && (a == DoStart ==> StartServed(ctx))
        && (a == DoStop ==> forall k :: 0 <= k < |audioMixer.audioSources| ==>
              && !audioMixer.audioSources[k].captureAudio
              && audioMixer.audioSources[k].audioFrames == old(audioMixer.audioSources[k].audioFrames)
              && audioMixer.audioSources[k].volumeUnitLevel == old(audioMixer.audioSources[k].volumeUnitLevel))
    {
      PaceFrame();
      ToggleRecording(ctx);
    }

    /** Changing the resolution is refused while recording; a failing texture rebuild keeps the new resolution. */
    method SetTrackResolution(resolution: CameraResolution, rebuildOk: bool) returns (r: LckResult)
      modifies this`cameraTrack
      ensures isRecording ==> r == Failure(CantEditSettingsWhileRecording) && cameraTrack == old(cameraTrack)
      ensures !isRecording ==>
        && cameraTrack == old(cameraTrack).(resolution := resolution)
        && r == (if rebuildOk then Success else Failure(UnknownError))
    {
      if isRecording {
        return Failure(CantEditSettingsWhileRecording);
      }
      cameraTrack := cameraTrack.(resolution := resolution);
      if !rebuildOk {
        return Failure(UnknownError);
      }
      return Success;
    }

    /** Changing the framerate is refused while recording. */
    method SetTrackFramerate(framerate: nat) returns (r: LckResult)
      modifies this`cameraTrack
      ensures isRecording ==> r == Failure(CantEditSettingsWhileRecording) && cameraTrack == old(cameraTrack)
      ensures !isRecording ==> r == Success && cameraTrack == old(cameraTrack).(framerate := framerate)
    {
      if isRecording {
        return Failure(CantEditSettingsWhileRecording);
      }
      cameraTrack := cameraTrack.(framerate := framerate);
      return Success;
    }

    /** The recording stopwatch's time while a session runs. */
    function GetRecordingDuration(): (r: LckValue<real>)
      reads this
      ensures r.Ok? <==> isRecording && recordingStopwatch.Some?
      ensures r.Err? ==> r.error == NotCurrentlyRecording
    {
      if recordingStopwatch.None? || !isRecording then Err(NotCurrentlyRecording)
      else Ok(recordingStopwatch.value)
    }

    /** Makes a registered camera the active one; an unknown monitor is reported after the switch. */
    method ActivateCameraById(cameraId: string, cameras: set<string>, monitorId: Option<string>, monitors: set<string>) returns (r: LckResult)
      modifies this`activeCamera, pacing`cameraRendering
      ensures cameraId !in cameras ==> r == Failure(CameraIdNotFound) && activeCamera == old(activeCamera) && pacing.cameraRendering == old(pacing.cameraRendering)
      ensures cameraId in cameras ==> activeCamera == Some(cameraId) && pacing.cameraRendering
      ensures cameraId in cameras ==> (r == Success <==> monitorId.None? || monitorId.value == [] || monitorId.value in monitors)
      ensures r != Success ==> r == Failure(CameraIdNotFound) || r == Failure(MonitorIdNotFound)
    {
      if cameraId !in cameras {
        return Failure(CameraIdNotFound);
      }
      activeCamera := Some(cameraId);
      pacing.cameraRendering := true;
      if monitorId.Some? && monitorId.value != [] && monitorId.value !in monitors {
        return Failure(MonitorIdNotFound);
      }
      return Success;
    }

    /** No camera is active afterwards and capture is off. */
    method StopActiveCamera() returns (r: LckResult)
      modifies this`activeCamera, pacing`cameraRendering, this`isCapturing
      ensures r == Success && activeCamera.None? && !isCapturing
      ensures old(activeCamera).Some? ==> !pacing.cameraRendering
      ensures old(activeCamera).None? ==> pacing.cameraRendering == old(pacing.cameraRendering)
    {
      if activeCamera.Some? {
        pacing.cameraRendering := false;
        activeCamera := None;
      }
      isCapturing := false;
      return Success;
    }

    /** A camera leaving the registry stops it if it was the active one. */
    method OnCameraUnregistered(cameraId: string)
      modifies this`activeCamera, pacing`cameraRendering, this`isCapturing
      ensures old(activeCamera) == Some(cameraId) ==> activeCamera.None? && !isCapturing && !pacing.cameraRendering
      ensures old(activeCamera) != Some(cameraId) ==>
        activeCamera == old(activeCamera) && isCapturing == old(isCapturing) && pacing.cameraRendering == old(pacing.cameraRendering)
    {
      if activeCamera == Some(cameraId) {
        var _ := StopActiveCamera();
      }
    }

    /** A new monitor is given the track texture, which turns capture on. */
    method OnMonitorRegistered()
      modifies this`isCapturing
      ensures isCapturing
    {
      isCapturing := true;
    }

    /** The game-audio level as the audio mixer reports it (None where its lookup throws). */
    method GetGameOutputLevel() returns (r: Option<real>)
      requires Valid() && audioMixer.Valid()
      ensures var game := FirstGameSource(|audioMixer.audioSources|, audioMixer.microphoneAudioSourceIndex);
        && (audioMixer.isGameAudioMute ==> r == Some(0.0))
        && (!audioMixer.isGameAudioMute && game < 0 ==> r == None)
        && (!audioMixer.isGameAudioMute && game >= 0 ==> r == Some(audioMixer.audioSources[game].GetCurrentAudioLevel()))
    {
      r := audioMixer.GetGameOutputLevel();
    }

    /** The microphone level on the non-Android path: the audio mixer's. */
    function GetMicrophoneOutputLevel(): (r: LckValue<real>)
      reads this, pacing, audioMixer, audioMixer.audioSources
      requires Valid() && audioMixer.Valid()
      ensures r.Ok? && r.value >= 0.0
      ensures !audioMixer.isMicrophoneOpen ==> r.value == 0.0
    {
      Ok(audioMixer.GetMicrophoneOutputLevel())
    }

    method SetMicrophoneCaptureActive(isActive: bool) returns (r: LckResult)
      requires Valid() && audioMixer.Valid()
      modifies audioMixer`isMicrophoneOpen, audioMixer.microphone
      ensures Valid() && audioMixer.Valid() && r == Success
      ensures audioMixer.IsMicrophoneMute() == Ok(!isActive)
      ensures audioMixer.microphone != null ==> audioMixer.microphone.volumeUnitLevel == if isActive then 1.0 else 0.0
      ensures forall k :: 0 <= k < |audioMixer.audioSources| && audioMixer.audioSources[k] != audioMixer.microphone ==>
        unchanged(audioMixer.audioSources[k])
      ensures forall k :: 0 <= k < |audioMixer.audioSources| ==>
        audioMixer.audioSources[k].audioFrames == old(audioMixer.audioSources[k].audioFrames)
    {
      r := audioMixer.SetMicrophoneOpen(isActive);
    }

    method SetGameAudioMute(isMute: bool) returns (r: LckResult)
      requires Valid() && audioMixer.Valid()
      modifies audioMixer`isGameAudioMute, audioMixer.audioSources
      ensures Valid() && audioMixer.Valid() && r == Success
      ensures audioMixer.IsGameAudioMute() == Ok(isMute)
      ensures forall k :: 0 <= k < |audioMixer.audioSources| && k != audioMixer.microphoneAudioSourceIndex ==>
        audioMixer.audioSources[k].volumeUnitLevel == if isMute then 0.0 else 1.0
      ensures forall k :: 0 <= k < |audioMixer.audioSources| && k == audioMixer.microphoneAudioSourceIndex ==>
        audioMixer.audioSources[k].volumeUnitLevel == old(audioMixer.audioSources[k].volumeUnitLevel)
      ensures forall k :: 0 <= k < |audioMixer.audioSources| ==>
        audioMixer.audioSources[k].audioFrames == old(audioMixer.audioSources[k].audioFrames)
    {
      r := audioMixer.SetGameAudioMute(isMute);
    }

    /** Disposal disposes the recorder, which stops a running session first. */
    method Dispose() returns (stopStarted: bool)
      modifies recorder`cameraRenderData, recorder`pendingStops, recorder`events
      ensures stopStarted == recorder.isRecording
      ensures recorder.pendingStops == old(recorder.pendingStops) + (if stopStarted then 1 else 0)
      ensures recorder.isRecording ==> recorder.cameraRenderData == old(recorder.cameraRenderData) && recorder.events == old(recorder.events)
      ensures !recorder.isRecording ==>
        && recorder.cameraRenderData == ReleasedAll(old(recorder.cameraRenderData))
        && recorder.events == old(recorder.events) + ReleaseEvents(old(recorder.cameraRenderData))
    {
      stopStarted := recorder.Dispose();
    }
  }
}

=== FILE: recorder.dfy ===
/**
 * The recorder session: the guards around the native encoder, the
 * microphone flags, the capture buffers handed to the encoder and the name
 * of the output file. Every native call is recorded in an event log instead
 * of being performed; its result, when it has one, is a parameter.
 */
module Recorder {
  import opened LckTypes

  /** One texture handed to the encoder with each frame. */
  datatype FrameTexture = FrameTexture(id: nat, trackIndex: nat)

  /** The native render buffer of one video track. */
  datatype CaptureData = CaptureData(bufferId: nat, trackIndex: nat, released: bool)

  /** What one EncodeFrame call hands to the encoder. */
  datatype FrameSubmission = FrameSubmission(
    textureIds: seq<FrameTexture>,
    videoTimestampMilli: nat,
    audioTracksSize: nat,
    audioTracks: seq<AudioTrack>,
    readyFramesSize: nat,
    readyFrames: seq<bool>)

  /** A recording saved to the gallery: where, and how long it ran. */
  datatype RecordingData = RecordingData(recordingFilePath: string, recordingDuration: real)

  /** How a native call run on a worker thread ended. */
  datatype NativeOutcome = Returned(ok: bool) | Threw

  /** The recorder's calls into the native library and the work it schedules, in order. */
  datatype RecorderEvent =
    | CreateRecorder
    | StartRecorder(path: string, tracks: seq<TrackInfo>)
    | InitResources
    | Submit(frame: FrameSubmission)
    | StartMicrophone
    | StopMicrophone
    | OpenMicrophone
    | CloseMicrophone
    | StopRecorder
    | ReleaseBuffer(bufferId: nat)
    | CopyToGallery(path: string)

  /** C#'s `(uint)count - 1`: unsigned 32-bit subtraction, which wraps below zero. */
  function LastTrackIndex(count: nat): (r: nat)
    requires count < 0x1_0000_0000
    ensures r < 0x1_0000_0000
    ensures count > 0 ==> r == count - 1
    ensures count == 0 ==> r == 0xFFFF_FFFF
  {
    (count + 0xFFFF_FFFF) % 0x1_0000_0000
  }

  /** The output file's name: the prefix, an underscore, the date and the extension, in that order. */
  function RecordingFileName(prefix: string, date: string): (r: string)
    ensures |r| == |prefix| + |date| + 5
    ensures r[..|prefix|] == prefix && r[|prefix|] == '_'
    ensures r[|prefix| + 1..|r| - 4] == date
    ensures r[|r| - 4..] == ".mp4"
  {
    prefix + "_" + date + ".mp4"
  }

  /** Different dates give different names for the same prefix. */
  lemma FileNamesDifferByDate(prefix: string, date1: string, date2: string)
    requires RecordingFileName(prefix, date1) == RecordingFileName(prefix, date2)
    ensures date1 == date2
  {
    var n := RecordingFileName(prefix, date1);
    assert date1 == n[|prefix| + 1..|n| - 4];
  }

  /**
   * .NET's path join with the Unix separator '/': an empty name gives the
   * directory and a rooted name (one starting with '/') or an empty
   * directory gives the name alone; otherwise the two are joined with '/'
   * unless the directory already ends with one.
   */
  function PathCombine(directory: string, name: string): string
  {
    if name == [] then directory
    else if directory == [] || name[0] == '/' then name
    else if directory[|directory| - 1] == '/' then directory + name
    else directory + "/" + name
  }

  /**
   * A relative name is appended to the directory with exactly one
   * separator between them; a rooted name replaces the directory.
   */
  lemma PathCombineParts(directory: string, name: string)
    ensures name == [] ==> PathCombine(directory, name) == directory
    ensures name != [] && name[0] == '/' ==> PathCombine(directory, name) == name
    ensures name != [] && name[0] != '/' ==>
      var r := PathCombine(directory, name);
      && |directory| + |name| <= |r| <= |directory| + |name| + 1
      && r[..|directory|] == directory
      && r[|r| - |name|..] == name
      && (directory != [] ==> r[|r| - |name| - 1] == '/')
      && (|r| == |directory| + |name| + 1 <==> directory != [] && directory[|directory| - 1] != '/')
  {
  }

  /** The texture list of the capture buffers, in buffer order. */
  function Textures(data: seq<CaptureData>): (r: seq<FrameTexture>)
    ensures |r| == |data|
    ensures forall i :: 0 <= i < |r| ==> r[i] == FrameTexture(data[i].bufferId, data[i].trackIndex)
  {
    if data == [] then [] else Textures(data[..|data| - 1]) + [FrameTexture(data[|data| - 1].bufferId, data[|data| - 1].trackIndex)]
  }

  /**
   * Callbacks of the start task as written: a throwing native start reports
   * its exception and then, since the success flag is still false, the
   * generic failure as well.
   */
  function StartReportsAsWritten(outcome: NativeOutcome): (r: seq<LckResult>)
  {
    match outcome
    case Threw => [Failure(RecordingError), Failure(RecordingError)]
    case Returned(ok) => if ok then [Success] else [Failure(RecordingError)]
  }

  /** The start callback fires twice when the native start throws. */
  lemma StartReportsTwiceOnThrow()
    ensures |StartReportsAsWritten(Threw)| == 2
  {
  }

  /** Callbacks of the start task: exactly one, the failure once whatever the cause. */
  function StartReports(outcome: NativeOutcome): (r: seq<LckResult>)
    ensures |r| == 1
    ensures r[0] == Success <==> outcome == Returned(true)
    ensures r[0] != Success ==> r[0] == Failure(RecordingError)
  {
    match outcome
    case Threw => [Failure(RecordingError)]
    case Returned(ok) => if ok then [Success] else [Failure(RecordingError)]
  }

  /**
   * Callbacks of the stop task as written: the `return` in the worker's
   * exception handler leaves only the worker, so after reporting the
   * exception the task goes on to end the session and report success.
   */
  function StopReportsAsWritten(threw: bool): (r: seq<LckResult>)
  {
    if threw then [Failure(RecordingError), Success] else [Success]
  }

  /** A throwing native stop is reported as a failure and then as a success. */
  lemma StopReportsFailureThenSuccess()
    ensures StopReportsAsWritten(true)[0] == Failure(RecordingError)
    ensures StopReportsAsWritten(true)[|StopReportsAsWritten(true)| - 1] == Success
  {
  }

  /** Callbacks of the stop task: exactly one, success only when the native stop returned. */
  function StopReports(threw: bool): (r: seq<LckResult>)
    ensures |r| == 1
    ensures r[0] == Success <==> !threw
    ensures threw ==> r[0] == Failure(RecordingError)
  {
    if threw then [Failure(RecordingError)] else [Success]
  }

  /**
   * The recorder. `isRecording` is the session flag that every encode
   * call checks; the microphone flags guard the native microphone calls.
   */
  class LckRecorder {
    var isRecording: bool
    var isMicrophoneOpen: bool
    var isMicrophoneRecording: bool
    /** An asynchronous microphone open has been started and not finished. */
    var microphoneOpenPending: bool
    var cameraRenderData: seq<CaptureData>
    var textureIds: seq<FrameTexture>
    var lastRecordingFilePath: string
    var recordingStartTime: real
    /** Stop tasks begun whose native stop has not finished yet. */
    var pendingStops: nat
    var events: seq<RecorderEvent>

    constructor ()
      ensures !isRecording && !isMicrophoneOpen && !isMicrophoneRecording
      ensures cameraRenderData == [] && events == [] && pendingStops == 0
    {
      isRecording := false;
      isMicrophoneOpen := false;
      isMicrophoneRecording := false;
      microphoneOpenPending := false;
      cameraRenderData := [];
      textureIds := [];
      lastRecordingFilePath := "";
      recordingStartTime := 0.0;
      pendingStops := 0;
      events := [];
    }

    function IsRecording(): LckValue<bool>
      reads this
    {
      Ok(isRecording)
    }

    /**
     * The synchronous part of the start task, up to the native start that
     * runs on a worker: a new encoder context, one capture buffer for the
     * last track, and the output path. `bufferId` is the id of the render
     * buffer the native side creates, `date` the formatted current time and
     * `cachePath` the temporary cache directory.
     */
    method BeginStart(tracks: seq<TrackInfo>, firstVideoTrackIndex: int, bufferId: nat,
                      prefix: string, date: string, cachePath: string)
      requires |tracks| < 0x1_0000_0000
      modifies this`cameraRenderData, this`lastRecordingFilePath, this`events
      ensures cameraRenderData == [CaptureData(bufferId, LastTrackIndex(|tracks|), false)]
      ensures lastRecordingFilePath == PathCombine(cachePath, RecordingFileName(prefix, date))
      ensures events == old(events) + [CreateRecorder, StartRecorder(lastRecordingFilePath, tracks)]
      ensures isRecording == old(isRecording)
    {
      // the index of the first video track is computed and never used
      var indexOfVideoTrack := FindVideoTrack(tracks);
      events := events + [CreateRecorder];
      cameraRenderData := [CaptureData(bufferId, LastTrackIndex(|tracks|), false)];
      var filename := RecordingFileName(prefix, date);
      lastRecordingFilePath := PathCombine(cachePath, filename);
      events := events + [StartRecorder(lastRecordingFilePath, tracks)];
    }

    /**
     * The end of the start task once the native start has finished:
     * reports one result; on success the start time is taken, the encoder
     * resources are initialised, the texture list is built and the session
     * flag is set before the success is reported.
     */
    method CompleteStart(outcome: NativeOutcome, now: real) returns (reports: seq<LckResult>)
      modifies this`isRecording, this`recordingStartTime, this`textureIds, this`events
      ensures reports == StartReports(outcome)
      ensures outcome == Returned(true) ==>
        && isRecording && recordingStartTime == now
        && textureIds == Textures(cameraRenderData)
        && events == old(events) + [InitResources]
      ensures outcome != Returned(true) ==>
        && isRecording == old(isRecording) && recordingStartTime == old(recordingStartTime)
        && textureIds == old(textureIds) && events == old(events)
    {
      reports := StartReports(outcome);
      if outcome != Returned(true) {
        return;
      }
      recordingStartTime := now;
      events := events + [InitResources];
      textureIds := BuildTextureList(cameraRenderData);
      isRecording := true;
    }

    /**
     * Hands one frame to the encoder: refused (false, nothing submitted)
     * when no session runs; otherwise one submission with the session's
     * textures, one audio track and one ready flag.
     */
    method EncodeFrame(elapsedMilliseconds: nat, readyTracks: seq<bool>, audioTracks: seq<AudioTrack>) returns (ok: bool)
      modifies this`events
      ensures ok == isRecording
      ensures !ok ==> events == old(events)
      ensures ok ==> events == old(events) + [Submit(FrameSubmission(textureIds, elapsedMilliseconds, 1, audioTracks, 1, readyTracks))]
    {
      if !isRecording {
        return false;
      }
      var frame := FrameSubmission(textureIds, elapsedMilliseconds, 1, audioTracks, 1, readyTracks);
      events := events + [Submit(frame)];
      return true;
    }

    /** The native microphone volume when the microphone is open and recording, 0 otherwise. */
    function GetNativeMicrophoneVolume(nativeVolume: real): (r: real)
      reads this
      ensures isMicrophoneOpen && isMicrophoneRecording ==> r == nativeVolume
      ensures r != 0.0 ==> isMicrophoneOpen && isMicrophoneRecording
    {
      if isMicrophoneOpen && isMicrophoneRecording then nativeVolume else 0.0
    }

    /** Starts the native microphone when it is open; the recording flag becomes the native result. */
    method StartNativeMicrophone(nativeOk: bool) returns (r: bool)
      modifies this`isMicrophoneRecording, this`events
      ensures !old(isMicrophoneOpen) ==> !r && isMicrophoneRecording == old(isMicrophoneRecording) && events == old(events)
      ensures old(isMicrophoneOpen) ==> r == nativeOk && isMicrophoneRecording == nativeOk && events == old(events) + [StartMicrophone]
      ensures r ==> forall v :: GetNativeMicrophoneVolume(v) == v
    {
      if !isMicrophoneOpen {
        return false;
      }
      events := events + [StartMicrophone];
      isMicrophoneRecording := nativeOk;
      r := isMicrophoneRecording;
    }

    /** Stops the native microphone when it is open; the recording flag clears only when that succeeds. */
    method StopNativeMicrophone(nativeOk: bool) returns (r: bool)
      modifies this`isMicrophoneRecording, this`events
      ensures !old(isMicrophoneOpen) ==> !r && isMicrophoneRecording == old(isMicrophoneRecording) && events == old(events)
      ensures old(isMicrophoneOpen) ==> r == nativeOk && events == old(events) + [StopMicrophone]
      ensures isMicrophoneRecording == (old(isMicrophoneRecording) && !r)
      ensures r ==> forall v :: GetNativeMicrophoneVolume(v) == 0.0
    {
      if !isMicrophoneOpen {
        return false;
      }
      events := events + [StopMicrophone];
      if nativeOk {
        isMicrophoneRecording := false;
        return true;
      }
      return false;
    }

    /**
     * Android only. Opening starts an asynchronous open and closing closes
     * at once; either way the flag returned is the one in force when the
     * call returns, so an open reports the microphone still closed.
     */
    method SetMicrophoneOpen(open: bool) returns (r: LckValue<bool>)
      modifies this`isMicrophoneOpen, this`microphoneOpenPending, this`events
      ensures open && !old(isMicrophoneOpen) ==> microphoneOpenPending && !isMicrophoneOpen && events == old(events)
      ensures !open && old(isMicrophoneOpen) ==> !isMicrophoneOpen && events == old(events) + [CloseMicrophone]
      ensures open == old(isMicrophoneOpen) ==> isMicrophoneOpen == old(isMicrophoneOpen) && events == old(events)
      ensures !(open && !old(isMicrophoneOpen)) ==> microphoneOpenPending == old(microphoneOpenPending)
      ensures r == Ok(isMicrophoneOpen)
    {
      if open && !isMicrophoneOpen {
        microphoneOpenPending := true;
      } else if !open && isMicrophoneOpen {
        DoCloseMicrophone();
      }
      r := Ok(isMicrophoneOpen);
    }

    /**
     * Android only. The worker part of an open: the open flag becomes the
     * native open's result and, when it opened, the recording flag the
     * native start's result.
     */
    method CompleteOpenMicrophone(openOk: bool, startOk: bool)
      modifies this`isMicrophoneOpen, this`isMicrophoneRecording, this`microphoneOpenPending, this`events
      ensures !microphoneOpenPending && isMicrophoneOpen == openOk
      ensures openOk ==> isMicrophoneRecording == startOk && events == old(events) + [OpenMicrophone, StartMicrophone]
      ensures !openOk ==> isMicrophoneRecording == old(isMicrophoneRecording) && events == old(events) + [OpenMicrophone]
    {
      microphoneOpenPending := false;
      events := events + [OpenMicrophone];
      isMicrophoneOpen := openOk;
      if isMicrophoneOpen {
        events := events + [StartMicrophone];
        isMicrophoneRecording := startOk;
      }
    }

    /** Closes the native microphone if it is open. */
    method DoCloseMicrophone()
      modifies this`isMicrophoneOpen, this`events
      ensures !isMicrophoneOpen
      ensures events == old(events) + (if old(isMicrophoneOpen) then [CloseMicrophone] else [])
      ensures forall v :: GetNativeMicrophoneVolume(v) == 0.0
    {
      if isMicrophoneOpen {
        events := events + [CloseMicrophone];
        isMicrophoneOpen := false;
      }
    }

    /**
     * Begins the stop task: its native stop is handed to a worker and
     * everything else waits for it, so the only effect now is one more
     * stop in flight.
     */
    method Stop()
      modifies this`pendingStops
      ensures pendingStops == old(pendingStops) + 1
    {
      pendingStops := pendingStops + 1;
    }

    /**
     * The end of the stop task once the native stop has finished: the
     * session flag clears, then the buffers are released (which the cleared
     * flag now allows), the gallery copy is scheduled and success is
     * reported. When the native stop throws, the failure is reported and
     * the session is left as it was.
     */
    method CompleteStop(threw: bool) returns (reports: seq<LckResult>)
      requires pendingStops > 0
      modifies this`isRecording, this`cameraRenderData, this`pendingStops, this`events
      ensures pendingStops == old(pendingStops) - 1
      ensures reports == StopReports(threw)
      ensures threw ==> isRecording == old(isRecording) && cameraRenderData == old(cameraRenderData) && events == old(events) + [StopRecorder]
      ensures !threw ==>
        && !isRecording
        && cameraRenderData == ReleasedAll(old(cameraRenderData))
        && events == old(events) + [StopRecorder] + ReleaseEvents(old(cameraRenderData)) + [CopyToGallery(lastRecordingFilePath)]
    {
      pendingStops := pendingStops - 1;
      events := events + [StopRecorder];
      reports := StopReports(threw);
      if threw {
        return;
      }
      isRecording := false;
      ReleaseNativeRenderBuffers();
      events := events + [CopyToGallery(lastRecordingFilePath)];
    }

    /**
     * Refused while a session runs (the buffers are in use); otherwise
     * every capture buffer is disposed, in order.
     */
    method ReleaseNativeRenderBuffers()
      modifies this`cameraRenderData, this`events
      ensures isRecording ==> cameraRenderData == old(cameraRenderData) && events == old(events)
      ensures !isRecording ==> cameraRenderData == ReleasedAll(old(cameraRenderData)) && events == old(events) + ReleaseEvents(old(cameraRenderData))
    {
      if isRecording {
        return;
      }
      var before := cameraRenderData;
      for i := 0 to |before|
        invariant cameraRenderData == ReleasedAll(before[..i]) + before[i..]
        invariant events == old(events) + ReleaseEvents(before[..i])
      {
        ReleaseStep(before, i, cameraRenderData);
        events := events + [ReleaseBuffer(before[i].bufferId)];
        cameraRenderData := cameraRenderData[i := before[i].(released := true)];
      }
      assert before[..|before|] == before;
    }

    /**
     * Disposal. A running session gets a stop started, whose native part
     * runs on a worker, so the release that follows at once is refused and
     * the buffers are released when that stop completes; without a session
     * the buffers are released now.
     */
    method Dispose() returns (stopStarted: bool)
      modifies this`cameraRenderData, this`pendingStops, this`events
      ensures stopStarted == isRecording
      ensures pendingStops == old(pendingStops) + (if isRecording then 1 else 0)
      ensures isRecording ==> cameraRenderData == old(cameraRenderData) && events == old(events)
      ensures !isRecording ==>
        cameraRenderData == ReleasedAll(old(cameraRenderData)) && events == old(events) + ReleaseEvents(old(cameraRenderData))
    {
      stopStarted := isRecording;
      if isRecording {
        Stop();
      }
      ReleaseNativeRenderBuffers();
    }

    /**
     * The end of the gallery copy scheduled by a completed stop: the saved
     * recording's path and its duration since the session started, or the
     * copy failure.
     */
    method CompleteGalleryCopy(success: bool, galleryPath: string, now: real) returns (r: LckValue<RecordingData>)
      ensures success <==> r.Ok?
      ensures success ==> r.value == RecordingData(galleryPath, now - recordingStartTime)
      ensures !success ==> r == Err(FailedToCopyRecordingToGallery)
    {
      if success {
        r := Ok(RecordingData(galleryPath, now - recordingStartTime));
      } else {
        r := Err(FailedToCopyRecordingToGallery);
      }
    }
  }

  /** The capture buffers, all marked released. */
  function ReleasedAll(data: seq<CaptureData>): (r: seq<CaptureData>)
    ensures |r| == |data|
    ensures forall i :: 0 <= i < |r| ==> r[i] == data[i].(released := true)
  {
    if data == [] then [] else ReleasedAll(data[..|data| - 1]) + [data[|data| - 1].(released := true)]
  }

  /** Releasing buffer `i` extends the released prefix by one. */
  lemma ReleaseStep(data: seq<CaptureData>, i: nat, current: seq<CaptureData>)
    requires i < |data| && current == ReleasedAll(data[..i]) + data[i..]
    ensures current[i := data[i].(released := true)] == ReleasedAll(data[..i + 1]) + data[i + 1..]
    ensures ReleaseEvents(data[..i + 1]) == ReleaseEvents(data[..i]) + [ReleaseBuffer(data[i].bufferId)]
  {
    assert data[..i + 1][..i] == data[..i];
  }

  /** One release event per buffer, in buffer order. */
  function ReleaseEvents(data: seq<CaptureData>): (r: seq<RecorderEvent>)
    ensures |r| == |data|
    ensures forall i :: 0 <= i < |r| ==> r[i] == ReleaseBuffer(data[i].bufferId)
  {
    if data == [] then [] else ReleaseEvents(data[..|data| - 1]) + [ReleaseBuffer(data[|data| - 1].bufferId)]
  }

  /** Index of the first video track, 0 when there is none. */
  method FindVideoTrack(tracks: seq<TrackInfo>) returns (index: nat)
    ensures index == 0 || index < |tracks|
    ensures index < |tracks| ==> (tracks[index].trackType == Video || index == 0)
    ensures forall k :: 0 <= k < index ==> tracks[k].trackType != Video
    ensures index == 0 && |tracks| > 0 && tracks[0].trackType != Video ==> forall k :: 0 <= k < |tracks| ==> tracks[k].trackType != Video
  {
    index := 0;
    var i := 0;
    while i < |tracks|
      invariant 0 <= i <= |tracks|
      invariant forall k :: 0 <= k < i ==> tracks[k].trackType != Video
    {
      if tracks[i].trackType == Video {
        return i;
      }
      i := i + 1;
    }
  }

  /** The texture list of the capture buffers, built one entry per buffer. */
  method BuildTextureList(data: seq<CaptureData>) returns (textures: seq<FrameTexture>)
    ensures textures == Textures(data)
  {
    textures := [];
    for i := 0 to |data|
      invariant textures == Textures(data[..i])
    {
      assert data[..i + 1][..i] == data[..i];
      textures := textures + [FrameTexture(data[i].bufferId, data[i].trackIndex)];
    }
    assert data[..|data|] == data;
  }
}

=== FILE: types.dfy ===
/**
 * Value types shared by the capture, mixing and recording components:
 * result codes, track descriptors and the records handed to the native encoder.
 */
module LckTypes {

  datatype Option<T> = None | Some(value: T)

  /** The error taxonomy of the recording API. */
  datatype LckError =
    | MicrophonePermissionDenied
    | NotEnoughStorageSpace
    | RecordingAlreadyStarted
    | NotCurrentlyRecording
    | CantEditSettingsWhileRecording
    | CameraIdNotFound
    | MonitorIdNotFound
    | RecordingError
    | FailedToCopyRecordingToGallery
    | UnknownError

  /** A result without a value. */
  datatype LckResult = Success | Failure(error: LckError)

  /** A result carrying a value on success. */
  datatype LckValue<T> = Ok(value: T) | Err(error: LckError)

  datatype StopReason = UserRequested | LowStorageSpace | ApplicationLifecycle

  datatype TrackType = Video | Audio | Metadata

  /** One entry of the track list handed to the native encoder when a session starts. */
  datatype TrackInfo = TrackInfo(
    trackType: TrackType,
    bitrate: nat,
    width: nat,
    height: nat,
    framerate: nat,
    samplerate: nat,
    channels: nat)

  /** One audio track of a frame submission: the samples behind its data pointer and their count. */
  datatype AudioTrack = AudioTrack(trackIndex: nat, timestampSamples: nat, dataSize: nat, data: seq<real>)

  datatype CameraResolution = CameraResolution(width: nat, height: nat)

  datatype CameraTrackDescriptor = CameraTrackDescriptor(
    resolution: CameraResolution,
    bitrate: nat,
    framerate: nat)

  function Min(a: int, b: int): int { if a <= b then a else b }

  function MaxReal(a: real, b: real): real { if a >= b then a else b }

  function Abs(x: real): real { if x < 0.0 then -x else x }
}
